=== FILE: README.md ===
# org.roettig.maths in Dafny

A model of the core of the `org.roettig.maths` Java library, with proofs about it. The model covers:

- **Statistics.** The static measures of the `Statistics` class:
  - `mean`, `var`, `std`, `q2`, `pearsonCorr` and `mse`;
  - accuracy, the confusion matrix, sensitivity/specificity and precision/recall (one label or averaged over the labels), and the F-measure;
  - the rank-statistic `auROC`;
  - the index-keeping `sort`.
- **Matrix helpers** of the `matrix` package:
  - the row, column, element and diagonal applicators;
  - the row, column, diagonal and element iterators;
  - `ColumnCenterer` and `ColumnScaler`;
  - `MatrixHelper` (`eye`, `getRowSumMatrix`);
  - `MMatrix` (`fill`, `equalsEps`);
  - the `Pair` class.
- **MDS.** Classical multidimensional scaling around its decompositions:
  - the centring matrix and Gramian B = −½·H·D2·H of `compute()`;
  - the rule that fixes the embedding dimension;
  - the distance matrices;
  - `embed`/`embedGramian` with their compute-once embedding measures.
- **PCA.** Principal component analysis around the SVD of the prepared data:
  - centring or standardizing;
  - snapping tiny singular values;
  - scores, residuals, `TᵀT` and DModX;
  - goodness of fit, `varE` and the Hotelling parameter.

## Modelling choices

- **Numbers.**
  - Doubles are `real`.
  - A division that yields NaN or ±∞ in Java is `Err(NotFinite)`.
  - `Math.sqrt` is a parameter `sqrt` constrained by `IsSqrt` (a non-negative root of every non-negative number).
- **Exceptions.** Every exception the code can throw becomes an error of the `Result` type:
  - `NoSuchElementException` is `NoSuchElement`;
  - array bounds errors are `IndexOutOfRange`;
  - Jama's dimension checks are `DimensionMismatch`;
  - integer division by zero is `ArithmeticError`;
  - a null field is `NullReference`;
  - a negative array size is `NegativeSize`.
- **Matrices.**
  - A Jama `Matrix` is the immutable datatype `Matrices.Matrix`.
  - Each in-place loop of an applicator is a fold over the indices. The fold's contract says which cells the first n passes have changed.
  - Jama's product, transpose, difference and `getMatrix` are defined in `Algebra`, including `getMatrix` with an empty index array, which yields an n × 0 matrix without checking the rows.
  - The SVD and eigendecomposition results enter as parameters.
- **Java `int` arithmetic** is modelled with wrap-around and truncating division (`JavaInt`) wherever an `int` can leave its range:
  - the Hotelling factor's products and quotient;
  - the divisor and the value count of `varE`;
  - the pair counters `N` of `auROC` and `k` of `calcSensSpecAlt`. Each counts one per pair, and the count wraps past 2³¹ − 1 pairs.
- **Label order.** The iteration order of the `HashSet` of labels is a parameter `labels`. The predicate `Enumerates` says it lists each true label exactly once.
- **MDS state.** The object is the datatype `Mds.Mds`. Its methods return the new state together with their result (`Outcome`), so a call that throws halfway still shows the fields it assigned.

Where the code and its documentation disagree, the model follows the code:

- `pearsonCorr` returns the squared correlation r², not r.
- `calcConfusionMatrix` walks the true labels. Extra predictions are ignored, and too few predictions throw.
- `var` of one value is NaN, while `var` of no values is −0.0 (modelled as 0).
- `ColumnScaler` leaves a column with fewer than two rows, or with zero spread, unchanged.
- With exactly two labels, `calcSensSpec`/`calcPrecRec` report the measures of the first label the set yields rather than an average.

## Model

Source paths are relative to the repository root.

| member | source | states |
|---|---|---|
| Descriptive.Mean | src/org/roettig/maths/statistics/Statistics.java:83-96 | defined exactly for a non-empty series, and then mean·n equals the sum |
| Descriptive.DeviationsSumToZero | src/org/roettig/maths/statistics/Statistics.java:83-96 | the deviations from the mean sum to zero |
| Descriptive.ConstantMean | src/org/roettig/maths/statistics/Statistics.java:83-96 | a constant series has its value as its mean |
| Descriptive.Var | src/org/roettig/maths/statistics/Statistics.java:105-119 | NaN exactly for one value, 0 for none, otherwise non-negative with var·(n−1) = sum of squared deviations |
| Descriptive.VarZero | src/org/roettig/maths/statistics/Statistics.java:105-119 | the variance is zero exactly when all values are equal |
| Descriptive.SpreadZero | src/org/roettig/maths/statistics/Statistics.java:105-119 | the squared deviations sum to zero exactly when the series is constant |
| Descriptive.VarShift | src/org/roettig/maths/statistics/Statistics.java:83-119 | shifting every value moves the mean by the shift and leaves the variance unchanged |
| Descriptive.VarScale | src/org/roettig/maths/statistics/Statistics.java:83-119 | scaling by k scales the mean by k and the variance by k² |
| Descriptive.DeviationsScale | src/org/roettig/maths/statistics/Statistics.java:83-119 | the deviations of a scaled series are the scaled deviations |
| Descriptive.Std | src/org/roettig/maths/statistics/Statistics.java:128-131 | defined exactly when var is, and is the non-negative root of var |
| Descriptive.SqErrorZero | src/org/roettig/maths/statistics/Statistics.java:212-228 | the squared error is zero exactly when the predictions equal the leading true values |
| Descriptive.Q2 | src/org/roettig/maths/statistics/Statistics.java:141-162 | more predictions than truths fail; a constant truth gives NaN; otherwise (1 − q2)·Σ(yt − mean)² is the squared prediction error, so q2 ≤ 1, with equality exactly for a perfect prediction |
| Descriptive.Mse | src/org/roettig/maths/statistics/Statistics.java:212-228 | more predictions than truths fail, none is NaN; otherwise mse·n is the squared error, ≥ 0, and 0 exactly for a perfect prediction |
| Descriptive.PearsonCorr | src/org/roettig/maths/statistics/Statistics.java:172-202 | the squared correlation: errors exactly for overlong predictions or zero spread; otherwise r²·sxx·syy = sxy², with sxy pairing each prediction's deviation with the true deviation at its position, and r² lies in [0, 1] (Cauchy–Schwarz) |
| Descriptive.PearsonSymmetric | src/org/roettig/maths/statistics/Statistics.java:172-202 | the measure is symmetric in its two series |
| Descriptive.MeanVarExample | src/org/roettig/maths/test/TestStatistics.java:20-58 | mean([1,2,3,4]) = 2.5 and var = 5/3, as the library's tests expect |
| Descriptive.PearsonExample | src/org/roettig/maths/test/TestStatistics.java:30-38 | pearsonCorr([1,2,3,4],[1,1,3,4]) = 121/135 ≈ 0.8963, as the library's test expects |
| Classification.Matches | src/org/roettig/maths/statistics/Statistics.java:52-73 | the count of agreeing positions never exceeds the length |
| Classification.MatchesExtremes | src/org/roettig/maths/statistics/Statistics.java:52-73 | all positions agree exactly when the sequences are equal; none agree exactly when every position differs |
| Classification.Accuracy | src/org/roettig/maths/statistics/Statistics.java:52-73 | different lengths fail, empty input is NaN, otherwise the share of agreeing positions |
| Classification.AccuracyShare | src/org/roettig/maths/statistics/Statistics.java:52-73 | accuracy lies in [0, 1] and accuracy·n is the number of matches |
| Classification.AccuracyExtremes | src/org/roettig/maths/statistics/Statistics.java:52-73 | accuracy is 1 exactly for equal sequences and 0 exactly when every position differs |
| Classification.AccuracyExample | src/org/roettig/maths/test/TestStatistics.java:61-84 | the four accuracy values 1, 2/3, 0 and 1/3 of the library's tests |
| Classification.Classify | src/org/roettig/maths/statistics/Statistics.java:239-292 | a pair is left out of the matrix exactly when truth and prediction differ and neither is the positive label |
| Classification.TallyMargins | src/org/roettig/maths/statistics/Statistics.java:239-292 | TP+FN counts the positive truths, TP+FP the positive predictions, TP+TN the agreeing pairs, and the four cells plus the left-out pairs count every position |
| Classification.TallyAppend | src/org/roettig/maths/statistics/Statistics.java:239-292 | tallying concatenated inputs adds the two confusion matrices |
| Classification.TallyBlocks | src/org/roettig/maths/statistics/Statistics.java:239-292 | tallying runs of identical pairs adds each run's cell that many times |
| Classification.ConfusionMatrix | src/org/roettig/maths/statistics/Statistics.java:239-292 | fails exactly when there are fewer predictions than truths; otherwise its margins count the positive truths, the positive predictions and the matches, and its cells never exceed n |
| Classification.TallyPosNeg | src/org/roettig/maths/statistics/Statistics.java:305-345 | TP+FN counts the positive truths; TN+FP counts the negative truths when the labels differ; TP+TN never exceeds the matches |
| Classification.ConfusionMatrixPosNeg | src/org/roettig/maths/statistics/Statistics.java:305-345 | fails exactly for fewer predictions than truths; its margins count the positive and negative truths |
| Classification.ThreeClassFirst | src/org/roettig/maths/test/TestStatistics.java:155-159 | the test's three-class data gives TP 8, TN 13, FP 1, FN 3 for the first label |
| Classification.ThreeClassSecond | src/org/roettig/maths/test/TestStatistics.java:162-166 | ... TP 7, TN 14, FP 3, FN 3 for the second |
| Classification.ThreeClassThird | src/org/roettig/maths/test/TestStatistics.java:169-173 | ... TP 6, TN 15, FP 4, FN 2 for the third |
| Classification.ConfusionExample | src/org/roettig/maths/test/TestStatistics.java:86-173 | calcConfusionMatrix reproduces the three expected matrices of the test |
| Classification.Ratio | src/org/roettig/maths/statistics/Statistics.java:355-411 | the hit rate lies in [0, 1], is 1 exactly with hits and no misses, 0 exactly without hits (0/0 reads 0), and rate·(hits+misses) = hits |
| Classification.Sensitivity | src/org/roettig/maths/statistics/Statistics.java:355-367 | in [0, 1]; 1 exactly when TP > 0 and FN = 0; 0 exactly when TP = 0 |
| Classification.Specificity | src/org/roettig/maths/statistics/Statistics.java:377-389 | in [0, 1]; 1 exactly when TN > 0 and FP = 0; 0 exactly when TN = 0 |
| Classification.Precision | src/org/roettig/maths/statistics/Statistics.java:399-411 | in [0, 1]; 1 exactly when TP > 0 and FP = 0; 0 exactly when TP = 0 |
| Classification.FullRecall | src/org/roettig/maths/statistics/Statistics.java:239-292 | FN = 0 exactly when every positive truth is predicted positive |
| Classification.SensSpec | src/org/roettig/maths/statistics/Statistics.java:423-436 | fails exactly for too few predictions; both values lie in [0, 1]; sensitivity is 1 exactly when the label occurs and is always recalled |
| Classification.PrecRec | src/org/roettig/maths/statistics/Statistics.java:558-571 | fails exactly for too few predictions; both values lie in [0, 1]; the recall equals the sensitivity of calcSensSpec |
| Classification.EnumeratesEmpty | src/org/roettig/maths/statistics/Statistics.java:449-490 | the label set is empty exactly when there are no truths |
| Classification.SumOver | src/org/roettig/maths/statistics/Statistics.java:472-487 | the sum of a [0, 1] measure over the labels lies between 0 and the label count |
| Classification.Averaged | src/org/roettig/maths/statistics/Statistics.java:449-490 | no truths gives NaN; too few predictions fail; with two labels the two measures of the first label's confusion matrix; otherwise each value is the sum of its measure over the labels divided by the label count, and lies in [0, 1] |
| Classification.SensSpecAveraged | src/org/roettig/maths/statistics/Statistics.java:449-490 | calcSensSpec over all labels: error cases as Averaged; with two labels the measures of the first label; otherwise the mean over the labels of each label's sensitivity and specificity; values in [0, 1] |
| Classification.PrecRecAveraged | src/org/roettig/maths/statistics/Statistics.java:584-626 | calcPrecRec over all labels: the same error cases; with two labels the first label's precision and recall; otherwise the mean over the labels of each label's precision and recall; values in [0, 1] |
| Classification.SumOverIsTotal | src/org/roettig/maths/statistics/Statistics.java:472-487 | summing a measure of each label's confusion matrix equals summing any per-label value that agrees with it label by label |
| Classification.AveragedIsMean | src/org/roettig/maths/statistics/Statistics.java:449-626 | off the two-label case, the averaged sensitivity, specificity, precision and recall are the means over the labels of the per-label calcSensSpec(pos, …) and calcPrecRec(pos, …) results |
| Classification.SumOverPermutation | src/org/roettig/maths/statistics/Statistics.java:472-487 | the sum over the labels does not depend on their order |
| Classification.EnumerationsPermute | src/org/roettig/maths/statistics/Statistics.java:449-490 | any two enumerations of the label set are permutations of each other |
| Classification.AveragedOrderFree | src/org/roettig/maths/statistics/Statistics.java:449-626 | the averaged sens/spec and prec/rec are the same for every iteration order of the label set |
| Classification.BinarySwap | src/org/roettig/maths/statistics/Statistics.java:239-292 | with two labels, the matrix of one label is that of the other with TP↔TN and FP↔FN |
| Classification.BinaryOrder | src/org/roettig/maths/statistics/Statistics.java:464-471 | with two labels, taking the other label first swaps sensitivity and specificity |
| Classification.SensSpecExample | src/org/roettig/maths/test/TestStatistics.java:177-232 | the test's two-class data gives sensitivity 8/9 and specificity 7/9 |
| Classification.SensSpecAveragedExample | src/org/roettig/maths/test/TestStatistics.java:231-237 | ... and their mean 5/6, whichever label the set yields first |
| Classification.ThreeClassLabels | src/org/roettig/maths/test/TestStatistics.java:243-320 | the three-class data's label enumerations are the permutations of its three labels |
| Classification.AveragedExample | src/org/roettig/maths/test/TestStatistics.java:312-320 | the averaged sensitivity, specificity, precision and recall of the three-class test, as exact fractions |
| Classification.FMeasureExample | src/org/roettig/maths/test/TestStatistics.java:321-323 | the F-measure of the three-class test is the harmonic mean of those precision and recall values |
| Classification.LabelPairs | src/org/roettig/maths/statistics/Statistics.java:503-545 | the pairs the nested loops visit: n(n−1)/2 of them, drawn from the labels |
| Classification.LabelPairsContents | src/org/roettig/maths/statistics/Statistics.java:503-545 | the pairs are exactly the (labels[i], labels[j]) with i < j: each such pair is listed, and every listed pair is one |
| Classification.LabelPairsDistinct | src/org/roettig/maths/statistics/Statistics.java:503-545 | for distinct labels, no pair pits a label against itself |
| Classification.SumOverPairs | src/org/roettig/maths/statistics/Statistics.java:503-545 | the pairwise sum of a [0, 1] measure lies between 0 and the pair count |
| Classification.SensSpecAlt | src/org/roettig/maths/statistics/Statistics.java:503-545 | NaN exactly with fewer than two labels or an int counter k wrapped to 0; fails for too few predictions; otherwise each value is the sum of sensitivity (specificity) over the (pos, neg) label pairs divided by k, the pair count wrapped to 32 bits, and in [0, 1] below 2³¹ pairs |
| Classification.SensSpecAltOverflow | src/org/roettig/maths/statistics/Statistics.java:521-542 | with 65537 labels k wraps to −2147450880 and both averages are non-positive |
| Classification.SensSpecAltTwoLabels | src/org/roettig/maths/statistics/Statistics.java:503-545 | with two labels the result is the sensitivity and specificity of the single pos/neg confusion matrix calcConfusionMatrix(labels[0], labels[1], yp, yt) |
| Classification.HarmonicBetween | src/org/roettig/maths/statistics/Statistics.java:672-683 | the harmonic mean of precision and recall lies between them |
| Classification.FMeasure | src/org/roettig/maths/statistics/Statistics.java:672-683 | fails only for too few predictions; otherwise f·(p + r) = 2pr for the averaged precision p and recall r, so f lies between them and in [0, 1]; 0 for no data |
| Roc.Credit | src/org/roettig/maths/statistics/Statistics.java:638-660 | a pair scores 1, ½ or 0, and 1 exactly when the positive score is larger |
| Roc.CreditComplement | src/org/roettig/maths/statistics/Statistics.java:638-660 | the credits of (x, y) and (y, x) add up to 1 |
| Roc.WinsAndLosses | src/org/roettig/maths/statistics/Statistics.java:638-660 | one score's wins over a list and its losses add up to the list length |
| Roc.ScoresComplement | src/org/roettig/maths/statistics/Statistics.java:638-660 | the scores of (pos, neg) and (neg, pos) add up to the number of pairs |
| Roc.PairCounter | src/org/roettig/maths/statistics/Statistics.java:642-647 | the int counter N after one increment per pair: the pair count wrapped to 32 bits, exact below 2³¹ pairs and 0 when a list is empty |
| Roc.AuRoc | src/org/roettig/maths/statistics/Statistics.java:638-660 | non-finite exactly when the int counter N is 0 (an empty list, or a pair count that wraps to 0); in [0, 1] below 2³¹ pairs; never positive when N wrapped below 0 |
| Roc.AuRocCredit | src/org/roettig/maths/statistics/Statistics.java:638-660 | auROC times the int counter N is the total credit over all pairs, for every N ≠ 0, wrapped or not |
| Roc.AuRocSwap | src/org/roettig/maths/statistics/Statistics.java:638-660 | the auROCs of (pos, neg) and (neg, pos) add up to the pair count over N, so to 1 below 2³¹ pairs: exchanging the lists turns auROC into 1 − auROC |
| Roc.AuRocPerfect | src/org/roettig/maths/statistics/Statistics.java:638-660 | below 2³¹ pairs, auROC is 1 exactly when every positive scores above every negative |
| Roc.AuRocTied | src/org/roettig/maths/statistics/Statistics.java:638-660 | below 2³¹ pairs, when all scores are equal, auROC is ½ |
| Roc.AuRocOverflow | src/org/roettig/maths/statistics/Statistics.java:642-659 | 46341 positives all above 46341 negatives: N wraps to −2147479015 and auROC is negative instead of 1 |
| Roc.AuRocIntended | src/org/roettig/maths/statistics/Statistics.java:638-660 | the credit over the true pair count: undefined exactly for an empty list, otherwise in [0, 1] with value · pairs = total credit |
| Roc.AuRocAgrees | src/org/roettig/maths/statistics/Statistics.java:638-660 | below 2³¹ pairs the code's auROC equals the intended one |
| Roc.AuRocIntendedSwap | src/org/roettig/maths/statistics/Statistics.java:638-660 | for any number of pairs, exchanging the lists turns the intended auROC into its complement |
| Roc.AuRocExample | src/org/roettig/maths/test/TestStatistics.java:327-388 | the JROCFIT rating data of the library's test gives auROC = 0.892 |
| Ranking.Indexed | src/org/roettig/maths/statistics/Statistics.java:687-693 | each value paired with its position |
| Ranking.Sort | src/org/roettig/maths/statistics/Statistics.java:685-710 | a permutation of the indexed values, ordered by value ascending or descending, with ties kept in input order (a stable sort) |
| Ranking.SortEntries | src/org/roettig/maths/statistics/Statistics.java:685-710 | every sorted entry carries a valid index and the value at that index |
| Ranking.SortOrder | src/org/roettig/maths/statistics/Statistics.java:685-710 | values appear in the requested order, and equal values keep increasing indices |
| Ranking.IndexedOnce | src/org/roettig/maths/statistics/Statistics.java:687-693 | no (index, value) pair occurs twice, so the permutation is exact |
| Pairs.SetFirst | src/org/roettig/maths/util/Pair.java:39-42 | changes the first component and keeps the second |
| Pairs.SetSecond | src/org/roettig/maths/util/Pair.java:59-62 | changes the second component and keeps the first |
| Pairs.SettersCommute | src/org/roettig/maths/util/Pair.java:18-62 | the two setters commute, and setting both yields the pair of the new values |
| Pairs.SetGetIdentity | src/org/roettig/maths/util/Pair.java:28-62 | setting a component to its current value changes nothing |
| Matrices.Fill | src/org/roettig/maths/matrix/MMatrix.java:26-29 | an r × c matrix holding the value everywhere |
| Matrices.Eye | src/org/roettig/maths/matrix/MatrixHelper.java:26-35 | n × m, with 1 on the diagonal up to min(n, m) and 0 elsewhere |
| Matrices.EyeSquare | src/org/roettig/maths/matrix/MatrixHelper.java:44-47 | eye(n) is eye(n, n) |
| Matrices.RowLoop | src/org/roettig/maths/matrix/RowApplicator.java:26-36 | after n passes the first n cells of the row are transformed and all others are unchanged |
| Matrices.ApplyRow | src/org/roettig/maths/matrix/RowApplicator.java:26-36 | a bad row index fails when there are columns; otherwise exactly the row's cells are transformed |
| Matrices.ColumnLoop | src/org/roettig/maths/matrix/ColumnApplicator.java:30-39 | after n passes the first n cells of the column are transformed and all others are unchanged |
| Matrices.ApplyColumn | src/org/roettig/maths/matrix/ColumnApplicator.java:30-39 | a bad column index fails when there are rows; otherwise exactly the column's cells are transformed |
| Matrices.ColumnsLoop | src/org/roettig/maths/matrix/ColumnApplicator.java:46-59 | after n columns those columns are transformed and the rest unchanged |
| Matrices.ApplyColumns | src/org/roettig/maths/matrix/ColumnApplicator.java:46-59 | column by column it transforms every cell once |
| Matrices.ElementsLoop | src/org/roettig/maths/matrix/ElementApplicator.java:29-42 | after n rows those rows are transformed and the rest unchanged |
| Matrices.ApplyElements | src/org/roettig/maths/matrix/ElementApplicator.java:29-42 | element by element it transforms every cell once |
| Matrices.ApplyOrderFree | src/org/roettig/maths/matrix/ColumnApplicator.java:46-59 | the row-major element applicator and the column-major column applicator agree |
| Matrices.DiagonalLoop | src/org/roettig/maths/matrix/DiagonalApplicator.java:31-43 | after n passes the first n diagonal cells are transformed and all others unchanged |
| Matrices.ApplyDiagonal | src/org/roettig/maths/matrix/DiagonalApplicator.java:31-43 | exactly the diagonal cells are transformed |
| Matrices.RowIterator | src/org/roettig/maths/matrix/RowIterator.java:36-47 | a bad row index fails when there are columns; otherwise the row's values in column order |
| Matrices.ColumnIterator | src/org/roettig/maths/matrix/ColumnIterator.java:36-46 | a bad column index fails when there are rows; otherwise the column's values in row order |
| Matrices.Diagonal | src/org/roettig/maths/matrix/DiagonalIterator.java:33-44 | the min(rows, cols) diagonal values in order |
| Matrices.ElementsIndex | src/org/roettig/maths/matrix/ElementIterator.java:33-49 | the element iterator yields rows·cols values, with cell (i, j) at position i·cols + j (row-major) |
| Matrices.ElementsCount | src/org/roettig/maths/matrix/ElementIterator.java:33-49 | the element count is rows times cols |
| Matrices.ElementsSum | src/org/roettig/maths/matrix/ElementIterator.java:33-49 | the elements sum to the sum of the row sums |
| Matrices.RowSums | src/org/roettig/maths/matrix/MatrixHelper.java:63-70 | entry i is the sum of row i's values |
| Matrices.RowSumLoop | src/org/roettig/maths/matrix/MatrixHelper.java:58-74 | after n rows the first n diagonal cells hold the row sums and every other cell is 0 |
| Matrices.RowSumMatrix | src/org/roettig/maths/matrix/MatrixHelper.java:58-74 | fails exactly when there are more rows than columns; otherwise a matrix of the input's shape with the row sums on its diagonal and 0 elsewhere |
| Matrices.RowSumTrace | src/org/roettig/maths/matrix/MatrixHelper.java:58-74 | the trace of the row-sum matrix is the sum of all elements |
| Matrices.EqualsEps | src/org/roettig/maths/matrix/MMatrix.java:167-185 | true exactly when the shapes agree and every pair of cells differs by at most eps |
| Matrices.CloseReflexive | src/org/roettig/maths/matrix/MMatrix.java:167-185 | with eps ≥ 0 every matrix is close to itself |
| Matrices.CloseSymmetric | src/org/roettig/maths/matrix/MMatrix.java:167-185 | closeness is symmetric |
| Matrices.CloseZero | src/org/roettig/maths/matrix/MMatrix.java:167-185 | closeness within 0 is equality |
| MatrixExamples.IteratorExample | src/org/roettig/maths/test/TestMatrix.java:37-66 | the iterators over the 3 × 3 matrix 1..9 yield its rows, columns and diagonal |
| MatrixExamples.RowSumExample | src/org/roettig/maths/test/TestIterator.java:19-37 | the row-sum matrix of 1..9 has diagonal 6, 15, 24 |
| MatrixExamples.DiagonalSquareExample | src/org/roettig/maths/test/TestMatrix.java:91-107 | squaring the diagonal of diag(1, 2, 3) gives diag(1, 4, 9) |
| Algebra.Product | src/org/roettig/maths/mva/PCA.java:130-139 | fails exactly when the inner dimensions differ; otherwise each cell is the dot product of a row and a column |
| Algebra.Transpose | src/org/roettig/maths/mva/PCA.java:132-139 | rows and columns exchanged |
| Algebra.Columns | src/org/roettig/maths/mva/MDS.java:244 | getMatrix over listed columns: fails exactly for an index beyond the matrix; otherwise the selected cells |
| Algebra.Block | src/org/roettig/maths/mva/MDS.java:143-144 | getMatrix of a leading block: fails exactly when it reaches beyond the matrix; otherwise the selected cells |
| Algebra.Difference | src/org/roettig/maths/mva/PCA.java:133 | fails exactly for different shapes; otherwise the cell-wise difference |
| Algebra.DiagonalProduct | src/org/roettig/maths/mva/PCA.java:130 | multiplying by a diagonal matrix scales each column by its diagonal entry |
| Algebra.GramProduct | src/org/roettig/maths/mva/PCA.java:139 | AᵀA holds the dot products of A's columns |
| Algebra.OuterProduct | src/org/roettig/maths/mva/PCA.java:132 | A·Bᵀ holds the dot products of the rows of A and B |
| Transforms.CenterColumn | src/org/roettig/maths/matrix/ColumnCenterer.java:21-35 | a bad column fails when there are rows; otherwise only that column changes, each cell minus the column mean |
| Transforms.CenteredColumn | src/org/roettig/maths/matrix/ColumnCenterer.java:21-35 | the centred column is the column's deviations from its mean |
| Transforms.CenterColumnMean | src/org/roettig/maths/matrix/ColumnCenterer.java:21-35 | the centred column has mean 0 |
| Transforms.CenterColumnIdempotent | src/org/roettig/maths/matrix/ColumnCenterer.java:21-35 | centring a column twice is centring it once |
| Transforms.CenterLoop | src/org/roettig/maths/matrix/ColumnCenterer.java:42-47 | after n columns those columns are centred on their original means and the rest unchanged |
| Transforms.CenterAll | src/org/roettig/maths/matrix/ColumnCenterer.java:42-47 | every cell minus its column's mean |
| Transforms.CenterAllMeans | src/org/roettig/maths/matrix/ColumnCenterer.java:42-47 | after centring, every column has mean 0 |
| Transforms.CenterAllIdempotent | src/org/roettig/maths/matrix/ColumnCenterer.java:42-47 | centring a centred matrix changes nothing |
| Transforms.ColumnStd | src/org/roettig/maths/matrix/ColumnScaler.java:22-38 | the column's standard deviation is non-negative |
| Transforms.ScaleColumn | src/org/roettig/maths/matrix/ColumnScaler.java:22-38 | a bad column fails when there are rows; fewer than two rows change nothing; otherwise only that column changes, divided by its deviation when that is positive |
| Transforms.ScaleConstant | src/org/roettig/maths/matrix/ColumnScaler.java:22-38 | a constant column is left unchanged |
| Transforms.ScaledColumn | src/org/roettig/maths/matrix/ColumnScaler.java:22-38 | with positive spread the scaled column is the column times 1/std |
| Transforms.ScaleColumnVar | src/org/roettig/maths/matrix/ColumnScaler.java:22-38 | with positive spread the scaled column has variance 1 |
| Transforms.ScaleColumnIdempotent | src/org/roettig/maths/matrix/ColumnScaler.java:22-38 | scaling a column twice is scaling it once |
| Transforms.ScaleLoop | src/org/roettig/maths/matrix/ColumnScaler.java:45-50 | after n columns those columns are scaled by their original deviations and the rest unchanged |
| Transforms.ScaleAll | src/org/roettig/maths/matrix/ColumnScaler.java:45-50 | every column with positive spread divided by its deviation, the rest unchanged |
| Transforms.ScaleAllIdempotent | src/org/roettig/maths/matrix/ColumnScaler.java:45-50 | scaling a scaled matrix changes nothing |
| Transforms.ScaleAllColumn | src/org/roettig/maths/matrix/ColumnScaler.java:45-50 | each column of the scaled matrix is that column scaled alone, so a column with spread ends with variance 1 |
| TransformExamples.CenterExample | src/org/roettig/maths/test/TestMatrix.java:111-127 | centring the 3 × 3 matrix 1..9 gives rows −3, 0, 3 |
| TransformExamples.ScaleExample | src/org/roettig/maths/test/TestMatrix.java:131-147 | scaling that result gives rows −1, 0, 1 |
| Mds.Centring | src/org/roettig/maths/mva/MDS.java:105-115 | H = I − 1/n: 1 − 1/n on the diagonal and −1/n elsewhere |
| Mds.CentringSums | src/org/roettig/maths/mva/MDS.java:105-115 | every row and column of H sums to 0 |
| Mds.Gramian | src/org/roettig/maths/mva/MDS.java:117 | B = −½·H·D2·H; fails exactly for a non-square D2 |
| Mds.RightCentring | src/org/roettig/maths/mva/MDS.java:117 | D2·H subtracts each row's mean from the row |
| Mds.LeftCentring | src/org/roettig/maths/mva/MDS.java:117 | H·A subtracts each column's mean from the column |
| Mds.GramianCell | src/org/roettig/maths/mva/MDS.java:117 | B[i][j] = −½·(D2[i][j] − row mean i − column mean j + grand mean), double centring |
| Mds.GramianSymmetricCell | src/org/roettig/maths/mva/MDS.java:117 | for a symmetric D2 the same cell in terms of the row means alone |
| Mds.GrandMeanOfRows | src/org/roettig/maths/mva/MDS.java:203-213 | the mean of the row means is the grand mean |
| Mds.Dim | src/org/roettig/maths/mva/MDS.java:122-131 | the dimension is the length of the leading run of singular values above eps |
| Mds.DimUnique | src/org/roettig/maths/mva/MDS.java:122-131 | any count with those two properties is the dimension |
| Mds.DimStops | src/org/roettig/maths/mva/MDS.java:122-131 | the dimension stops at the first value at or below eps |
| Mds.Init | src/org/roettig/maths/mva/MDS.java:61-64 | the constructor sets D2 only, with the flag clear and the other fields null |
| Mds.Roots | src/org/roettig/maths/mva/MDS.java:134-142 | the square root applied to every cell of S |
| Mds.Compute | src/org/roettig/maths/mva/MDS.java:100-146 | fails exactly for a non-square D2; otherwise sets B, dim and X = U·√S cut to dim columns, and nothing else |
| Mds.RootColumn | src/org/roettig/maths/mva/MDS.java:134-144 | cell (i, k) of U·√S is U[i][k]·√s_k |
| Mds.DistanceSymmetric | src/org/roettig/maths/mva/MDS.java:270-287 | the row distance is symmetric and zero from a row to itself |
| Mds.DistanceMatrix | src/org/roettig/maths/mva/MDS.java:270-287 | an N × N matrix with the Euclidean row distance in every cell, though only i ≤ j is computed |
| Mds.DistanceMatrixShape | src/org/roettig/maths/mva/MDS.java:270-287 | the distance matrix is symmetric with a zero diagonal |
| Mds.SquaredDistanceMatrix | src/org/roettig/maths/mva/MDS.java:254-268 | every cell is the squared distance of the two rows |
| Mds.SquaredDistanceShape | src/org/roettig/maths/mva/MDS.java:254-268 | the squared distance matrix is symmetric with a zero diagonal |
| Mds.CrossDistanceMatrix | src/org/roettig/maths/mva/MDS.java:305-322 | fails exactly when test rows are narrower than training rows; otherwise the K × N test-to-training distances |
| Mds.CrossDistanceSelf | src/org/roettig/maths/mva/MDS.java:270-322 | the cross distances of X with itself are X's distance matrix |
| Mds.SquaredCrossDistanceMatrix | src/org/roettig/maths/mva/MDS.java:289-303 | the same error case; every cell is the squared test-to-training distance |
| Mds.SquaredCrossCells | src/org/roettig/maths/mva/MDS.java:289-322 | the squared cross matrix squares the cross distances cell by cell |
| Mds.Large | src/org/roettig/maths/mva/MDS.java:228-236 | the filter keeps exactly the pairs whose eigenvalue exceeds eps |
| Mds.LargeSorted | src/org/roettig/maths/mva/MDS.java:217-236 | filtering a descending list keeps it descending |
| Mds.KeptIndices | src/org/roettig/maths/mva/MDS.java:217-236 | index i is kept exactly when eigenvalue i exceeds eps; each kept pair is (i, λ_i), in descending order |
| Mds.MeansLoop | src/org/roettig/maths/mva/MDS.java:203-209 | after n rows D2means holds the first n row means, 0 after them |
| Mds.InverseRoot | src/org/roettig/maths/mva/MDS.java:246-250 | 1/√λ is positive and its square times λ is 1 |
| Mds.Whitening | src/org/roettig/maths/mva/MDS.java:246-250 | S is dim × dim with 1/√λ_j of the j-th kept eigenvalue on the diagonal |
| Mds.Measures | src/org/roettig/maths/mva/MDS.java:195-252 | runs once: sets the flag even when it throws, and a second call does nothing. D2means holds the row means and D2mean_tot the grand mean. Q is the eigenvector columns of the eigenvalues above eps, largest first, and S = diag(1/sqrt λ) over dim rows. The errors are: a short D2, which leaves the row means of the rows present (0 after them) and D2mean_tot unchanged; B still null; getMatrix on bad indices, leaving Q and S unset; and fewer than dim kept eigenvalues, which fails exactly when dim exceeds their number |
| Mds.TestGramian | src/org/roettig/maths/mva/MDS.java:176-193 | succeeds exactly when K or N is 0, or the test rows reach N columns, the stored means cover N rows and the stored grand mean is finite; then G[i][j] = −½·(D2t[i][j] − stored mean j − test row mean i + stored grand mean). Test rows without columns, or too short, fail with an index error; null means give a null reference; a non-finite grand mean gives a non-finite result |
| Mds.TestGramianAfterMeasures | src/org/roettig/maths/mva/MDS.java:176-213 | after the measures of a square D2 with B set, the test Gramian fails exactly for test rows narrower than D2, and its cells use D2's row means and grand mean |
| Mds.EmbedGramian | src/org/roettig/maths/mva/MDS.java:176-193 | the measures' state and error come first, then the test Gramian over that state |
| Mds.Embed | src/org/roettig/maths/mva/MDS.java:155-174 | the same state; embedGramian's errors propagate; a null Q or S fails; a success is G·Q·S, needs Q's column count to equal S's row count, and has K rows by S's columns |
| Mds.EmbedCoordinates | src/org/roettig/maths/mva/MDS.java:155-252 | on a first call with B set and the eigenvector columns present, embed succeeds exactly when D2 is square, exactly dim eigenvalues exceed eps and G exists; the result is G times the kept eigenvectors times diag(1/sqrt λ) |
| Mds.EmbedBeforeCompute | src/org/roettig/maths/mva/MDS.java:155-252 | embedding before compute() throws, yet sets the flag, so later measures never run |
| Mds.EmbedGramianIsGramian | src/org/roettig/maths/mva/MDS.java:117-236 | for a symmetric D2, embedGramian of D2 itself succeeds exactly when dim eigenvalues exceed eps, and then returns compute()'s B |
| Pca.Prepare | src/org/roettig/maths/mva/PCA.java:52-83 | X_ keeps the shape of X |
| Pca.PreparedMean | src/org/roettig/maths/mva/PCA.java:52-83 | every column of X_ has mean 0, standardized or not |
| Pca.PreparedVariance | src/org/roettig/maths/mva/PCA.java:70-74 | a standardized column with spread has variance 1 |
| Pca.StandardizedMean | src/org/roettig/maths/mva/PCA.java:70-74 | scaling keeps a centred column's mean at 0 |
| Pca.SnapSquare | src/org/roettig/maths/mva/PCA.java:115-122 | a snapped value's square is 0 exactly below the threshold and otherwise the original square |
| Pca.SnapLoop | src/org/roettig/maths/mva/PCA.java:115-122 | after n passes the first n diagonal values are snapped, the remaining diagonal cells are still the identity's 1, and every off-diagonal cell is 0 |
| Pca.Singular | src/org/roettig/maths/mva/PCA.java:115-122 | S is diagonal with the snapped singular values |
| Pca.SnapLoopSingular | src/org/roettig/maths/mva/PCA.java:115-122 | the full loop yields S |
| Pca.EvalsLoop | src/org/roettig/maths/mva/PCA.java:115-122 | each eigenvalue is the square of the snapped singular value |
| Pca.EvalsNonNegative | src/org/roettig/maths/mva/PCA.java:115-122 | no eigenvalue is negative |
| Pca.DModXColumn | src/org/roettig/maths/mva/PCA.java:147-163 | one entry per sample: the residual row's sum of squares over N − ncomp − 1; non-finite when that divisor is 0 (+∞, or NaN for a zero residual) |
| Pca.CalcSvd | src/org/roettig/maths/mva/PCA.java:107-142 | negative ncomp fails with a negative size; a cut beyond S, U or V fails with an index error; otherwise all fields have their documented shapes |
| Pca.CalcSvdParts | src/org/roettig/maths/mva/PCA.java:107-142 | a success builds T = U·S, Xres = T·Vᵀ − X_, TT = TᵀT and DModX from the cut of the decomposition |
| Pca.CalcSvdFields | src/org/roettig/maths/mva/PCA.java:127-142 | the fields satisfy the score, residual, Gram and DModX relations |
| Pca.CalcSvdCut | src/org/roettig/maths/mva/PCA.java:115-129 | the fields are the snapped, cut decomposition, and the eigenvalues are non-negative |
| Pca.ScoresOfSvd | src/org/roettig/maths/mva/PCA.java:130 | each score is U[i][k] times the k-th snapped singular value |
| Pca.Scores | src/org/roettig/maths/mva/PCA.java:130 | T = U·S for diagonal S scales U's columns |
| Pca.Residuals | src/org/roettig/maths/mva/PCA.java:132-133 | each residual is the reconstruction T·Vᵀ minus the data |
| Pca.Gram | src/org/roettig/maths/mva/PCA.java:139 | TT holds the dot products of T's columns |
| Pca.New | src/org/roettig/maths/mva/PCA.java:52-63 | data without rows fails with an index error (copying it reads row 0); otherwise the same failures as calcSVD; X_ is the prepared data and its columns have mean 0 |
| Pca.ThinCut | src/org/roettig/maths/mva/PCA.java:107-142 | for a thin SVD, calcSVD fails exactly when ncomp is negative or exceeds the column count |
| Pca.ThinErrors | src/org/roettig/maths/mva/PCA.java:52-63 | for a thin SVD, the constructor fails exactly for data without rows, a negative ncomp or one beyond the column count |
| Pca.Eval | src/org/roettig/maths/mva/PCA.java:237-240 | an index outside the eigenvalues fails; otherwise eigenvalue i |
| Pca.EvalOfSingular | src/org/roettig/maths/mva/PCA.java:115-122 | getEval(i) is defined exactly for a singular value's index, is ≥ 0, is 0 exactly when that value is below the snapping threshold, and is otherwise its square |
| Pca.DModXAt | src/org/roettig/maths/mva/PCA.java:215-218 | an index outside DModX fails; otherwise entry i |
| Pca.DModXOfResidual | src/org/roettig/maths/mva/PCA.java:147-163 | getDModX(i): out of range fails; a zero divisor gives a non-finite entry (+∞, or NaN for a zero residual); otherwise entry·(N − ncomp − 1) is the residual row's sum of squares, with that divisor's sign |
| Pca.Tval | src/org/roettig/maths/mva/PCA.java:226-229 | outside TT fails; otherwise TT's diagonal cell |
| Pca.TvalSpread | src/org/roettig/maths/mva/PCA.java:139 | getTval(i) is defined exactly for a component, and is then the non-negative sum of squares of score column i |
| Pca.TvalIsEval | src/org/roettig/maths/mva/PCA.java:130-139 | for a unit-length column of U, getTval(i) equals getEval(i) |
| Pca.ScoreColumn | src/org/roettig/maths/mva/PCA.java:130 | score column i is U's column i times the i-th snapped singular value |
| Pca.WeightedRow | src/org/roettig/maths/mva/PCA.java:130 | with all components, score row i is U's row weighted by the singular values |
| Pca.FullModelResidual | src/org/roettig/maths/mva/PCA.java:132-163 | when the SVD reproduces X_ and all components are kept, Xres is zero and DModX is 0 wherever its divisor is non-zero |
| Pca.FullModel | src/org/roettig/maths/mva/PCA.java:107-142 | keeping all components of a reproducing SVD leaves no residual |
| Pca.GoodnessOfFit | src/org/roettig/maths/mva/PCA.java:171-184 | fails for dim beyond the eigenvalues or a zero total; otherwise gof·total = the sum of the first dim eigenvalues |
| Pca.GoodnessShare | src/org/roettig/maths/mva/PCA.java:171-184 | gof lies in [0, 1], is 0 at 0 components and 1 at all |
| Pca.GoodnessMonotone | src/org/roettig/maths/mva/PCA.java:171-184 | more components never lower gof |
| Pca.VarE | src/org/roettig/maths/mva/PCA.java:191-207 | the only failure is a non-finite value |
| Pca.VarEFails | src/org/roettig/maths/mva/PCA.java:191-207 | non-finite exactly for a 1 × 1 residual or a zero int divisor |
| Pca.VarEResidualSpread | src/org/roettig/maths/mva/PCA.java:191-207 | without int overflow, varE is the residuals' squared deviations over (N − ncomp − 1)(C − ncomp) |
| Pca.HotellingFactor | src/org/roettig/maths/mva/PCA.java:100 | the int factor fails exactly when the wrapped divisor I·(I − 2) is 0 |
| Pca.HotellingParam | src/org/roettig/maths/mva/PCA.java:91-102 | a bad column fails; a zero int divisor throws; otherwise, when defined, the non-negative root of var·3·factor |
| Pca.Radical | src/org/roettig/maths/mva/PCA.java:100 | defined exactly for a finite variance and a non-negative radicand, and then its square is the radicand |
| Pca.HotellingFactorTwo | src/org/roettig/maths/mva/PCA.java:100 | for 6 ≤ I ≤ 32768 the int factor is always 2 |
| Pca.HotellingTruncates | src/org/roettig/maths/mva/PCA.java:100 | at I = 16 the code's factor is 2 where the formula gives 255/112 |
| Pca.HotellingOverflows | src/org/roettig/maths/mva/PCA.java:100 | at I = 40000 the code's factor is 0 where the formula gives more than 2 |
| Pca.IntendedFactor | src/org/roettig/maths/mva/PCA.java:93-100 | the real quotient 2(I² − 1)/(I(I − 2)), undefined exactly at I = 0 and I = 2 |
| Pca.IntendedAboveTwo | src/org/roettig/maths/mva/PCA.java:93-100 | for I ≥ 3 the intended factor lies strictly above 2 |
| Pca.HotellingParamIntended | src/org/roettig/maths/mva/PCA.java:91-102 | the parameter with the intended factor: the non-negative root of var·3·factor, defined whenever I ≥ 3 and the column has other than one value |
| JavaInt.Wrap | src/org/roettig/maths/mva/PCA.java:100 | the 32-bit two's-complement value congruent to x, and x itself when in range |
| JavaInt.Mul | src/org/roettig/maths/mva/PCA.java:100 | int multiplication: in range, and exact when the product fits |
| JavaInt.Sub | src/org/roettig/maths/mva/PCA.java:100 | int subtraction: in range, and exact when the difference fits |
| JavaInt.Quot | src/org/roettig/maths/mva/PCA.java:100 | int division: throws exactly for a zero divisor, and MIN_VALUE / −1 wraps to MIN_VALUE |
| JavaInt.QuotTruncates | src/org/roettig/maths/mva/PCA.java:100 | the quotient rounds toward zero: the remainder has the dividend's sign and is smaller than the divisor |
| JavaInt.QuotUnique | src/org/roettig/maths/mva/PCA.java:100 | for a positive divisor only one quotient leaves a remainder in [0, b) |
| JavaInt.Counter | src/org/roettig/maths/statistics/Statistics.java:642-647 | an int counter after n increments from 0: always in int range |
| JavaInt.CounterIsWrap | src/org/roettig/maths/statistics/Statistics.java:642-647 | n wrapping increments leave the counter at n wrapped to 32 bits |
| JavaInt.WrapUnique | src/org/roettig/maths/mva/PCA.java:100 | the in-range value congruent to x modulo 2³² is Wrap(x) |
| JavaInt.CounterShare | src/org/roettig/maths/statistics/Statistics.java:659 | a sum of p terms in [0, 1] over a counter equal to p is a fraction; over a counter wrapped below 0 it is never positive |
| JavaInt.QuotExamples | src/org/roettig/maths/mva/PCA.java:100 | −7/2 = −3, 7/−2 = −3, MIN_VALUE/−1 = MIN_VALUE, and 65536·65536 wraps to 0 |

## Left out

- **Jama decompositions.** The SVD of B (`MDS.compute`), the eigendecomposition of B (`computeEmbeddingMeasures`) and the SVD of X_ (`PCA.calcSVD`) are parameters. Their numerical algorithms are library code outside this model. The model accepts any decomposition it is given, including one of a matrix without columns (X_ with no columns, or an empty D2), which Jama itself may reject; for such input Pca.ThinErrors and the MDS results assume a decomposition was produced.
- **Floating point.** Rounding, the signed zero of `var` on an empty series, and the concrete NaN/∞ values are not modelled. A non-finite result is the single error `NotFinite`.
- **Java `int` overflow in list-sized counters.** The confusion-matrix counts and the loop indices each count at most one per list element, and a Java list holds fewer than 2³¹ elements, so they cannot wrap. Counters that count pairs can wrap and are modelled.
- **File and text I/O.** The `MMatrix` save/load/`toString` methods, `Pair.toString`, and the logging in MDS are not modelled.
- **Copies and trivial getters.** The `MMatrix` copy constructor and `getArrayCopy` are the identity on an immutable matrix with rows. Copying a matrix without rows throws, because Jama's array constructor reads row 0; this is modelled where the PCA constructor copies X. The copy of T = U·S cannot meet it, since U has X's rows. The getters `getGramian`, `getX`, `getDim`, `getScores` and `getLoadings` return a field unchanged.
- **In-place mutation.** The applicators, the centerer and the scaler change a Jama matrix in place. Here they return the new matrix, with loops as folds. Aliasing between matrices is therefore not modelled.
- **Functor classes.** `ElementFunctor` and the anonymous functors of MDS are functions `(i, j, value) → value`.
- **Test fixtures.** The eleven-point MDS test and the PCA test on the library's data file read data that is not part of this model.
- **Norms.** `norm2` of a row difference is the square root of its sum of squares.
- **Sorting ties.** The stable sort is specified by its contract (a permutation, ordered, stable). The model computes it by insertion sort, not Java's merge sort.
- Pca.VarE: its own contract states only that the one failure is non-finite. The value is given by Pca.VarEResidualSpread, under the assumption that no int product in the divisor overflows.
- Pca.Prepare: its contract states only the shape. The centring and unit-variance properties are the lemmas Pca.PreparedMean and Pca.PreparedVariance.
- Roc.AuRoc: its contract states the error case and the range. The value, the total credit over the int counter N, is the lemma Roc.AuRocCredit.
- Mds.Gramian: its contract states the shape and error case. The cell formula is the lemma Mds.GramianCell.

## Findings

| source | as written | input that shows it | evidently intended | confidence | as-written member | corrected member |
|---|---|---|---|---|---|---|
| src/org/roettig/maths/mva/PCA.java:100 | the factor 2·(I·I−1)/(I·(I−2)) is evaluated in `int`, so the division truncates | I = 16 samples: the code uses 2, the formula gives 510/224 = 255/112 ≈ 2.28 | the real quotient, as the MATLAB `./` in the comment at line 93 writes it | not executed | Pca.HotellingTruncates | Pca.HotellingParamIntended |
| src/org/roettig/maths/mva/PCA.java:100 | `2*(I*I-1)` overflows `int` for I ≥ 32769 | I = 40000 samples: the wrapped numerator is negative and the factor is 0, so the parameter is 0 | a factor above 2 (Pca.IntendedAboveTwo) | not executed | Pca.HotellingOverflows | Pca.IntendedFactor |
| src/org/roettig/maths/statistics/Statistics.java:642 | the pair counter `N` is an `int` incremented once per (positive, negative) pair, and `auROC/N` divides by it | 46341 positives all scoring above 46341 negatives: 2147488281 pairs wrap N to −2147479015, and auROC is negative | the credit over the true number of pairs, in [0, 1] | not executed | Roc.AuRocOverflow | Roc.AuRocIntended |

=== FILE: algebra.dfy ===
/** The few Jama matrix operations that MDS and PCA apply to the results of
    their decompositions: the product, the scalar multiple, the transpose
    and sub-matrix selection. Each is given its exact textbook definition;
    the dimension checks Jama makes become Err(DimensionMismatch) and its
    array accesses beyond the bounds Err(IndexOutOfRange). */
module Algebra {
  import opened Wrappers
  import opened Series
  import opened Matrices

  /** A.times(B): Σ_k A[i][k]·B[k][j], when the inner dimensions agree. */
  function Product(a: Mat, b: Mat): (r: Result<Mat>)
    ensures r.Err? <==> a.cols != b.rows
    ensures r.Err? ==> r.error == DimensionMismatch
    ensures r.Ok? ==> r.value.rows == a.rows && r.value.cols == b.cols
    ensures r.Ok? ==> forall i, j :: r.value.Has(i, j) ==>
      Get(r.value, i, j) == Dot(RowValues(a, i), ColumnValues(b, j))
  {
    if a.cols != b.rows then Err(DimensionMismatch)
    else Ok(Build(a.rows, b.cols, (i, j) =>
      if 0 <= i < a.rows && 0 <= j < b.cols then Dot(RowValues(a, i), ColumnValues(b, j)) else 0.0))
  }

  /** A.times(s): every cell multiplied by s. */
  function Times(m: Mat, k: real): (r: Mat)
    ensures r.SameShape(m)
    ensures forall i, j :: m.Has(i, j) ==> Get(r, i, j) == Get(m, i, j) * k
  {
    Build(m.rows, m.cols, (i, j) => if m.Has(i, j) then Get(m, i, j) * k else 0.0)
  }

  /** A.transpose(). */
  function Transpose(m: Mat): (r: Mat)
    ensures r.rows == m.cols && r.cols == m.rows
    ensures forall i, j :: m.Has(i, j) ==> Get(r, j, i) == Get(m, i, j)
  {
    Build(m.cols, m.rows, (i, j) => if m.Has(j, i) then Get(m, j, i) else 0.0)
  }

  /** A.getMatrix(0, n − 1, idx): the first n rows of the listed columns. */
  function Columns(m: Mat, n: nat, idx: seq<int>): (r: Result<Mat>)
    ensures r.Err? <==> n > 0 && |idx| > 0 && (n > m.rows || exists k :: 0 <= k < |idx| && !(0 <= idx[k] < m.cols))
    ensures r.Err? ==> r.error == IndexOutOfRange
    ensures r.Ok? ==> r.value.rows == n && r.value.cols == |idx|
    ensures r.Ok? ==> forall i, k :: r.value.Has(i, k) ==> Get(r.value, i, k) == Get(m, i, idx[k])
  {
    if n > 0 && |idx| > 0 && (n > m.rows || exists k :: 0 <= k < |idx| && !(0 <= idx[k] < m.cols)) then
      Err(IndexOutOfRange)
    else if n == 0 || |idx| == 0 then Ok(Zeros(n, |idx|))
    else Ok(Build(n, |idx|, (i, k) =>
      if 0 <= k < |idx| && m.Has(i, idx[k]) then Get(m, i, idx[k]) else 0.0))
  }

  /** A.getMatrix(0, n − 1, 0, c − 1): the leading n × c block. */
  function Block(m: Mat, n: nat, c: nat): (r: Result<Mat>)
    ensures r.Err? <==> n > 0 && c > 0 && (n > m.rows || c > m.cols)
    ensures r.Err? ==> r.error == IndexOutOfRange
    ensures r.Ok? ==> r.value.rows == n && r.value.cols == c
    ensures r.Ok? ==> forall i, k :: r.value.Has(i, k) ==> Get(r.value, i, k) == Get(m, i, k)
  {
    if n > 0 && c > 0 && (n > m.rows || c > m.cols) then Err(IndexOutOfRange)
    else if n == 0 || c == 0 then Ok(Zeros(n, c))
    else Ok(Build(n, c, (i, k) => if m.Has(i, k) then Get(m, i, k) else 0.0))
  }

  /** A.minus(B): cell by cell, when the shapes agree. */
  function Difference(a: Mat, b: Mat): (r: Result<Mat>)
    ensures r.Err? <==> !a.SameShape(b)
    ensures r.Err? ==> r.error == DimensionMismatch
    ensures r.Ok? ==> r.value.SameShape(a)
    ensures r.Ok? ==> forall i, j :: a.Has(i, j) ==> Get(r.value, i, j) == Get(a, i, j) - Get(b, i, j)
  {
    if !a.SameShape(b) then Err(DimensionMismatch)
    else Ok(Build(a.rows, a.cols, (i, j) => if a.Has(i, j) then Get(a, i, j) - Get(b, i, j) else 0.0))
  }

  /** One cell of a product, from its row and column. */
  lemma ProductCell(a: Mat, b: Mat, i: int, k: int, col: seq<real>, v: real)
    requires a.cols == b.rows && 0 <= i < a.rows && 0 <= k < b.cols
    requires ColumnValues(b, k) == col && Dot(RowValues(a, i), col) == v
    ensures Get(Product(a, b).value, i, k) == v
  {
  }

  /** Dot product with a multiple of a unit vector picks one entry. */
  lemma {:induction false} WeightedUnit(a: seq<real>, k: int, w: real)
    requires 0 <= k < |a|
    ensures Dot(a, Scale(Unit(|a|, k), w)) == a[k] * w
  {
    var e := Unit(|a|, k);
    DotSymmetric(a, Scale(e, w));
    DotScale(e, a, w);
    DotSymmetric(e, a);
    DotUnit(a, k);
  }

  /** Row i of a against a multiple of the k-th unit vector: cell (i, k) times the weight. */
  lemma RowWeightedUnit(a: Mat, i: int, k: int, w: real)
    requires a.Has(i, k)
    ensures Dot(RowValues(a, i), Scale(Unit(a.cols, k), w)) == Get(a, i, k) * w
  {
    WeightedUnit(RowValues(a, i), k, w);
  }

  /** When column k of b is a multiple w of the k-th unit vector, cell (i, k)
      of a·b is cell (i, k) of a times w. */
  lemma WeightedColumn(a: Mat, b: Mat, i: int, k: int, w: real)
    requires a.cols == b.rows && a.Has(i, k) && k < b.cols
    requires ColumnValues(b, k) == Scale(Unit(a.cols, k), w)
    ensures Product(a, b).Ok?
    ensures Get(Product(a, b).value, i, k) == Get(a, i, k) * w
  {
    RowWeightedUnit(a, i, k, w);
    ProductCell(a, b, i, k, Scale(Unit(a.cols, k), w), Get(a, i, k) * w);
  }

  /** Every cell off the diagonal is zero. */
  ghost predicate IsDiagonal(d: Mat)
  {
    forall l, k :: d.Has(l, k) && l != k ==> Get(d, l, k) == 0.0
  }

  /** Multiplying by a square diagonal matrix on the right scales column k by d[k][k]. */
  lemma {:induction false} DiagonalProduct(a: Mat, d: Mat)
    requires a.cols == d.rows == d.cols && IsDiagonal(d)
    ensures Product(a, d).Ok?
    ensures forall i, k :: a.Has(i, k) ==> Get(Product(a, d).value, i, k) == Get(a, i, k) * Get(d, k, k)
  {
    forall i, k | a.Has(i, k) ensures Get(Product(a, d).value, i, k) == Get(a, i, k) * Get(d, k, k) {
      var w := Get(d, k, k);
      var col := Scale(Unit(d.rows, k), w);
      assert ColumnValues(d, k) == col;
      RowWeightedUnit(a, i, k, w);
      ProductCell(a, d, i, k, col, Get(a, i, k) * w);
    }
  }

  /** A.transpose().times(A): the dot products of the columns of A. */
  lemma {:induction false} GramProduct(a: Mat)
    ensures Product(Transpose(a), a).Ok?
    ensures forall i, k :: 0 <= i < a.cols && 0 <= k < a.cols ==>
      Get(Product(Transpose(a), a).value, i, k) == Dot(ColumnValues(a, i), ColumnValues(a, k))
  {
    var at := Transpose(a);
    forall i, k | 0 <= i < a.cols && 0 <= k < a.cols
      ensures Get(Product(at, a).value, i, k) == Dot(ColumnValues(a, i), ColumnValues(a, k))
    {
      assert RowValues(at, i) == ColumnValues(a, i);
      ProductCell(at, a, i, k, ColumnValues(a, k), Dot(ColumnValues(a, i), ColumnValues(a, k)));
    }
  }

  /** A.times(B.transpose()): the dot products of the rows of A with the rows of B. */
  lemma {:induction false} OuterProduct(a: Mat, b: Mat)
    requires a.cols == b.cols
    ensures Product(a, Transpose(b)).Ok?
    ensures forall i, j :: 0 <= i < a.rows && 0 <= j < b.rows ==>
      Get(Product(a, Transpose(b)).value, i, j) == Dot(RowValues(a, i), RowValues(b, j))
  {
    var bt := Transpose(b);
    forall i, j | 0 <= i < a.rows && 0 <= j < b.rows
      ensures Get(Product(a, bt).value, i, j) == Dot(RowValues(a, i), RowValues(b, j))
    {
      assert ColumnValues(bt, j) == RowValues(b, j);
      ProductCell(a, bt, i, j, RowValues(b, j), Dot(RowValues(a, i), RowValues(b, j)));
    }
  }
}

=== FILE: classification.dfy ===
/** The classification measures of Statistics.java: accuracy, the two
    confusion-matrix counts, sensitivity, specificity and precision, their
    per-label and label-averaged forms, and the F-measure. Labels are values
    of any type compared with equals, modelled as ==. */
module Classification {
  import opened Wrappers
  import JavaInt

  /** The number of positions at which a and b agree. */
  function Matches<T(==)>(a: seq<T>, b: seq<T>): (r: nat)
    requires |a| == |b|
    ensures r <= |a|
  {
    if |a| == 0 then 0
    else (if a[0] == b[0] then 1 else 0) + Matches(a[1..], b[1..])
  }

  /** All positions agree exactly when the two are equal, and none agrees
      exactly when every position differs. */
  lemma {:induction false} MatchesExtremes<T>(a: seq<T>, b: seq<T>)
    requires |a| == |b|
    ensures Matches(a, b) == |a| <==> a == b
    ensures Matches(a, b) == 0 <==> forall i :: 0 <= i < |a| ==> a[i] != b[i]
  {
    if |a| > 0 {
      MatchesExtremes(a[1..], b[1..]);
      assert a == [a[0]] + a[1..] && b == [b[0]] + b[1..];
      assert forall i :: 1 <= i < |a| ==> a[1..][i - 1] == a[i] && b[1..][i - 1] == b[i];
    }
  }

  /** The number of occurrences of x in s. */
  function Occurrences<T(==)>(s: seq<T>, x: T): nat
  {
    multiset(s)[x]
  }

  lemma {:induction false} OccurrencesCons<T>(s: seq<T>, x: T)
    requires |s| > 0
    ensures Occurrences(s, x) == (if s[0] == x then 1 else 0) + Occurrences(s[1..], x)
  {
    assert s == [s[0]] + s[1..];
  }

  /** Statistics.accuracy: the share of positions where prediction and truth
      agree. Collections of different sizes raise an exception; two empty
      ones give 0/0 = NaN. */
  function Accuracy<T(==)>(yp: seq<T>, yt: seq<T>): (r: Result<real>)
    ensures r == Err(SizeMismatch) <==> |yp| != |yt|
    ensures r == Err(NotFinite) <==> |yp| == |yt| == 0
    ensures r.Ok? ==> r.value == Share(Matches(yp, yt), |yt|)
  {
    if |yt| != |yp| then Err(SizeMismatch)
    else if |yt| == 0 then Err(NotFinite)
    else Ok(Share(Matches(yp, yt), |yt|))
  }

  /** The accuracy is the share of agreeing positions, between 0 and 1. */
  lemma AccuracyShare<T>(yp: seq<T>, yt: seq<T>)
    requires Accuracy(yp, yt).Ok?
    ensures 0.0 <= Accuracy(yp, yt).value <= 1.0
    ensures Accuracy(yp, yt).value * |yt| as real == Matches(yp, yt) as real
  {
    ShareValue(Accuracy(yp, yt).value, Matches(yp, yt), |yt|);
  }

  lemma ShareValue(v: real, m: nat, n: nat)
    requires m <= n && n > 0 && v == Share(m, n)
    ensures 0.0 <= v <= 1.0 && v * n as real == m as real
  {
  }

  /** The accuracy is 1 exactly for identical collections and 0 exactly when
      no position agrees. */
  lemma AccuracyExtremes<T>(yp: seq<T>, yt: seq<T>)
    requires Accuracy(yp, yt).Ok?
    ensures Accuracy(yp, yt).value == 1.0 <==> yp == yt
    ensures Accuracy(yp, yt).value == 0.0 <==> forall i :: 0 <= i < |yt| ==> yp[i] != yt[i]
  {
    MatchesExtremes(yp, yt);
  }

  /** The share m/n of a part m of a whole n. */
  function Share(m: nat, n: nat): (r: real)
    requires m <= n && n > 0
    ensures 0.0 <= r <= 1.0 && r * n as real == m as real
    ensures r == 1.0 <==> m == n
    ensures r == 0.0 <==> m == 0
  {
    ShareOf(m as real, n as real);
    m as real / n as real
  }

  /** m/n is a share in [0, 1], equal to 1 exactly when m = n and 0 exactly when m = 0. */
  lemma ShareOf(m: real, n: real)
    requires 0.0 <= m <= n && n > 0.0
    ensures 0.0 <= m / n <= 1.0 && (m / n) * n == m
    ensures m / n == 1.0 <==> m == n
    ensures m / n == 0.0 <==> m == 0.0
  {
  }

  /** The accuracy fixtures of the library's tests. */
  lemma AccuracyExample()
    ensures Accuracy([1, 2, 1], [1, 2, 1]) == Ok(1.0)
    ensures Accuracy([1, 1, 1], [1, 2, 1]) == Ok(2.0 / 3.0)
    ensures Accuracy([2, 1, 2], [1, 2, 1]) == Ok(0.0)
    ensures Accuracy([2, 1, 2], [2, 2, 1]) == Ok(1.0 / 3.0)
  {
    assert Matches([1, 1, 1], [1, 2, 1]) == 2 by {
      assert [1, 1, 1][1..] == [1, 1] && [1, 2, 1][1..] == [2, 1];
      assert [1, 1][1..] == [1] && [2, 1][1..] == [1];
    }
    assert Matches([2, 1, 2], [2, 2, 1]) == 1 by {
      assert [2, 1, 2][1..] == [1, 2] && [2, 2, 1][1..] == [2, 1];
      assert [1, 2][1..] == [2] && [2, 1][1..] == [1];
    }
  }

  /** The counts of Statistics.ConfusionMatrix. */
  datatype Confusion = Confusion(tp: nat, tn: nat, fp: nat, fn: nat)

  /** A pair whose truth and prediction differ and neither is the positive label. */
  predicate Irrelevant<T(==)>(pos: T, p: T, t: T)
  {
    t != p && t != pos && p != pos
  }

  function IrrelevantCount<T(==)>(pos: T, yp: seq<T>, yt: seq<T>): nat
    requires |yp| == |yt|
  {
    if |yt| == 0 then 0
    else (if Irrelevant(pos, yp[0], yt[0]) then 1 else 0) + IrrelevantCount(pos, yp[1..], yt[1..])
  }

  /** The cell of the confusion matrix one (truth, prediction) pair falls into. */
  datatype Cell = TruePositive | TrueNegative | FalsePositive | FalseNegative | Uncounted

  /** The branches of the counting loop of calcConfusionMatrix(pos, Yp, Y):
      agreement on pos is a TP, other agreement a TN, a missed pos a FN, a
      pos predicted for another label a FP, and anything else is not counted. */
  function Classify<T(==)>(pos: T, y: T, p: T): (cell: Cell)
    ensures cell == Uncounted <==> Irrelevant(pos, p, y)
  {
    if y == p then
      if y == pos then TruePositive else TrueNegative
    else if y == pos then FalseNegative
    else if p == pos then FalsePositive
    else Uncounted
  }

  /** c with n more pairs counted in the given cell. */
  function Add(c: Confusion, cell: Cell, n: nat): Confusion
  {
    match cell
    case TruePositive => c.(tp := c.tp + n)
    case TrueNegative => c.(tn := c.tn + n)
    case FalsePositive => c.(fp := c.fp + n)
    case FalseNegative => c.(fn := c.fn + n)
    case Uncounted => c
  }

  /** The counting loop over aligned pairs. */
  function Tally<T(==)>(pos: T, yp: seq<T>, yt: seq<T>): Confusion
    requires |yp| == |yt|
  {
    if |yt| == 0 then Confusion(0, 0, 0, 0)
    else Add(Tally(pos, yp[1..], yt[1..]), Classify(pos, yt[0], yp[0]), 1)
  }

  /** The margins of the tally: TP + FN counts the true positives' label,
      TP + FP the predicted one, TP + TN the agreements, and every pair is
      either counted once or irrelevant. */
  lemma {:induction false} TallyMargins<T>(pos: T, yp: seq<T>, yt: seq<T>)
    requires |yp| == |yt|
    ensures var c := Tally(pos, yp, yt);
      && c.tp + c.fn == Occurrences(yt, pos)
      && c.tp + c.fp == Occurrences(yp, pos)
      && c.tp + c.tn == Matches(yp, yt)
      && c.tp + c.tn + c.fp + c.fn + IrrelevantCount(pos, yp, yt) == |yt|
  {
    if |yt| > 0 {
      TallyMargins(pos, yp[1..], yt[1..]);
      OccurrencesCons(yt, pos);
      OccurrencesCons(yp, pos);
    }
  }

  /** Cell-wise sum of two tallies. */
  function Plus(c: Confusion, d: Confusion): Confusion
  {
    Confusion(c.tp + d.tp, c.tn + d.tn, c.fp + d.fp, c.fn + d.fn)
  }

  /** The tally is additive: counting two stretches of pairs one after the
      other gives the cell-wise sum of their counts. */
  lemma {:induction false} TallyAppend<T>(pos: T, yp: seq<T>, yt: seq<T>, yp': seq<T>, yt': seq<T>)
    requires |yp| == |yt| && |yp'| == |yt'|
    ensures Tally(pos, yp + yp', yt + yt') == Plus(Tally(pos, yp, yt), Tally(pos, yp', yt'))
  {
    if |yt| > 0 {
      assert (yp + yp')[1..] == yp[1..] + yp';
      assert (yt + yt')[1..] == yt[1..] + yt';
      TallyAppend(pos, yp[1..], yt[1..], yp', yt');
    } else {
      assert yp + yp' == yp' && yt + yt' == yt';
    }
  }

  /** A stretch of n identical (truth, prediction) pairs, as the library's tests build them. */
  datatype Block<T> = Block(n: nat, truth: T, predicted: T)

  function Truths<T>(bs: seq<Block<T>>): (r: seq<T>)
  {
    if |bs| == 0 then [] else seq(bs[0].n, _ => bs[0].truth) + Truths(bs[1..])
  }

  function Predictions<T>(bs: seq<Block<T>>): (r: seq<T>)
    ensures |r| == |Truths(bs)|
  {
    if |bs| == 0 then [] else seq(bs[0].n, _ => bs[0].predicted) + Predictions(bs[1..])
  }

  /** The tally of a list of blocks, block by block. */
  function BlockTally<T(==)>(pos: T, bs: seq<Block<T>>): Confusion
  {
    if |bs| == 0 then Confusion(0, 0, 0, 0)
    else Add(BlockTally(pos, bs[1..]), Classify(pos, bs[0].truth, bs[0].predicted), bs[0].n)
  }

  /** Prefixing n identical pairs counts n more in that pair's cell. */
  lemma {:induction false} TallyRun<T>(pos: T, n: nat, t: T, p: T, yp: seq<T>, yt: seq<T>)
    requires |yp| == |yt|
    ensures Tally(pos, seq(n, _ => p) + yp, seq(n, _ => t) + yt) == Add(Tally(pos, yp, yt), Classify(pos, t, p), n)
  {
    if n > 0 {
      assert seq(n, _ => p) + yp == [p] + (seq(n - 1, _ => p) + yp);
      assert seq(n, _ => t) + yt == [t] + (seq(n - 1, _ => t) + yt);
      TallyRun(pos, n - 1, t, p, yp, yt);
    } else {
      assert seq(n, _ => p) + yp == yp && seq(n, _ => t) + yt == yt;
    }
  }

  /** Tallying the pairs of a list of blocks is tallying the blocks. */
  lemma {:induction false} TallyBlocks<T>(pos: T, bs: seq<Block<T>>)
    ensures Tally(pos, Predictions(bs), Truths(bs)) == BlockTally(pos, bs)
  {
    if |bs| > 0 {
      TallyBlocks(pos, bs[1..]);
      TallyRun(pos, bs[0].n, bs[0].truth, bs[0].predicted, Predictions(bs[1..]), Truths(bs[1..]));
    }
  }

  /** The three-class fixture of the library's tests, over any three labels
      a, b, c: rows are true labels, columns predictions,
      [[8,1,2],[1,7,2],[0,2,6]]. */
  function ThreeClass<T>(a: T, b: T, c: T): seq<Block<T>>
  {
    [Block(2, b, c), Block(2, a, c), Block(2, c, b), Block(1, a, b),
     Block(1, b, a), Block(8, a, a), Block(7, b, b), Block(6, c, c)]
  }

  lemma BlockTallyStep<T>(pos: T, bs: seq<Block<T>>, k: int)
    requires 0 <= k < |bs|
    ensures BlockTally(pos, bs[k..]) ==
      Add(BlockTally(pos, bs[k + 1..]), Classify(pos, bs[k].truth, bs[k].predicted), bs[k].n)
  {
    assert bs[k..][1..] == bs[k + 1..];
  }

  /** The fixture's counts with each of its labels as the positive one,
      accumulated from the last block to the first. */
  lemma ThreeClassFirst<T>(a: T, b: T, c: T)
    requires a != b && b != c && a != c
    ensures BlockTally(a, ThreeClass(a, b, c)) == Confusion(8, 13, 1, 3)
  {
    var bs := ThreeClass(a, b, c);
    assert BlockTally(a, bs[8..]) == Confusion(0, 0, 0, 0);
    BlockTallyStep(a, bs, 7);
    assert BlockTally(a, bs[7..]) == Confusion(0, 6, 0, 0);
    BlockTallyStep(a, bs, 6);
    assert BlockTally(a, bs[6..]) == Confusion(0, 13, 0, 0);
    BlockTallyStep(a, bs, 5);
    assert BlockTally(a, bs[5..]) == Confusion(8, 13, 0, 0);
    BlockTallyStep(a, bs, 4);
    assert BlockTally(a, bs[4..]) == Confusion(8, 13, 1, 0);
    BlockTallyStep(a, bs, 3);
    assert BlockTally(a, bs[3..]) == Confusion(8, 13, 1, 1);
    BlockTallyStep(a, bs, 2);
    assert BlockTally(a, bs[2..]) == Confusion(8, 13, 1, 1);
    BlockTallyStep(a, bs, 1);
    assert BlockTally(a, bs[1..]) == Confusion(8, 13, 1, 3);
    BlockTallyStep(a, bs, 0);
    assert BlockTally(a, bs[0..]) == Confusion(8, 13, 1, 3);
    assert bs[0..] == bs;
  }

  lemma ThreeClassSecond<T>(a: T, b: T, c: T)
    requires a != b && b != c && a != c
    ensures BlockTally(b, ThreeClass(a, b, c)) == Confusion(7, 14, 3, 3)
  {
    var bs := ThreeClass(a, b, c);
    assert BlockTally(b, bs[8..]) == Confusion(0, 0, 0, 0);
    BlockTallyStep(b, bs, 7);
    assert BlockTally(b, bs[7..]) == Confusion(0, 6, 0, 0);
    BlockTallyStep(b, bs, 6);
    assert BlockTally(b, bs[6..]) == Confusion(7, 6, 0, 0);
    BlockTallyStep(b, bs, 5);
    assert BlockTally(b, bs[5..]) == Confusion(7, 14, 0, 0);
    BlockTallyStep(b, bs, 4);
    assert BlockTally(b, bs[4..]) == Confusion(7, 14, 0, 1);
    BlockTallyStep(b, bs, 3);
    assert BlockTally(b, bs[3..]) == Confusion(7, 14, 1, 1);
    BlockTallyStep(b, bs, 2);
    assert BlockTally(b, bs[2..]) == Confusion(7, 14, 3, 1);
    BlockTallyStep(b, bs, 1);
    assert BlockTally(b, bs[1..]) == Confusion(7, 14, 3, 1);
    BlockTallyStep(b, bs, 0);
    assert BlockTally(b, bs[0..]) == Confusion(7, 14, 3, 3);
    assert bs[0..] == bs;
  }

  lemma ThreeClassThird<T>(a: T, b: T, c: T)
    requires a != b && b != c && a != c
    ensures BlockTally(c, ThreeClass(a, b, c)) == Confusion(6, 15, 4, 2)
  {
    var bs := ThreeClass(a, b, c);
    assert BlockTally(c, bs[8..]) == Confusion(0, 0, 0, 0);
    BlockTallyStep(c, bs, 7);
    assert BlockTally(c, bs[7..]) == Confusion(6, 0, 0, 0);
    BlockTallyStep(c, bs, 6);
    assert BlockTally(c, bs[6..]) == Confusion(6, 7, 0, 0);
    BlockTallyStep(c, bs, 5);
    assert BlockTally(c, bs[5..]) == Confusion(6, 15, 0, 0);
    BlockTallyStep(c, bs, 4);
    assert BlockTally(c, bs[4..]) == Confusion(6, 15, 0, 0);
    BlockTallyStep(c, bs, 3);
    assert BlockTally(c, bs[3..]) == Confusion(6, 15, 0, 0);
    BlockTallyStep(c, bs, 2);
    assert BlockTally(c, bs[2..]) == Confusion(6, 15, 0, 2);
    BlockTallyStep(c, bs, 1);
    assert BlockTally(c, bs[1..]) == Confusion(6, 15, 2, 2);
    BlockTallyStep(c, bs, 0);
    assert BlockTally(c, bs[0..]) == Confusion(6, 15, 4, 2);
    assert bs[0..] == bs;
  }

  /** calcConfusionMatrix on the fixture, for each of the three labels as positive. */
  lemma ConfusionExample<T>(a: T, b: T, c: T)
    requires a != b && b != c && a != c
    ensures ConfusionMatrix(a, Predictions(ThreeClass(a, b, c)), Truths(ThreeClass(a, b, c))) == Ok(Confusion(8, 13, 1, 3))
    ensures ConfusionMatrix(b, Predictions(ThreeClass(a, b, c)), Truths(ThreeClass(a, b, c))) == Ok(Confusion(7, 14, 3, 3))
    ensures ConfusionMatrix(c, Predictions(ThreeClass(a, b, c)), Truths(ThreeClass(a, b, c))) == Ok(Confusion(6, 15, 4, 2))
  {
    var bs := ThreeClass(a, b, c);
    var yp, yt := Predictions(bs), Truths(bs);
    assert yp[..|yt|] == yp;
    TallyBlocks(a, bs);
    TallyBlocks(b, bs);
    TallyBlocks(c, bs);
    ThreeClassFirst(a, b, c);
    ThreeClassSecond(a, b, c);
    ThreeClassThird(a, b, c);
  }

  /** Statistics.calcConfusionMatrix(pos, Yp, Y): walks the true labels and
      takes the next prediction for each, so too few predictions exhaust the
      iterator and surplus predictions are never read. */
  function ConfusionMatrix<T(==)>(pos: T, yp: seq<T>, yt: seq<T>): (r: Result<Confusion>)
    ensures r.Err? <==> |yp| < |yt|
    ensures r.Err? ==> r.error == NoSuchElement
    ensures r.Ok? ==> r.value.tp + r.value.fn == Occurrences(yt, pos)
    ensures r.Ok? ==> r.value.tp + r.value.fp == Occurrences(yp[..|yt|], pos)
    ensures r.Ok? ==> r.value.tp + r.value.tn == Matches(yp[..|yt|], yt)
    ensures r.Ok? ==> r.value.tp + r.value.tn + r.value.fp + r.value.fn <= |yt|
  {
    if |yp| < |yt| then Err(NoSuchElement)
    else
      TallyMargins(pos, yp[..|yt|], yt);
      Ok(Tally(pos, yp[..|yt|], yt))
  }

  /** The counting loop of calcConfusionMatrix(pos, neg, Yp, Y): only pairs
      whose truth is pos or neg are counted, by whether the prediction agrees. */
  function TallyPosNeg<T(==)>(pos: T, neg: T, yp: seq<T>, yt: seq<T>): (c: Confusion)
    requires |yp| == |yt|
    ensures c.tp + c.fn == Occurrences(yt, pos)
    ensures pos != neg ==> c.tn + c.fp == Occurrences(yt, neg)
    ensures pos == neg ==> c.tn == 0 && c.fp == 0
    ensures c.tp + c.tn <= Matches(yp, yt)
  {
    if |yt| == 0 then Confusion(0, 0, 0, 0)
    else
      var c := TallyPosNeg(pos, neg, yp[1..], yt[1..]);
      var y, p := yt[0], yp[0];
      OccurrencesCons(yt, pos);
      OccurrencesCons(yt, neg);
      if y == p then
        if y == pos then c.(tp := c.tp + 1)
        else if y == neg then c.(tn := c.tn + 1)
        else c
      else if y == pos then c.(fn := c.fn + 1)
      else if y == neg then c.(fp := c.fp + 1)
      else c
  }

  /** Statistics.calcConfusionMatrix(pos, neg, Yp, Y). */
  function ConfusionMatrixPosNeg<T(==)>(pos: T, neg: T, yp: seq<T>, yt: seq<T>): (r: Result<Confusion>)
    ensures r.Err? <==> |yp| < |yt|
    ensures r.Err? ==> r.error == NoSuchElement
    ensures r.Ok? ==> r.value.tp + r.value.fn == Occurrences(yt, pos)
    ensures r.Ok? && pos != neg ==> r.value.tn + r.value.fp == Occurrences(yt, neg)
  {
    if |yp| < |yt| then Err(NoSuchElement) else Ok(TallyPosNeg(pos, neg, yp[..|yt|], yt))
  }

  /** hits / (hits + misses), or 0.0 when nothing was counted: the guarded
      ratio shared by the three measures below. */
  function Ratio(hits: nat, misses: nat): (r: real)
    ensures 0.0 <= r <= 1.0
    ensures r == 1.0 <==> hits > 0 && misses == 0
    ensures r == 0.0 <==> hits == 0
    ensures hits + misses > 0 ==> r * (hits + misses) as real == hits as real
  {
    if hits + misses > 0 then Share(hits, hits + misses) else 0.0
  }

  /** calcSensitivity: TP / (TP + FN). */
  function Sensitivity(c: Confusion): (r: real)
    ensures 0.0 <= r <= 1.0
    ensures r == 1.0 <==> c.tp > 0 && c.fn == 0
    ensures r == 0.0 <==> c.tp == 0
  {
    Ratio(c.tp, c.fn)
  }

  /** calcSpecificity: TN / (TN + FP). */
  function Specificity(c: Confusion): (r: real)
    ensures 0.0 <= r <= 1.0
    ensures r == 1.0 <==> c.tn > 0 && c.fp == 0
    ensures r == 0.0 <==> c.tn == 0
  {
    Ratio(c.tn, c.fp)
  }

  /** calcPrecision: TP / (TP + FP). */
  function Precision(c: Confusion): (r: real)
    ensures 0.0 <= r <= 1.0
    ensures r == 1.0 <==> c.tp > 0 && c.fp == 0
    ensures r == 0.0 <==> c.tp == 0
  {
    Ratio(c.tp, c.fp)
  }

  /** calcSensSpec(pos, yp, yt): sensitivity and specificity for one positive label. */
  function SensSpec<T(==)>(pos: T, yp: seq<T>, yt: seq<T>): (r: Result<(real, real)>)
    ensures r.Err? <==> |yp| < |yt|
    ensures r.Ok? ==> 0.0 <= r.value.0 <= 1.0 && 0.0 <= r.value.1 <= 1.0
    ensures r.Ok? ==> (r.value.0 == 1.0 <==> Occurrences(yt, pos) > 0 && Recalled(pos, yp[..|yt|], yt))
  {
    match ConfusionMatrix(pos, yp, yt)
    case Err(e) => Err(e)
    case Ok(c) =>
      FullRecall(pos, yp[..|yt|], yt);
      Ok((Sensitivity(c), Specificity(c)))
  }

  /** No false negatives means every true pos was predicted as pos. */
  lemma {:induction false} FullRecall<T>(pos: T, yp: seq<T>, yt: seq<T>)
    requires |yp| == |yt|
    ensures Tally(pos, yp, yt).fn == 0 <==> Recalled(pos, yp, yt)
  {
    if |yt| > 0 {
      FullRecall(pos, yp[1..], yt[1..]);
      FalseNegativeStep(pos, yp, yt);
      RecalledStep(pos, yp, yt);
    }
  }

  /** Every true pos was predicted as pos. */
  ghost predicate Recalled<T>(pos: T, yp: seq<T>, yt: seq<T>)
    requires |yp| == |yt|
  {
    forall i :: 0 <= i < |yt| && yt[i] == pos ==> yp[i] == pos
  }

  lemma FalseNegativeStep<T>(pos: T, yp: seq<T>, yt: seq<T>)
    requires |yp| == |yt| > 0
    ensures Tally(pos, yp, yt).fn ==
      Tally(pos, yp[1..], yt[1..]).fn + (if yt[0] == pos && yp[0] != pos then 1 else 0)
  {
  }

  lemma RecalledStep<T>(pos: T, yp: seq<T>, yt: seq<T>)
    requires |yp| == |yt| > 0
    ensures Recalled(pos, yp, yt) <==> (yt[0] == pos ==> yp[0] == pos) && Recalled(pos, yp[1..], yt[1..])
  {
    assert forall i :: 1 <= i < |yt| ==> yp[1..][i - 1] == yp[i] && yt[1..][i - 1] == yt[i];
    if (yt[0] == pos ==> yp[0] == pos) && Recalled(pos, yp[1..], yt[1..]) {
      forall i | 0 <= i < |yt| && yt[i] == pos ensures yp[i] == pos {
        if i > 0 {
          assert yt[1..][i - 1] == pos;
        }
      }
    }
  }

  /** calcPrecRec(pos, yp, yt): precision and recall (= sensitivity). */
  function PrecRec<T(==)>(pos: T, yp: seq<T>, yt: seq<T>): (r: Result<(real, real)>)
    ensures r.Err? <==> |yp| < |yt|
    ensures r.Ok? ==> 0.0 <= r.value.0 <= 1.0 && 0.0 <= r.value.1 <= 1.0
    ensures r.Ok? ==> r.value.1 == SensSpec(pos, yp, yt).value.0
  {
    match ConfusionMatrix(pos, yp, yt)
    case Err(e) => Err(e)
    case Ok(c) => Ok((Precision(c), Sensitivity(c)))
  }

  /** labels lists the distinct true labels once each, in the iteration order
      of the HashSet the library collects them in (an order it does not fix). */
  ghost predicate Enumerates<T>(labels: seq<T>, yt: seq<T>)
  {
    (forall i, j :: 0 <= i < j < |labels| ==> labels[i] != labels[j]) &&
    (forall i :: 0 <= i < |labels| ==> labels[i] in yt) &&
    (forall i :: 0 <= i < |yt| ==> yt[i] in labels)
  }

  /** There are no labels exactly when there are no true values. */
  lemma EnumeratesEmpty<T>(labels: seq<T>, yt: seq<T>)
    requires Enumerates(labels, yt)
    ensures |labels| == 0 <==> |yt| == 0
  {
    if |yt| > 0 {
      assert yt[0] in labels;
    }
    if |labels| > 0 {
      assert labels[0] in yt;
    }
  }

  /** Σ over the labels of measure(confusion matrix with that label positive). */
  function SumOver<T(==)>(labels: seq<T>, yp: seq<T>, yt: seq<T>, measure: Confusion -> real): (r: real)
    requires |yp| == |yt|
    requires forall c :: 0.0 <= measure(c) <= 1.0
    ensures 0.0 <= r <= |labels| as real
  {
    if |labels| == 0 then 0.0
    else measure(Tally(labels[0], yp, yt)) + SumOver(labels[1..], yp, yt, measure)
  }

  /** The label loop shared by calcSensSpec(yp, yt) and calcPrecRec(yp, yt):
      with exactly two labels the first one enumerated is taken as positive;
      otherwise both measures are averaged over all labels, which is 0/0 =
      NaN when there are none. */
  function Averaged<T(==)>(yp: seq<T>, yt: seq<T>, labels: seq<T>,
                           first: Confusion -> real, second: Confusion -> real): (r: Result<(real, real)>)
    requires Enumerates(labels, yt)
    requires forall c :: 0.0 <= first(c) <= 1.0
    requires forall c :: 0.0 <= second(c) <= 1.0
    ensures r == Err(NotFinite) <==> |yt| == 0
    ensures r == Err(NoSuchElement) <==> 0 < |yt| && |yp| < |yt|
    ensures r.Ok? ==> 0.0 <= r.value.0 <= 1.0 && 0.0 <= r.value.1 <= 1.0
    ensures r.Ok? && |labels| == 2 ==>
      var c := Tally(labels[0], yp[..|yt|], yt);
      r.value == (first(c), second(c))
    ensures r.Ok? && |labels| != 2 ==>
      r.value.0 == SumOver(labels, yp[..|yt|], yt, first) / |labels| as real &&
      r.value.1 == SumOver(labels, yp[..|yt|], yt, second) / |labels| as real
  {
    EnumeratesEmpty(labels, yt);
    if |labels| == 2 then
      if |yp| < |yt| then Err(NoSuchElement)
      else
        var c := Tally(labels[0], yp[..|yt|], yt);
        Ok((first(c), second(c)))
    else if |labels| == 0 then Err(NotFinite)
    else if |yp| < |yt| then Err(NoSuchElement)
      else
        var k := |labels| as real;
        var s1 := SumOver(labels, yp[..|yt|], yt, first);
        var s2 := SumOver(labels, yp[..|yt|], yt, second);
        ShareOf(s1, k);
        ShareOf(s2, k);
        Ok((s1 / k, s2 / k))
  }

  /** calcSensSpec(yp, yt): label-averaged sensitivity and specificity. */
  function SensSpecAveraged<T(==)>(yp: seq<T>, yt: seq<T>, labels: seq<T>): (r: Result<(real, real)>)
    requires Enumerates(labels, yt)
    ensures r == Err(NotFinite) <==> |yt| == 0
    ensures r == Err(NoSuchElement) <==> 0 < |yt| && |yp| < |yt|
    ensures r.Ok? ==> 0.0 <= r.value.0 <= 1.0 && 0.0 <= r.value.1 <= 1.0
    ensures r.Ok? && |labels| == 2 ==> r == SensSpec(labels[0], yp, yt)
    ensures r.Ok? && |labels| != 2 ==>
      r.value.0 == SumOver(labels, yp[..|yt|], yt, Sensitivity) / |labels| as real &&
      r.value.1 == SumOver(labels, yp[..|yt|], yt, Specificity) / |labels| as real
  {
    Averaged(yp, yt, labels, Sensitivity, Specificity)
  }

  /** calcPrecRec(yp, yt): label-averaged precision and recall. */
  function PrecRecAveraged<T(==)>(yp: seq<T>, yt: seq<T>, labels: seq<T>): (r: Result<(real, real)>)
    requires Enumerates(labels, yt)
    ensures r == Err(NotFinite) <==> |yt| == 0
    ensures r == Err(NoSuchElement) <==> 0 < |yt| && |yp| < |yt|
    ensures r.Ok? ==> 0.0 <= r.value.0 <= 1.0 && 0.0 <= r.value.1 <= 1.0
    ensures r.Ok? && |labels| == 2 ==> r == PrecRec(labels[0], yp, yt)
    ensures r.Ok? && |labels| != 2 ==>
      r.value.0 == SumOver(labels, yp[..|yt|], yt, Precision) / |labels| as real &&
      r.value.1 == SumOver(labels, yp[..|yt|], yt, Sensitivity) / |labels| as real
  {
    Averaged(yp, yt, labels, Precision, Sensitivity)
  }

  /** Σ at(label) over the labels. */
  function Total<T>(labels: seq<T>, at: T -> real): real
  {
    if |labels| == 0 then 0.0 else at(labels[0]) + Total(labels[1..], at)
  }

  /** Summing a measure of each label's confusion matrix is summing any
      per-label function that agrees with it label by label. */
  lemma {:induction false} SumOverIsTotal<T>(labels: seq<T>, yp: seq<T>, yt: seq<T>,
                                             measure: Confusion -> real, at: T -> real)
    requires |yp| == |yt|
    requires forall c :: 0.0 <= measure(c) <= 1.0
    requires forall pos :: at(pos) == measure(Tally(pos, yp, yt))
    ensures SumOver(labels, yp, yt, measure) == Total(labels, at)
  {
    if |labels| > 0 {
      SumOverIsTotal(labels[1..], yp, yt, measure, at);
    }
  }

  /** Off the two-label case the averaged measures are the plain means of the
      per-label calcSensSpec(pos, yp, yt) and calcPrecRec(pos, yp, yt)
      results over the labels. */
  lemma AveragedIsMean<T>(yp: seq<T>, yt: seq<T>, labels: seq<T>)
    requires Enumerates(labels, yt)
    requires |labels| != 2 && |yp| >= |yt| > 0
    ensures SensSpecAveraged(yp, yt, labels).Ok? && PrecRecAveraged(yp, yt, labels).Ok?
    ensures SensSpecAveraged(yp, yt, labels).value.0
            == Total(labels, pos => SensSpec(pos, yp, yt).value.0) / |labels| as real
    ensures SensSpecAveraged(yp, yt, labels).value.1
            == Total(labels, pos => SensSpec(pos, yp, yt).value.1) / |labels| as real
    ensures PrecRecAveraged(yp, yt, labels).value.0
            == Total(labels, pos => PrecRec(pos, yp, yt).value.0) / |labels| as real
    ensures PrecRecAveraged(yp, yt, labels).value.1
            == Total(labels, pos => PrecRec(pos, yp, yt).value.1) / |labels| as real
  {
    var yp' := yp[..|yt|];
    SumOverIsTotal(labels, yp', yt, Sensitivity, pos => SensSpec(pos, yp, yt).value.0);
    SumOverIsTotal(labels, yp', yt, Specificity, pos => SensSpec(pos, yp, yt).value.1);
    SumOverIsTotal(labels, yp', yt, Precision, pos => PrecRec(pos, yp, yt).value.0);
    SumOverIsTotal(labels, yp', yt, Sensitivity, pos => PrecRec(pos, yp, yt).value.1);
  }

  lemma {:induction false} SumOverAppend<T>(l: seq<T>, l': seq<T>, yp: seq<T>, yt: seq<T>, measure: Confusion -> real)
    requires |yp| == |yt|
    requires forall c :: 0.0 <= measure(c) <= 1.0
    ensures SumOver(l + l', yp, yt, measure) == SumOver(l, yp, yt, measure) + SumOver(l', yp, yt, measure)
  {
    if |l| == 0 {
      assert l + l' == l';
    } else {
      assert (l + l')[1..] == l[1..] + l';
      SumOverAppend(l[1..], l', yp, yt, measure);
    }
  }

  /** The sum over labels does not depend on the order they are listed in. */
  lemma {:induction false} SumOverPermutation<T>(l: seq<T>, l': seq<T>, yp: seq<T>, yt: seq<T>, measure: Confusion -> real)
    requires |yp| == |yt|
    requires forall c :: 0.0 <= measure(c) <= 1.0
    requires multiset(l) == multiset(l')
    ensures SumOver(l, yp, yt, measure) == SumOver(l', yp, yt, measure)
    decreases |l|
  {
    if |l| > 0 {
      var j := Locate(l, l');
      SumOverPermutation(l[1..], l'[..j] + l'[j + 1..], yp, yt, measure);
      SumOverRemoveAt(l', j, yp, yt, measure);
    } else {
      assert |l'| == |multiset(l')| == 0;
    }
  }

  /** The head of l sits at some position j of its permutation l', and the
      rests agree as multisets once it is removed from both. */
  lemma Locate<T>(l: seq<T>, l': seq<T>) returns (j: int)
    requires |l| > 0 && multiset(l) == multiset(l')
    ensures 0 <= j < |l'| && l'[j] == l[0]
    ensures multiset(l[1..]) == multiset(l'[..j] + l'[j + 1..])
  {
    assert l == [l[0]] + l[1..];
    assert l[0] in multiset(l');
    j :| 0 <= j < |l'| && l'[j] == l[0];
    RemoveAt(l', j);
    assert multiset(l) == multiset{l[0]} + multiset(l[1..]);
    assert multiset(l[1..]) == multiset(l) - multiset{l[0]};
    assert multiset(l'[..j] + l'[j + 1..]) == multiset(l') - multiset{l[0]};
  }

  lemma RemoveAt<T>(l: seq<T>, j: int)
    requires 0 <= j < |l|
    ensures multiset(l) == multiset{l[j]} + multiset(l[..j] + l[j + 1..])
  {
    assert l == l[..j] + [l[j]] + l[j + 1..];
  }

  lemma SumOverRemoveAt<T>(l: seq<T>, j: int, yp: seq<T>, yt: seq<T>, measure: Confusion -> real)
    requires 0 <= j < |l| && |yp| == |yt|
    requires forall c :: 0.0 <= measure(c) <= 1.0
    ensures SumOver(l, yp, yt, measure) ==
      measure(Tally(l[j], yp, yt)) + SumOver(l[..j] + l[j + 1..], yp, yt, measure)
  {
    var front, back := l[..j], l[j + 1..];
    var tail := [l[j]] + back;
    SplitAround(l, j);
    SumOverAppend(front, tail, yp, yt, measure);
    SumOverAppend(front, back, yp, yt, measure);
    SumOverCons(l[j], back, yp, yt, measure);
  }

  lemma SplitAround<T>(l: seq<T>, j: int)
    requires 0 <= j < |l|
    ensures l == l[..j] + ([l[j]] + l[j + 1..])
  {
  }

  lemma SumOverCons<T>(x: T, l: seq<T>, yp: seq<T>, yt: seq<T>, measure: Confusion -> real)
    requires |yp| == |yt|
    requires forall c :: 0.0 <= measure(c) <= 1.0
    ensures SumOver([x] + l, yp, yt, measure) == measure(Tally(x, yp, yt)) + SumOver(l, yp, yt, measure)
  {
    assert ([x] + l)[1..] == l;
  }

  /** Two enumerations of the same labels list the same values. */
  lemma EnumerationsPermute<T>(labels: seq<T>, labels': seq<T>, yt: seq<T>)
    requires Enumerates(labels, yt) && Enumerates(labels', yt)
    ensures multiset(labels) == multiset(labels')
  {
    DistinctOnce(labels);
    DistinctOnce(labels');
    forall x ensures multiset(labels)[x] == multiset(labels')[x] {
      if x in labels {
        var i :| 0 <= i < |labels| && labels[i] == x;
        assert x in yt;
      }
      if x in labels' {
        var i :| 0 <= i < |labels'| && labels'[i] == x;
        assert x in yt;
      }
    }
  }

  /** In a sequence without repetitions every value occurs at most once. */
  lemma {:induction false} DistinctOnce<T>(l: seq<T>)
    requires forall i, j :: 0 <= i < j < |l| ==> l[i] != l[j]
    ensures forall x :: multiset(l)[x] == if x in l then 1 else 0
  {
    if |l| > 0 {
      var n := |l| - 1;
      assert l == l[..n] + [l[n]];
      DistinctOnce(l[..n]);
      assert l[n] !in l[..n];
    }
  }

  /** Apart from the two-label case, the label averages do not depend on the
      order in which the labels are enumerated. */
  lemma AveragedOrderFree<T>(yp: seq<T>, yt: seq<T>, labels: seq<T>, labels': seq<T>)
    requires Enumerates(labels, yt) && Enumerates(labels', yt) && |labels| != 2
    ensures SensSpecAveraged(yp, yt, labels) == SensSpecAveraged(yp, yt, labels')
    ensures PrecRecAveraged(yp, yt, labels) == PrecRecAveraged(yp, yt, labels')
  {
    EnumerationsPermute(labels, labels', yt);
    assert |labels| == |multiset(labels)| == |multiset(labels')| == |labels'|;
    if |yp| >= |yt| {
      var yp' := yp[..|yt|];
      SumOverPermutation(labels, labels', yp', yt, Sensitivity);
      SumOverPermutation(labels, labels', yp', yt, Specificity);
      SumOverPermutation(labels, labels', yp', yt, Precision);
    }
  }

  /** With two labels x and y and nothing else predicted, making y the
      positive label swaps TP with TN and FP with FN. */
  lemma {:induction false} BinarySwap<T>(x: T, y: T, yp: seq<T>, yt: seq<T>)
    requires |yp| == |yt| && x != y
    requires forall i :: 0 <= i < |yt| ==> (yt[i] == x || yt[i] == y) && (yp[i] == x || yp[i] == y)
    ensures var c := Tally(x, yp, yt); Tally(y, yp, yt) == Confusion(c.tn, c.tp, c.fn, c.fp)
  {
    if |yt| > 0 {
      var tp, tt := yp[1..], yt[1..];
      forall i | 0 <= i < |tt| ensures (tt[i] == x || tt[i] == y) && (tp[i] == x || tp[i] == y) {
        assert tt[i] == yt[i + 1] && tp[i] == yp[i + 1];
      }
      BinarySwap(x, y, tp, tt);
      ClassifySwap(x, y, yt[0], yp[0]);
      AddSwap(Tally(x, tp, tt), Classify(x, yt[0], yp[0]));
    }
  }

  /** The cell a pair falls into when the other of two labels is positive. */
  function SwappedCell(cell: Cell): Cell
  {
    match cell
    case TruePositive => TrueNegative
    case TrueNegative => TruePositive
    case FalsePositive => FalseNegative
    case FalseNegative => FalsePositive
    case Uncounted => Uncounted
  }

  lemma ClassifySwap<T>(x: T, y: T, t: T, p: T)
    requires x != y && (t == x || t == y) && (p == x || p == y)
    ensures Classify(y, t, p) == SwappedCell(Classify(x, t, p))
  {
  }

  lemma AddSwap(c: Confusion, cell: Cell)
    ensures Add(Confusion(c.tn, c.tp, c.fn, c.fp), SwappedCell(cell), 1) ==
      var d := Add(c, cell, 1); Confusion(d.tn, d.tp, d.fn, d.fp)
  {
  }

  /** Hence in the two-label case the other enumeration order swaps
      sensitivity and specificity, and their mean is the same either way. */
  lemma BinaryOrder<T>(x: T, y: T, yp: seq<T>, yt: seq<T>)
    requires |yp| >= |yt| && x != y
    requires forall i :: 0 <= i < |yt| ==> (yt[i] == x || yt[i] == y) && (yp[i] == x || yp[i] == y)
    ensures SensSpec(y, yp, yt).value == (SensSpec(x, yp, yt).value.1, SensSpec(x, yp, yt).value.0)
  {
    BinarySwap(x, y, yp[..|yt|], yt);
  }

  /** Every true and predicted label of a list of blocks is one of the blocks' labels. */
  lemma {:induction false} BlockLabelsWithin<T>(bs: seq<Block<T>>, labels: set<T>)
    requires forall k :: 0 <= k < |bs| ==> bs[k].truth in labels && bs[k].predicted in labels
    ensures forall i :: 0 <= i < |Truths(bs)| ==> Truths(bs)[i] in labels && Predictions(bs)[i] in labels
  {
    if |bs| > 0 {
      BlockLabelsWithin(bs[1..], labels);
      var n := bs[0].n;
      forall i | 0 <= i < |Truths(bs)| ensures Truths(bs)[i] in labels && Predictions(bs)[i] in labels {
        if i >= n {
          assert Truths(bs)[i] == Truths(bs[1..])[i - n];
          assert Predictions(bs)[i] == Predictions(bs[1..])[i - n];
          assert bs[1..][0..] == bs[1..];
        }
      }
    }
  }

  /** The true label of a non-empty block occurs among the truths. */
  lemma {:induction false} BlockTruthPresent<T>(bs: seq<Block<T>>, k: int)
    requires 0 <= k < |bs| && bs[k].n > 0
    ensures bs[k].truth in Truths(bs)
  {
    if k == 0 {
      assert Truths(bs)[0] == bs[0].truth;
    } else {
      BlockTruthPresent(bs[1..], k - 1);
      var i :| 0 <= i < |Truths(bs[1..])| && Truths(bs[1..])[i] == bs[k].truth;
      assert Truths(bs)[bs[0].n + i] == bs[k].truth;
    }
  }

  /** The two-class fixture of the library's tests over labels a and b:
      [[8,1],[2,7]] with a as the first row and column. */
  function TwoClass<T>(a: T, b: T): seq<Block<T>>
  {
    [Block(1, a, b), Block(2, b, a), Block(8, a, a), Block(7, b, b)]
  }

  lemma TwoClassCounts<T>(a: T, b: T)
    requires a != b
    ensures BlockTally(a, TwoClass(a, b)) == Confusion(8, 7, 2, 1)
  {
    var bs := TwoClass(a, b);
    assert BlockTally(a, bs[4..]) == Confusion(0, 0, 0, 0);
    BlockTallyStep(a, bs, 3);
    assert BlockTally(a, bs[3..]) == Confusion(0, 7, 0, 0);
    BlockTallyStep(a, bs, 2);
    assert BlockTally(a, bs[2..]) == Confusion(8, 7, 0, 0);
    BlockTallyStep(a, bs, 1);
    assert BlockTally(a, bs[1..]) == Confusion(8, 7, 2, 0);
    BlockTallyStep(a, bs, 0);
    assert bs[0..] == bs;
  }

  /** The library's sensitivity/specificity test: Sn = 8/9 and Sp = 7/9 with a positive. */
  lemma SensSpecExample<T>(a: T, b: T)
    requires a != b
    ensures SensSpec(a, Predictions(TwoClass(a, b)), Truths(TwoClass(a, b))) == Ok((8.0 / 9.0, 7.0 / 9.0))
  {
    var bs := TwoClass(a, b);
    var yp, yt := Predictions(bs), Truths(bs);
    assert yp[..|yt|] == yp;
    TallyBlocks(a, bs);
    TwoClassCounts(a, b);
    TwoClassMeasures();
  }

  lemma TwoClassMeasures()
    ensures Sensitivity(Confusion(8, 7, 2, 1)) == 8.0 / 9.0
    ensures Specificity(Confusion(8, 7, 2, 1)) == 7.0 / 9.0
  {
  }

  /** ... and label averaging gives the mean 5/6 whichever label the
      enumeration yields first. */
  lemma SensSpecAveragedExample<T>(a: T, b: T, labels: seq<T>)
    requires a != b && Enumerates(labels, Truths(TwoClass(a, b)))
    ensures var r := SensSpecAveraged(Predictions(TwoClass(a, b)), Truths(TwoClass(a, b)), labels);
      r.Ok? && (r.value.0 + r.value.1) / 2.0 == 5.0 / 6.0
  {
    var bs := TwoClass(a, b);
    var yp, yt := Predictions(bs), Truths(bs);
    SensSpecExample(a, b);
    BlockLabelsWithin(bs, {a, b});
    BinaryOrder(a, b, yp, yt);
    BlockTruthPresent(bs, 0);
    BlockTruthPresent(bs, 1);
    EnumeratesPair(labels, yt, a, b);
  }

  /** A sequence without repetitions drawn from a set is no longer than the set is large. */
  lemma {:induction false} DistinctWithin<T>(l: seq<T>, s: set<T>)
    requires forall i, j :: 0 <= i < j < |l| ==> l[i] != l[j]
    requires forall i :: 0 <= i < |l| ==> l[i] in s
    ensures |l| <= |s|
  {
    if |l| > 0 {
      var s' := s - {l[0]};
      forall i | 0 <= i < |l| - 1 ensures l[1..][i] in s' {
        assert l[1..][i] == l[i + 1] != l[0];
      }
      DistinctWithin(l[1..], s');
      assert s == s' + {l[0]};
    }
  }

  /** An enumeration of labels that are exactly a and b lists them in one of two orders. */
  lemma EnumeratesPair<T>(labels: seq<T>, yt: seq<T>, a: T, b: T)
    requires Enumerates(labels, yt) && a != b && a in yt && b in yt
    requires forall i :: 0 <= i < |yt| ==> yt[i] in {a, b}
    ensures labels == [a, b] || labels == [b, a]
  {
    assert a in labels && b in labels;
    var i :| 0 <= i < |labels| && labels[i] == a;
    var j :| 0 <= j < |labels| && labels[j] == b;
    assert forall k :: 0 <= k < |labels| ==> labels[k] in {a, b};
    DistinctWithin(labels, {a, b});
  }

  /** The fixture's true labels, enumerated in any order. */
  lemma ThreeClassLabels<T>(a: T, b: T, c: T, labels: seq<T>)
    requires a != b && b != c && a != c
    requires Enumerates(labels, Truths(ThreeClass(a, b, c)))
    ensures Enumerates([a, b, c], Truths(ThreeClass(a, b, c)))
    ensures multiset(labels) == multiset([a, b, c]) && |labels| == 3
  {
    var bs := ThreeClass(a, b, c);
    BlockLabelsWithin(bs, {a, b, c});
    BlockTruthPresent(bs, 0);
    BlockTruthPresent(bs, 1);
    BlockTruthPresent(bs, 2);
    EnumerationsPermute(labels, [a, b, c], Truths(bs));
    assert |labels| == |multiset(labels)| == |multiset([a, b, c])| == 3;
  }

  /** The label sums of the fixture: each label's measure, added up. */
  lemma ThreeClassSums<T>(a: T, b: T, c: T, measure: Confusion -> real)
    requires a != b && b != c && a != c
    requires forall c :: 0.0 <= measure(c) <= 1.0
    ensures var yp, yt := Predictions(ThreeClass(a, b, c)), Truths(ThreeClass(a, b, c));
      SumOver([a, b, c], yp, yt, measure) ==
        measure(Confusion(8, 13, 1, 3)) + measure(Confusion(7, 14, 3, 3)) + measure(Confusion(6, 15, 4, 2))
  {
    var bs := ThreeClass(a, b, c);
    var yp, yt := Predictions(bs), Truths(bs);
    assert Tally(a, yp, yt) == Confusion(8, 13, 1, 3) by {
      TallyBlocks(a, bs);
      ThreeClassFirst(a, b, c);
    }
    assert Tally(b, yp, yt) == Confusion(7, 14, 3, 3) by {
      TallyBlocks(b, bs);
      ThreeClassSecond(a, b, c);
    }
    assert Tally(c, yp, yt) == Confusion(6, 15, 4, 2) by {
      TallyBlocks(c, bs);
      ThreeClassThird(a, b, c);
    }
    SumOverThree(a, b, c, yp, yt, measure);
  }

  lemma SumOverThree<T>(x: T, y: T, z: T, yp: seq<T>, yt: seq<T>, measure: Confusion -> real)
    requires |yp| == |yt|
    requires forall c :: 0.0 <= measure(c) <= 1.0
    ensures SumOver([x, y, z], yp, yt, measure) ==
      measure(Tally(x, yp, yt)) + measure(Tally(y, yp, yt)) + measure(Tally(z, yp, yt))
  {
    assert [x, y, z][1..] == [y, z] && [y, z][1..] == [z] && [z][1..] == [];
    assert SumOver([z], yp, yt, measure) == measure(Tally(z, yp, yt));
    assert SumOver([y, z], yp, yt, measure) == measure(Tally(y, yp, yt)) + measure(Tally(z, yp, yt));
  }

  /** The library's three-class averaging test: the mean sensitivity
      (8/11 + 7/10 + 6/8)/3 ≈ 0.7258, the mean specificity
      (13/14 + 14/17 + 15/19)/3 ≈ 0.8472, the mean precision
      (8/9 + 7/10 + 6/10)/3 ≈ 0.7296, for every enumeration of the labels. */
  lemma AveragedExample<T>(a: T, b: T, c: T, labels: seq<T>)
    requires a != b && b != c && a != c
    requires Enumerates(labels, Truths(ThreeClass(a, b, c)))
    ensures var yp, yt := Predictions(ThreeClass(a, b, c)), Truths(ThreeClass(a, b, c));
      && SensSpecAveraged(yp, yt, labels) ==
        Ok(((8.0 / 11.0 + 7.0 / 10.0 + 6.0 / 8.0) / 3.0, (13.0 / 14.0 + 14.0 / 17.0 + 15.0 / 19.0) / 3.0))
      && PrecRecAveraged(yp, yt, labels) ==
        Ok(((8.0 / 9.0 + 7.0 / 10.0 + 6.0 / 10.0) / 3.0, (8.0 / 11.0 + 7.0 / 10.0 + 6.0 / 8.0) / 3.0))
  {
    var bs := ThreeClass(a, b, c);
    var yp, yt := Predictions(bs), Truths(bs);
    ThreeClassLabels(a, b, c, labels);
    AveragedOrderFree(yp, yt, labels, [a, b, c]);
    assert yp[..|yt|] == yp;
    ThreeClassSums(a, b, c, Sensitivity);
    ThreeClassSums(a, b, c, Specificity);
    ThreeClassSums(a, b, c, Precision);
    assert Share(8, 11) == 8.0 / 11.0 && Share(7, 10) == 7.0 / 10.0 && Share(6, 8) == 6.0 / 8.0;
    assert Share(13, 14) == 13.0 / 14.0 && Share(14, 17) == 14.0 / 17.0 && Share(15, 19) == 15.0 / 19.0;
    assert Share(8, 9) == 8.0 / 9.0 && Share(6, 10) == 6.0 / 10.0;
  }

  /** The library's F-measure test: the harmonic mean of the averaged
      precision and recall of the three-class fixture, ≈ 0.7277. */
  lemma FMeasureExample<T>(a: T, b: T, c: T, labels: seq<T>)
    requires a != b && b != c && a != c
    requires Enumerates(labels, Truths(ThreeClass(a, b, c)))
    ensures FMeasure(Predictions(ThreeClass(a, b, c)), Truths(ThreeClass(a, b, c)), labels) ==
      Ok(Harmonic((8.0 / 9.0 + 7.0 / 10.0 + 6.0 / 10.0) / 3.0, (8.0 / 11.0 + 7.0 / 10.0 + 6.0 / 8.0) / 3.0))
  {
    AveragedExample(a, b, c, labels);
  }

  /** The (labels[i], labels[j]) pairs with i < j, in the order of the
      nested loops of calcSensSpecAlt. */
  function LabelPairs<T>(labels: seq<T>): (r: seq<(T, T)>)
    ensures |r| == |labels| * (|labels| - 1) / 2
    ensures forall p :: p in r ==> p.0 in labels && p.1 in labels
  {
    if |labels| == 0 then []
    else
      var rest := LabelPairs(labels[1..]);
      var n := |labels| - 1;
      assert n * (n - 1) / 2 + n == (n + 1) * n / 2 by {
        HalfProduct(n);
      }
      seq(n, j requires 0 <= j < n => (labels[0], labels[1..][j])) + rest
  }

  /** LabelPairs lists exactly the pairs (labels[i], labels[j]) with i < j. */
  lemma {:induction false} LabelPairsContents<T>(labels: seq<T>)
    ensures forall i, j :: 0 <= i < j < |labels| ==> (labels[i], labels[j]) in LabelPairs(labels)
    ensures forall p :: p in LabelPairs(labels) ==>
      exists i, j :: 0 <= i < j < |labels| && p == (labels[i], labels[j])
  {
    if |labels| > 0 {
      LabelPairsContents(labels[1..]);
      var n := |labels| - 1;
      var head := seq(n, j requires 0 <= j < n => (labels[0], labels[1..][j]));
      assert LabelPairs(labels) == head + LabelPairs(labels[1..]);
      PairsCons(labels, head, LabelPairs(labels[1..]));
    }
  }

  /** The pairs led by labels[0] followed by the pairs of the rest are
      exactly the ordered pairs of labels. */
  lemma PairsCons<T>(labels: seq<T>, head: seq<(T, T)>, rest: seq<(T, T)>)
    requires |labels| > 0 && |head| == |labels| - 1
    requires forall j :: 0 <= j < |head| ==> head[j] == (labels[0], labels[j + 1])
    requires forall i, j :: 0 <= i < j < |labels| - 1 ==> (labels[1..][i], labels[1..][j]) in rest
    requires forall p :: p in rest ==> exists i, j :: 0 <= i < j < |labels| - 1 && p == (labels[1..][i], labels[1..][j])
    ensures forall i, j :: 0 <= i < j < |labels| ==> (labels[i], labels[j]) in head + rest
    ensures forall p :: p in head + rest ==> exists i, j :: 0 <= i < j < |labels| && p == (labels[i], labels[j])
  {
    forall i, j | 0 <= i < j < |labels| ensures (labels[i], labels[j]) in head + rest {
      if i == 0 {
        assert head[j - 1] == (labels[i], labels[j]);
      } else {
        assert labels[1..][i - 1] == labels[i] && labels[1..][j - 1] == labels[j];
      }
    }
    forall p | p in head + rest ensures exists i, j :: 0 <= i < j < |labels| && p == (labels[i], labels[j]) {
      if p in head {
        var j :| 0 <= j < |head| && head[j] == p;
        assert p == (labels[0], labels[j + 1]);
      } else {
        var i, j :| 0 <= i < j < |labels| - 1 && p == (labels[1..][i], labels[1..][j]);
        assert p == (labels[i + 1], labels[j + 1]);
      }
    }
  }

  lemma HalfProduct(n: nat)
    ensures n * (n - 1) / 2 + n == (n + 1) * n / 2
  {
    assert (n + 1) * n == n * (n - 1) + 2 * n;
  }

  /** With distinct labels the two labels of every pair differ. */
  lemma {:induction false} LabelPairsDistinct<T>(labels: seq<T>)
    requires forall i, j :: 0 <= i < j < |labels| ==> labels[i] != labels[j]
    ensures forall p :: p in LabelPairs(labels) ==> p.0 != p.1
  {
    if |labels| > 0 {
      LabelPairsDistinct(labels[1..]);
      forall j | 0 <= j < |labels| - 1 ensures labels[0] != labels[1..][j] {
        assert labels[1..][j] == labels[j + 1];
      }
    }
  }

  function SumOverPairs<T(==)>(pairs: seq<(T, T)>, yp: seq<T>, yt: seq<T>, measure: Confusion -> real): (r: real)
    requires |yp| == |yt|
    requires forall c :: 0.0 <= measure(c) <= 1.0
    ensures 0.0 <= r <= |pairs| as real
  {
    if |pairs| == 0 then 0.0
    else measure(TallyPosNeg(pairs[0].0, pairs[0].1, yp, yt)) + SumOverPairs(pairs[1..], yp, yt, measure)
  }

  /** calcSensSpecAlt(yp, yt): sensitivity and specificity summed over the
      C(C−1)/2 label pairs (pos = earlier label, neg = later label) and
      divided by the int pair counter k. With fewer than two labels k is 0
      and both are 0/0 = NaN; too few predictions throw at the first pair.
      Beyond 2^31 − 1 pairs (C ≥ 65537) k wraps (JavaInt.CounterIsWrap), and
      a k wrapped to 0 makes the quotients non-finite. */
  function SensSpecAlt<T(==)>(yp: seq<T>, yt: seq<T>, labels: seq<T>): (r: Result<(real, real)>)
    requires Enumerates(labels, yt)
    ensures r == Err(NotFinite) <==> |labels| < 2 || (|yp| >= |yt| && JavaInt.Wrap(|LabelPairs(labels)|) == 0)
    ensures r == Err(NoSuchElement) <==> |labels| >= 2 && |yp| < |yt|
    ensures r.Ok? && |LabelPairs(labels)| <= JavaInt.MaxInt ==>
      0.0 <= r.value.0 <= 1.0 && 0.0 <= r.value.1 <= 1.0
    ensures r.Ok? ==>
      r.value.0 == SumOverPairs(LabelPairs(labels), yp[..|yt|], yt, Sensitivity) / JavaInt.Wrap(|LabelPairs(labels)|) as real &&
      r.value.1 == SumOverPairs(LabelPairs(labels), yp[..|yt|], yt, Specificity) / JavaInt.Wrap(|LabelPairs(labels)|) as real
  {
    var pairs := LabelPairs(labels);
    PairCountPositive(|labels|);
    if |pairs| == 0 then Err(NotFinite)
    else if |yp| < |yt| then Err(NoSuchElement)
    else
      var k := JavaInt.Wrap(|pairs|);
      if k == 0 then Err(NotFinite)
      else
        var s1 := SumOverPairs(pairs, yp[..|yt|], yt, Sensitivity);
        var s2 := SumOverPairs(pairs, yp[..|yt|], yt, Specificity);
        JavaInt.CounterShare(s1, k, |pairs|);
        JavaInt.CounterShare(s2, k, |pairs|);
        Ok((s1 / k as real, s2 / k as real))
  }

  /** With two labels the only pair is (labels[0], labels[1]), so the pair
      average is the sensitivity and specificity of the single pos/neg
      confusion matrix calcConfusionMatrix(labels[0], labels[1], yp, yt). */
  lemma SensSpecAltTwoLabels<T>(yp: seq<T>, yt: seq<T>, labels: seq<T>)
    requires Enumerates(labels, yt)
    requires |labels| == 2 && |yp| >= |yt|
    ensures ConfusionMatrixPosNeg(labels[0], labels[1], yp, yt).Ok?
    ensures var c := ConfusionMatrixPosNeg(labels[0], labels[1], yp, yt).value;
      SensSpecAlt(yp, yt, labels) == Ok((Sensitivity(c), Specificity(c)))
  {
    assert LabelPairs(labels[1..]) == [];
    assert LabelPairs(labels) == [(labels[0], labels[1])];
  }

  /** With 65537 labels the 2147516416 pairs wrap k to −2147450880, so both
      averages come out non-positive instead of lying in [0, 1]. */
  lemma SensSpecAltOverflow<T>(yp: seq<T>, yt: seq<T>, labels: seq<T>)
    requires Enumerates(labels, yt)
    requires |labels| == 65537 && |yp| >= |yt|
    ensures JavaInt.Wrap(|LabelPairs(labels)|) == -2147450880
    ensures SensSpecAlt(yp, yt, labels).Ok?
    ensures SensSpecAlt(yp, yt, labels).value.0 <= 0.0 && SensSpecAlt(yp, yt, labels).value.1 <= 0.0
  {
    assert |LabelPairs(labels)| == 2147516416;
    assert JavaInt.Wrap(2147516416) == -2147450880;
    var pairs := LabelPairs(labels);
    JavaInt.CounterShare(SumOverPairs(pairs, yp[..|yt|], yt, Sensitivity), -2147450880, |pairs|);
    JavaInt.CounterShare(SumOverPairs(pairs, yp[..|yt|], yt, Specificity), -2147450880, |pairs|);
  }

  lemma PairCountPositive(n: nat)
    ensures n * (n - 1) / 2 > 0 <==> n >= 2
  {
    if n >= 2 {
      assert n * (n - 1) >= 2 * 1;
    }
  }

  /** 2pr/(p + r), the harmonic mean of precision and recall. */
  function Harmonic(p: real, r: real): (f: real)
    requires 0.0 <= p && 0.0 <= r && p + r > 0.0
  {
    2.0 * (p * r) / (p + r)
  }

  /** f = 2pr/(p + r) solves f·(p + r) = 2pr. */
  lemma HarmonicEquation(p: real, r: real)
    requires 0.0 <= p && 0.0 <= r && p + r > 0.0
    ensures Harmonic(p, r) * (p + r) == 2.0 * (p * r)
  {
  }

  /** The harmonic mean lies between its two arguments. */
  lemma HarmonicBetween(p: real, r: real)
    requires 0.0 <= p && 0.0 <= r && p + r > 0.0
    ensures p <= r ==> p <= Harmonic(p, r) <= r
    ensures r <= p ==> r <= Harmonic(p, r) <= p
  {
    var f := Harmonic(p, r);
    assert f * (p + r) == 2.0 * (p * r);
    if p <= r {
      HarmonicStep(p, r, f);
    } else {
      HarmonicStep(r, p, f);
    }
  }

  lemma HarmonicStep(lo: real, hi: real, f: real)
    requires 0.0 <= lo <= hi && lo + hi > 0.0 && f * (lo + hi) == 2.0 * (lo * hi)
    ensures lo <= f <= hi
  {
    assert lo * (lo + hi) <= 2.0 * (lo * hi) by {
      assert lo * lo <= lo * hi by { MulLeft(lo, lo, hi); }
      assert lo * (lo + hi) == lo * lo + lo * hi;
    }
    assert 2.0 * (lo * hi) <= hi * (lo + hi) by {
      assert hi * lo <= hi * hi by { MulLeft(hi, lo, hi); }
      assert hi * (lo + hi) == hi * lo + hi * hi;
    }
    var k := lo + hi;
    assert f * k == 2.0 * (lo * hi);
    assert lo * k <= f * k;
    CancelPositive(lo, f, k);
    assert 2.0 * (lo * hi) <= hi * k;
    assert f * k <= hi * k;
    CancelPositive(f, hi, k);
  }

  lemma MulLeft(k: real, x: real, y: real)
    requires k >= 0.0 && x <= y
    ensures k * x <= k * y
  {
  }

  lemma CancelPositive(x: real, y: real, k: real)
    requires x * k <= y * k && k > 0.0
    ensures x <= y
  {
    assert (y - x) * k >= 0.0;
  }

  /** calcFMeasure(yp, yt): the harmonic mean of the label-averaged precision
      and recall, 0.0 when both are zero; a NaN precision or recall (no labels)
      fails the test p + r > 0 and also yields 0.0. */
  function FMeasure<T(==)>(yp: seq<T>, yt: seq<T>, labels: seq<T>): (r: Result<real>)
    requires Enumerates(labels, yt)
    ensures r.Err? <==> 0 < |yt| && |yp| < |yt|
    ensures r.Ok? ==> 0.0 <= r.value <= 1.0
    ensures r.Ok? && PrecRecAveraged(yp, yt, labels).Ok? ==>
      var (p, q) := PrecRecAveraged(yp, yt, labels).value;
      (p <= q ==> p <= r.value <= q) && (q <= p ==> q <= r.value <= p)
    ensures r.Ok? && PrecRecAveraged(yp, yt, labels).Ok? ==>
      var (p, q) := PrecRecAveraged(yp, yt, labels).value;
      r.value * (p + q) == 2.0 * (p * q)
    ensures |yt| == 0 ==> r == Ok(0.0)
  {
    match PrecRecAveraged(yp, yt, labels)
    case Err(NotFinite) => Ok(0.0)
    case Err(e) => Err(e)
    case Ok((p, q)) =>
      if p + q > 0.0 then
        HarmonicBetween(p, q);
        HarmonicEquation(p, q);
        Ok(Harmonic(p, q))
      else Ok(0.0)
  }
}

=== FILE: descriptive.dfy ===
/** The descriptive statistics of Statistics.java: mean, bias-corrected
    variance, standard deviation, q², mean squared error and the squared
    Pearson correlation. A division that Java carries out on doubles and
    that yields NaN or an infinity is reported as Err(NotFinite); an index
    beyond a list is Err(IndexOutOfRange). */
module Descriptive {
  import opened Wrappers
  import opened Series

  /** Statistics.mean: Σx / N, where an empty input gives 0/0 = NaN. */
  function Mean(s: seq<real>): (r: Result<real>)
    ensures r.Ok? <==> |s| > 0
    ensures r.Ok? ==> r.value * |s| as real == Sum(s)
  {
    if |s| == 0 then Err(NotFinite) else Ok(Sum(s) / |s| as real)
  }

  /** The deviations x − mean(s) that var, q2 and pearsonCorr square and sum. */
  function Deviations(s: seq<real>): (r: seq<real>)
    ensures |r| == |s|
  {
    if |s| == 0 then [] else Shift(s, Mean(s).value)
  }

  /** Deviations from the mean cancel out. */
  lemma {:induction false} DeviationsSumToZero(s: seq<real>)
    ensures Sum(Deviations(s)) == 0.0
  {
    if |s| > 0 {
      SumShift(s, Mean(s).value);
    }
  }

  /** The spread Σ(x − mean)² is zero exactly for a constant sequence. */
  lemma {:induction false} SpreadZero(s: seq<real>)
    ensures SumSq(Deviations(s)) == 0.0 <==> forall i :: 0 <= i < |s| ==> s[i] == s[0]
  {
    if |s| > 0 {
      var m := Mean(s).value;
      var d := Deviations(s);
      SumSqZero(d);
      if SumSq(d) == 0.0 {
        forall i | 0 <= i < |s| ensures s[i] == s[0] {
          assert d[i] == s[i] - m && d[0] == s[0] - m;
        }
      }
      if forall i :: 0 <= i < |s| ==> s[i] == s[0] {
        ConstantMean(s);
        forall i | 0 <= i < |s| ensures d[i] == 0.0 {
          assert d[i] == s[i] - m;
        }
      }
    }
  }

  /** The mean of a constant sequence is that constant. */
  lemma {:induction false} ConstantMean(s: seq<real>)
    requires |s| > 0
    requires forall i :: 0 <= i < |s| ==> s[i] == s[0]
    ensures Mean(s) == Ok(s[0])
  {
    assert s == Const(|s|, s[0]);
    SumConst(|s|, s[0]);
    Cancel(Mean(s).value, s[0], |s| as real);
  }

  /** Statistics.var: Σ(x − mean)² / (N − 1). With one value this is 0/0 = NaN;
      with none the loop is skipped and 0.0 / −1 gives (negative) zero. */
  function Var(s: seq<real>): (r: Result<real>)
    ensures r.Err? <==> |s| == 1
    ensures r.Ok? ==> r.value >= 0.0
    ensures |s| >= 2 ==> r.value * (|s| - 1) as real == SumSq(Deviations(s))
    ensures |s| == 0 ==> r == Ok(0.0)
  {
    if |s| == 0 then Ok(0.0)
    else if |s| == 1 then Err(NotFinite)
    else
      NonNegativeRatio(SumSq(Deviations(s)), (|s| - 1) as real);
      Ok(SumSq(Deviations(s)) / (|s| - 1) as real)
  }

  /** The variance vanishes exactly on constant data. */
  lemma {:induction false} VarZero(s: seq<real>)
    requires |s| >= 2
    ensures Var(s).value == 0.0 <==> forall i :: 0 <= i < |s| ==> s[i] == s[0]
  {
    SpreadZero(s);
  }

  /** Adding a constant moves the mean by that constant and leaves var unchanged. */
  lemma {:induction false} VarShift(s: seq<real>, k: real)
    ensures |s| > 0 ==> Mean(Shift(s, k)).value == Mean(s).value - k
    ensures Var(Shift(s, k)) == Var(s)
  {
    if |s| > 0 {
      var n := |s| as real;
      var m, m' := Mean(s).value, Mean(Shift(s, k)).value;
      SumShift(s, k);
      MeanOfShift(m', m, n, k, Sum(Shift(s, k)), Sum(s));
      assert Deviations(Shift(s, k)) == Deviations(s);
    }
  }

  /** Multiplying by k multiplies the mean by k and the variance by k². */
  lemma {:induction false} VarScale(s: seq<real>, k: real)
    ensures |s| > 0 ==> Mean(Scale(s, k)).value == Mean(s).value * k
    ensures Var(s).Ok? ==> Var(Scale(s, k)).Ok? && Var(Scale(s, k)).value == Var(s).value * (k * k)
    ensures Var(s).Err? ==> Var(Scale(s, k)) == Var(s)
  {
    if |s| > 0 {
      DeviationsScale(s, k);
    }
    if |s| >= 2 {
      var n := |s|;
      var d := Deviations(s);
      SumSqScale(d, k);
      VarOfMany(s, n, SumSq(d));
      VarOfMany(Scale(s, k), n, SumSq(Scale(d, k)));
      RatioScaled(Var(s).value, Var(Scale(s, k)).value, SumSq(d), SumSq(Scale(d, k)), k * k, (n - 1) as real);
    } else if |s| == 0 {
      assert 0.0 * (k * k) == 0.0;
    }
  }

  /** var of n ≥ 2 values is their sum of squared deviations over n − 1. */
  lemma VarOfMany(s: seq<real>, n: int, y: real)
    requires |s| == n && n >= 2 && y == SumSq(Deviations(s))
    ensures Var(s) == Ok(y / (n - 1) as real)
  {
  }

  lemma RatioScaled(v: real, v': real, y: real, y': real, c: real, d: real)
    requires d != 0.0 && v == y / d && v' == y' / d && y' == y * c
    ensures v' == v * c
  {
  }

  lemma {:induction false} DeviationsScale(s: seq<real>, k: real)
    requires |s| > 0
    ensures Mean(Scale(s, k)).value == Mean(s).value * k
    ensures Deviations(Scale(s, k)) == Scale(Deviations(s), k)
  {
    var m, m' := Mean(s).value, Mean(Scale(s, k)).value;
    SumScale(s, k);
    Rescale(m', m, |s| as real, k, Sum(Scale(s, k)), Sum(s));
    ShiftScale(s, m, m', k);
  }

  /** Shifting a scaled series by a scaled amount: (x·k − m·k) = (x − m)·k. */
  lemma {:induction false} ShiftScale(s: seq<real>, m: real, m': real, k: real)
    requires m' == m * k
    ensures Shift(Scale(s, k), m') == Scale(Shift(s, m), k)
  {
    forall i | 0 <= i < |s| ensures Shift(Scale(s, k), m')[i] == Scale(Shift(s, m), k)[i] {
      Distribute(s[i], m, k);
    }
  }

  /** Statistics.std: the square root of var. */
  function Std(s: seq<real>, sqrt: real -> real): (r: Result<real>)
    requires IsSqrt(sqrt)
    ensures r.Ok? <==> Var(s).Ok?
    ensures r.Ok? ==> r.value >= 0.0 && r.value * r.value == Var(s).value
  {
    match Var(s)
    case Ok(v) => Ok(sqrt(v))
    case Err(e) => Err(e)
  }

  /** Σ (yp[k] − yt[k])² over the predictions, as q2 and mse accumulate it. */
  function SqError(yp: seq<real>, yt: seq<real>): (r: real)
    requires |yp| <= |yt|
    ensures r >= 0.0
  {
    SumSq(Minus(yp, yt[..|yp|]))
  }

  /** The squared error vanishes exactly when every prediction is right. */
  lemma {:induction false} SqErrorZero(yp: seq<real>, yt: seq<real>)
    requires |yp| <= |yt|
    ensures SqError(yp, yt) == 0.0 <==> yp == yt[..|yp|]
  {
    SumSqZero(Minus(yp, yt[..|yp|]));
  }

  /** Statistics.q2: 1 − Σ(yp − yt)² / Σ(yt − mean)². A prediction beyond the
      true values fails on Vector.get; a zero spread divides by zero. */
  function Q2(yt: seq<real>, yp: seq<real>): (r: Result<real>)
    ensures r == Err(IndexOutOfRange) <==> |yp| > |yt|
    ensures r == Err(NotFinite) <==> |yp| <= |yt| && SumSq(Deviations(yt)) == 0.0
    ensures r.Ok? ==> r.value <= 1.0
    ensures r.Ok? ==> (r.value == 1.0 <==> yp == yt[..|yp|])
    ensures r.Ok? ==> (1.0 - r.value) * SumSq(Deviations(yt)) == SqError(yp, yt)
  {
    if |yp| > |yt| then Err(IndexOutOfRange)
    else
      var su := SumSq(Deviations(yt));
      if su == 0.0 then Err(NotFinite)
      else
        SqErrorZero(yp, yt);
        NonNegativeRatio(SqError(yp, yt), su);
        ZeroRatio(SqError(yp, yt), su);
        ComplementRatio(SqError(yp, yt), su);
        Ok(1.0 - SqError(yp, yt) / su)
  }

  /** Statistics.mse: Σ(yp − yt)² / #yp. */
  function Mse(yp: seq<real>, yt: seq<real>): (r: Result<real>)
    ensures r == Err(IndexOutOfRange) <==> |yp| > |yt|
    ensures r == Err(NotFinite) <==> |yp| == 0
    ensures r.Ok? ==> r.value >= 0.0 && r.value * |yp| as real == SqError(yp, yt)
    ensures r.Ok? ==> (r.value == 0.0 <==> yp == yt[..|yp|])
  {
    if |yp| > |yt| then Err(IndexOutOfRange)
    else if |yp| == 0 then Err(NotFinite)
    else
      SqErrorZero(yp, yt);
      NonNegativeRatio(SqError(yp, yt), |yp| as real);
      ZeroRatio(SqError(yp, yt), |yp| as real);
      Ok(SqError(yp, yt) / |yp| as real)
  }

  /** Statistics.pearsonCorr, which returns the SQUARE of Pearson's r:
      sxy² / (sxx·syy), where sxy pairs each prediction's deviation with the
      deviation of the true value at the same position. */
  function PearsonCorr(yt: seq<real>, yp: seq<real>): (r: Result<real>)
    ensures r == Err(IndexOutOfRange) <==> |yp| > |yt|
    ensures r == Err(NotFinite) <==>
      |yp| <= |yt| && (SumSq(Deviations(yt)) == 0.0 || SumSq(Deviations(yp)) == 0.0)
    ensures r.Ok? ==> 0.0 <= r.value <= 1.0
    ensures r.Ok? ==> r.value * (SumSq(Deviations(yt)) * SumSq(Deviations(yp)))
                      == Sq(Dot(Deviations(yp), Deviations(yt)[..|yp|]))
  {
    if |yp| > |yt| then Err(IndexOutOfRange)
    else
      var sxx := SumSq(Deviations(yt));
      var syy := SumSq(Deviations(yp));
      var sxy := Dot(Deviations(yp), Deviations(yt)[..|yp|]);
      if sxx == 0.0 || syy == 0.0 then Err(NotFinite)
      else
        CorrelationBound(yt, yp);
        ProductPositive(sxx, syy, sxx * syy);
        UnitRatio(Sq(sxy), sxx * syy);
        Ok(Sq(sxy) / (sxx * syy))
  }

  /** sxy² ≤ sxx·syy by Cauchy–Schwarz, also when sxy uses only a prefix of yt. */
  lemma {:induction false} CorrelationBound(yt: seq<real>, yp: seq<real>)
    requires |yp| <= |yt|
    ensures 0.0 <= Sq(Dot(Deviations(yp), Deviations(yt)[..|yp|]))
                <= SumSq(Deviations(yt)) * SumSq(Deviations(yp))
  {
    PrefixCauchySchwarz(Deviations(yp), Deviations(yt), Sq(Dot(Deviations(yp), Deviations(yt)[..|yp|])),
      SumSq(Deviations(yt)), SumSq(Deviations(yp)));
  }

  /** With equally long inputs the squared correlation is symmetric. */
  lemma {:induction false} PearsonSymmetric(a: seq<real>, b: seq<real>)
    requires |a| == |b|
    ensures PearsonCorr(a, b) == PearsonCorr(b, a)
  {
    assert Deviations(a)[..|b|] == Deviations(a);
    assert Deviations(b)[..|a|] == Deviations(b);
    DotSymmetric(Deviations(a), Deviations(b));
    if SumSq(Deviations(a)) != 0.0 && SumSq(Deviations(b)) != 0.0 {
      assert SumSq(Deviations(a)) * SumSq(Deviations(b)) == SumSq(Deviations(b)) * SumSq(Deviations(a));
    }
  }

  lemma MeanOfShift(m': real, m: real, n: real, k: real, total': real, total: real)
    requires m' * n == total' && m * n == total && total' == total - n * k && n != 0.0
    ensures m' == m - k
  {
    Cancel(m', m - k, n);
  }

  /** A quantity defined by x·n = total scales with its total. */
  lemma Rescale(x': real, x: real, n: real, k: real, total': real, total: real)
    requires x' * n == total' && x * n == total && total' == total * k && n != 0.0
    ensures x' == x * k
  {
    Cancel(x', x * k, n);
  }

  lemma Distribute(x: real, m: real, k: real)
    ensures x * k - m * k == (x - m) * k
  {
  }

  lemma Cancel(x: real, y: real, n: real)
    requires x * n == y * n && n != 0.0
    ensures x == y
  {
  }

  lemma NonNegativeRatio(x: real, d: real)
    requires x >= 0.0 && d > 0.0
    ensures x / d >= 0.0
  {
  }

  lemma ZeroRatio(x: real, d: real)
    requires d > 0.0
    ensures x / d == 0.0 <==> x == 0.0
  {
  }

  /** Cauchy–Schwarz against a prefix of a longer sequence: the squared dot
      product x of a with the first |a| entries of c is at most Σc²·Σa². */
  lemma {:induction false} PrefixCauchySchwarz(a: seq<real>, c: seq<real>, x: real, sc: real, sa: real)
    requires |a| <= |c|
    requires x == Sq(Dot(a, c[..|a|])) && sc == SumSq(c) && sa == SumSq(a)
    ensures 0.0 <= x <= sc * sa
  {
    CauchySchwarz(a, c[..|a|]);
    SumSqPrefix(c, |a|);
    SqSign(Dot(a, c[..|a|]));
    ProductBound(x, sa, SumSq(c[..|a|]), sc);
  }

  /** x ≤ p·q when x ≤ q·r and 0 ≤ r ≤ p, q ≥ 0. */
  lemma ProductBound(x: real, q: real, r: real, p: real)
    requires x <= q * r && 0.0 <= r <= p && q >= 0.0
    ensures x <= p * q
  {
    if q > 0.0 {
      MulMono(r, p, q);
    }
  }

  lemma ComplementRatio(x: real, d: real)
    requires d != 0.0
    ensures (1.0 - (1.0 - x / d)) * d == x
  {
  }

  lemma UnitRatio(x: real, y: real)
    requires 0.0 <= x <= y && y > 0.0
    ensures 0.0 <= x / y <= 1.0 && (x / y) * y == x
  {
  }

  /** The library's own fixtures: mean([1,2,3,4]) = 2.5 and var = 5/3. */
  lemma MeanVarExample()
    ensures Mean([1.0, 2.0, 3.0, 4.0]) == Ok(2.5)
    ensures Var([1.0, 2.0, 3.0, 4.0]) == Ok(5.0 / 3.0)
  {
    var s := [1.0, 2.0, 3.0, 4.0];
    assert Sum(s) == 10.0 by {
      assert s[1..] == [2.0, 3.0, 4.0];
      assert s[1..][1..] == [3.0, 4.0];
      assert s[1..][1..][1..] == [4.0];
    }
    var d := Deviations(s);
    assert d == [-1.5, -0.5, 0.5, 1.5];
    assert SumSq(d) == 5.0 by {
      assert d[1..] == [-0.5, 0.5, 1.5];
      assert d[1..][1..] == [0.5, 1.5];
      assert d[1..][1..][1..] == [1.5];
      assert SumSq([1.5]) == 2.25;
      assert SumSq([0.5, 1.5]) == 2.5;
      assert SumSq([-0.5, 0.5, 1.5]) == 2.75;
    }
  }

  /** pearsonCorr([1,2,3,4], [1,1,3,4]) = 121/135 ≈ 0.896296. */
  lemma PearsonExample()
    ensures PearsonCorr([1.0, 2.0, 3.0, 4.0], [1.0, 1.0, 3.0, 4.0]) == Ok(121.0 / 135.0)
  {
    var yt, yp := [1.0, 2.0, 3.0, 4.0], [1.0, 1.0, 3.0, 4.0];
    assert Sum(yt) == 10.0 by {
      assert yt[1..] == [2.0, 3.0, 4.0];
      assert yt[1..][1..] == [3.0, 4.0];
      assert yt[1..][1..][1..] == [4.0];
    }
    assert Sum(yp) == 9.0 by {
      assert yp[1..] == [1.0, 3.0, 4.0];
      assert yp[1..][1..] == [3.0, 4.0];
      assert yp[1..][1..][1..] == [4.0];
    }
    var dt, dp := Deviations(yt), Deviations(yp);
    assert dt == [-1.5, -0.5, 0.5, 1.5];
    assert dp == [-1.25, -1.25, 0.75, 1.75];
    assert SumSq(dt) == 5.0 by {
      assert dt[1..] == [-0.5, 0.5, 1.5];
      assert dt[1..][1..] == [0.5, 1.5];
      assert dt[1..][1..][1..] == [1.5];
      assert SumSq([1.5]) == 2.25;
      assert SumSq([0.5, 1.5]) == 2.5;
      assert SumSq([-0.5, 0.5, 1.5]) == 2.75;
    }
    assert SumSq(dp) == 6.75 by {
      assert dp[1..] == [-1.25, 0.75, 1.75];
      assert dp[1..][1..] == [0.75, 1.75];
      assert dp[1..][1..][1..] == [1.75];
      assert SumSq([1.75]) == 3.0625;
      assert SumSq([0.75, 1.75]) == 3.625;
      assert SumSq([-1.25, 0.75, 1.75]) == 5.1875;
    }
    assert dt[..|dp|] == dt;
    assert Dot(dp, dt) == 5.5 by {
      assert dp[1..] == [-1.25, 0.75, 1.75] && dt[1..] == [-0.5, 0.5, 1.5];
      assert dp[1..][1..] == [0.75, 1.75] && dt[1..][1..] == [0.5, 1.5];
      assert dp[1..][1..][1..] == [1.75] && dt[1..][1..][1..] == [1.5];
    }
  }
}

=== FILE: javaint.dfy ===
/** Java's 32-bit int arithmetic, as the int expressions of PCA evaluate it:
    every result is kept modulo 2^32 in the range [−2^31, 2^31 − 1], and
    integer division truncates toward zero and throws on a zero divisor
    (section 15.17.2 of the Java Language Specification). */
module JavaInt {
  import opened Wrappers

  const MinInt: int := -0x8000_0000
  const MaxInt: int := 0x7fff_ffff
  const Modulus: int := 0x1_0000_0000

  predicate InRange(x: int)
  {
    MinInt <= x <= MaxInt
  }

  /** The int Java keeps of the exact result x: the one in range that is
      congruent to x modulo 2^32. */
  function Wrap(x: int): (r: int)
    ensures InRange(r)
    ensures (r - x) % Modulus == 0
    ensures InRange(x) ==> r == x
  {
    (x - MinInt) % Modulus + MinInt
  }

  /** Wrap is the only in-range value congruent to x. */
  lemma WrapUnique(x: int, r: int)
    requires InRange(r) && (r - x) % Modulus == 0
    ensures r == Wrap(x)
  {
    var w := Wrap(x);
    assert (r - w) % Modulus == 0 by {
      Congruent(r - x, w - x);
    }
  }

  lemma Congruent(u: int, v: int)
    requires u % Modulus == 0 && v % Modulus == 0
    ensures (u - v) % Modulus == 0
  {
    var i, j := u / Modulus, v / Modulus;
    assert u == i * Modulus && v == j * Modulus;
    assert u - v == (i - j) * Modulus;
  }

  /** An int counter started at 0 and incremented n times, as the loop
      counters `N += 1` and `k++` are. */
  function Counter(n: nat): (r: int)
    ensures InRange(r)
  {
    if n == 0 then 0 else Wrap(Counter(n - 1) + 1)
  }

  /** The counter holds the count wrapped to 32 bits: the count itself up to
      2^31 − 1, and 0 again after 2^32 increments. */
  lemma {:induction false} CounterIsWrap(n: nat)
    ensures Counter(n) == Wrap(n)
  {
    if n > 0 {
      CounterIsWrap(n - 1);
      var c := Counter(n - 1);
      assert ((c + 1) - n) % Modulus == 0 by {
        assert (c - (n - 1)) % Modulus == 0;
      }
      assert (Counter(n) - (c + 1)) % Modulus == 0;
      Congruent(Counter(n) - (c + 1), (n - (c + 1)));
      WrapUnique(n, Counter(n));
    }
  }

  /** A sum s of p terms in [0, 1], over a counter n of them: a fraction when the
      counter is the pair count, and never positive when it wrapped below 0. */
  lemma CounterShare(s: real, n: int, p: int)
    requires 0.0 <= s <= p as real && n != 0
    ensures n == p ==> 0.0 <= s / n as real <= 1.0
    ensures n < 0 ==> s / n as real <= 0.0
  {
  }

  /** a * b on ints. */
  function Mul(a: int, b: int): (r: int)
    ensures InRange(r)
    ensures InRange(a * b) ==> r == a * b
  {
    Wrap(a * b)
  }

  /** a − b on ints. */
  function Sub(a: int, b: int): (r: int)
    ensures InRange(r)
    ensures InRange(a - b) ==> r == a - b
  {
    Wrap(a - b)
  }

  function IntAbs(x: int): int
  {
    if x < 0 then -x else x
  }

  /** a / b on ints: the quotient rounded toward zero (QuotTruncates);
      b = 0 throws ArithmeticException. The one overflowing case,
      MIN_VALUE / −1, wraps back to MIN_VALUE. */
  function Quot(a: int, b: int): (r: Result<int>)
    requires InRange(a) && InRange(b)
    ensures r.Err? <==> b == 0
    ensures r.Err? ==> r.error == ArithmeticError
    ensures r.Ok? ==> InRange(r.value)
    ensures a == MinInt && b == -1 ==> r == Ok(MinInt)
  {
    if b == 0 then Err(ArithmeticError)
    else Ok(Wrap(Truncated(a, b)))
  }

  /** The exact quotient |a| / |b| carrying the sign of a·b. */
  function Truncated(a: int, b: int): int
    requires b != 0
  {
    var q := IntAbs(a) / IntAbs(b);
    if (a < 0) != (b < 0) then -q else q
  }

  /** Java's quotient leaves a remainder a − q·b of the sign of a and of
      smaller magnitude than b. */
  lemma QuotTruncates(a: int, b: int)
    requires InRange(a) && InRange(b) && b != 0 && !(a == MinInt && b == -1)
    ensures Quot(a, b).Ok?
    ensures a >= 0 ==> 0 <= a - Quot(a, b).value * b < IntAbs(b)
    ensures a < 0 ==> -IntAbs(b) < a - Quot(a, b).value * b <= 0
  {
    var q := IntAbs(a) / IntAbs(b);
    var t := Truncated(a, b);
    QuotRemainder(a, b, q, t);
    assert InRange(t);
  }

  /** The truncated quotient: |a| = q·|b| + rest, then the sign of a·b. */
  lemma QuotRemainder(a: int, b: int, q: int, t: int)
    requires b != 0 && q == IntAbs(a) / IntAbs(b)
    requires t == if (a < 0) != (b < 0) then -q else q
    ensures a >= 0 ==> 0 <= a - t * b < IntAbs(b)
    ensures a < 0 ==> -IntAbs(b) < a - t * b <= 0
    ensures IntAbs(t) <= IntAbs(a)
  {
    var x, y := IntAbs(a), IntAbs(b);
    var rest := x % y;
    DivMod(x, y);
    assert t * b == if a < 0 then -(q * y) else q * y by {
      if b > 0 {
        NegLeft(q, b);
      } else {
        NegRight(t, y);
        NegLeft(q, y);
      }
    }
    MulAtLeast(q, y);
  }

  /** Two quotients with remainders in [0, b) agree. */
  lemma QuotUnique(a: int, b: int, q: int, q': int)
    requires b > 0
    requires 0 <= a - q * b < b && 0 <= a - q' * b < b
    ensures q == q'
  {
    if q < q' {
      StepUp(q, q', b);
    } else if q' < q {
      StepUp(q', q, b);
    }
  }

  lemma StepUp(q: int, q': int, b: int)
    requires q < q' && b > 0
    ensures q' * b >= q * b + b
  {
    Distrib(q', q, b);
    MulNonNeg(q' - q - 1, b);
    Distrib(q' - q, 1, b);
  }

  lemma MulNonNeg(x: int, y: int)
    requires x >= 0 && y >= 0
    ensures x * y >= 0
  {
  }

  lemma MulAtLeast(q: int, y: int)
    requires q >= 0 && y >= 1
    ensures q * y >= q
  {
    MulNonNeg(q, y - 1);
  }

  lemma Distrib(x: int, y: int, b: int)
    ensures x * b - y * b == (x - y) * b
  {
  }

  lemma NegLeft(x: int, b: int)
    ensures (-x) * b == -(x * b)
  {
  }

  lemma NegRight(x: int, b: int)
    ensures x * (-b) == -(x * b)
  {
  }

  lemma DivMod(a: int, b: int)
    requires a >= 0 && b > 0
    ensures a == (a / b) * b + a % b && 0 <= a % b < b
    ensures a / b >= 0
  {
  }

  /** Truncation differs from Dafny's Euclidean division on a negative
      dividend: −7 / 2 is −3 in Java. */
  lemma QuotExamples()
    ensures Quot(-7, 2) == Ok(-3) && Quot(7, -2) == Ok(-3) && Quot(-7, -2) == Ok(3) && Quot(7, 0).Err?
    ensures Quot(MinInt, -1) == Ok(MinInt)
    ensures Mul(0x10000, 0x10000) == 0 && Mul(MaxInt, 2) == -2
  {
  }
}

=== FILE: matrices.dfy ===
/** The matrix toolkit of org.roettig.maths.matrix over an immutable model of
    a Jama matrix: its row and column counts and its rows of cells. Every
    applicator and iterator is modelled as the loop the library runs, one
    get/set (or one ArrayList.add) per step, written as a fold over the
    loop counter; each fold is then related to the whole-matrix effect it
    is meant to have. An index that Jama's get or set would reject yields
    Err(IndexOutOfRange). */
module Matrices {
  import opened Wrappers
  import opened Series

  /** A Jama matrix: the dimensions and the rows of cells. */
  datatype Matrix = Matrix(rows: nat, cols: nat, cells: seq<seq<real>>)
  {
    predicate Valid()
    {
      |cells| == rows && forall i :: 0 <= i < rows ==> |cells[i]| == cols
    }

    predicate Has(i: int, j: int)
    {
      0 <= i < rows && 0 <= j < cols
    }

    predicate SameShape(m: Matrix)
    {
      rows == m.rows && cols == m.cols
    }
  }

  type Mat = m: Matrix | m.Valid() witness Matrix(0, 0, [])

  /** Matrix.get(i, j). */
  function Get(m: Mat, i: int, j: int): real
    requires m.Has(i, j)
  {
    m.cells[i][j]
  }

  /** ElementFunctor.calculate(i, j, d): the new value of cell (i, j) holding d. */
  type Functor = (int, int, real) -> real

  /** The matrix whose cell (i, j) is f(i, j). */
  function Build(rows: nat, cols: nat, f: (int, int) -> real): (r: Mat)
    ensures r.rows == rows && r.cols == cols
    ensures forall i, j :: r.Has(i, j) ==> Get(r, i, j) == f(i, j)
  {
    Matrix(rows, cols, seq(rows, i => seq(cols, j => f(i, j))))
  }

  /** Two matrices of one shape that agree in every cell are equal. */
  lemma Ext(a: Mat, b: Mat)
    requires a.SameShape(b)
    requires forall i, j :: a.Has(i, j) ==> Get(a, i, j) == Get(b, i, j)
    ensures a == b
  {
    forall i | 0 <= i < a.rows ensures a.cells[i] == b.cells[i] {
      forall j | 0 <= j < a.cols ensures a.cells[i][j] == b.cells[i][j] {
        assert Get(a, i, j) == Get(b, i, j);
      }
    }
    assert a.cells == b.cells;
  }

  // ---------------------------------------------------------------------
  // MMatrix constructors and MatrixHelper.eye

  /** MMatrix(r, c, val) (and Jama's Matrix(r, c, val)): every cell is val. */
  function Fill(rows: nat, cols: nat, v: real): (r: Mat)
    ensures r.rows == rows && r.cols == cols
    ensures forall i, j :: r.Has(i, j) ==> Get(r, i, j) == v
  {
    Build(rows, cols, (i, j) => v)
  }

  /** MMatrix(r, c) and Jama's Matrix(r, c): a matrix of zeros. */
  function Zeros(rows: nat, cols: nat): (r: Mat)
    ensures r == Fill(rows, cols, 0.0)
  {
    Fill(rows, cols, 0.0)
  }

  /** Matrix.set(i, j, v). */
  function Set(m: Mat, i: int, j: int, v: real): (r: Mat)
    requires m.Has(i, j)
    ensures r.SameShape(m)
    ensures Get(r, i, j) == v
    ensures forall a, b :: m.Has(a, b) && (a != i || b != j) ==> Get(r, a, b) == Get(m, a, b)
  {
    Matrix(m.rows, m.cols, m.cells[i := m.cells[i][j := v]])
  }

  function Min(a: int, b: int): int
  {
    if a <= b then a else b
  }

  /** The first n iterations of eye's loop: ones at (k, k) for k < n. */
  function EyeLoop(rows: nat, cols: nat, n: nat): (r: Mat)
    requires n <= Min(rows, cols)
    ensures r.rows == rows && r.cols == cols
    ensures forall i, j :: r.Has(i, j) ==> Get(r, i, j) == if i == j && i < n then 1.0 else 0.0
  {
    if n == 0 then Zeros(rows, cols)
    else Set(EyeLoop(rows, cols, n - 1), n - 1, n - 1, 1.0)
  }

  /** MatrixHelper.eye(n, m): an n×m matrix with ones on the leading diagonal. */
  function Eye(rows: nat, cols: nat): (r: Mat)
    ensures r.rows == rows && r.cols == cols
    ensures forall i, j :: r.Has(i, j) ==> Get(r, i, j) == if i == j then 1.0 else 0.0
  {
    EyeLoop(rows, cols, Min(rows, cols))
  }

  /** MatrixHelper.eye(n). */
  function EyeSquare(n: nat): (r: Mat)
    ensures r == Eye(n, n)
  {
    Eye(n, n)
  }

  // ---------------------------------------------------------------------
  // Applicators

  /** One step of every applicator loop: d = f(i, j, M.get(i, j)); M.set(i, j, d). */
  function Update(m: Mat, i: int, j: int, f: Functor): (r: Mat)
    requires m.Has(i, j)
    ensures r.SameShape(m)
    ensures forall a, b :: m.Has(a, b) ==>
      Get(r, a, b) == if (a, b) == (i, j) then f(i, j, Get(m, i, j)) else Get(m, a, b)
  {
    Set(m, i, j, f(i, j, Get(m, i, j)))
  }

  /** The reference effect of an applicator: f applied to each cell's original value. */
  function MapCells(m: Mat, f: Functor): (r: Mat)
    ensures r.SameShape(m)
    ensures forall i, j :: m.Has(i, j) ==> Get(r, i, j) == f(i, j, Get(m, i, j))
  {
    Build(m.rows, m.cols, (i, j) => if m.Has(i, j) then f(i, j, Get(m, i, j)) else 0.0)
  }

  /** The first n steps of RowApplicator's loop over the columns of row r. */
  function RowLoop(m: Mat, r: int, f: Functor, n: nat): (res: Mat)
    requires 0 <= r < m.rows && n <= m.cols
    ensures res.SameShape(m)
    ensures forall i, j :: m.Has(i, j) ==>
      Get(res, i, j) == if i == r && j < n then f(i, j, Get(m, i, j)) else Get(m, i, j)
  {
    if n == 0 then m else Update(RowLoop(m, r, f, n - 1), r, n - 1, f)
  }

  /** RowApplicator.apply(M, r). With no columns the loop never runs; otherwise
      a row outside the matrix fails on the first get. */
  function ApplyRow(m: Mat, r: int, f: Functor): (res: Result<Mat>)
    ensures res.Err? <==> m.cols > 0 && !(0 <= r < m.rows)
    ensures res.Err? ==> res.error == IndexOutOfRange
    ensures res.Ok? ==> res.value.SameShape(m)
    ensures res.Ok? ==> forall i, j :: m.Has(i, j) ==>
      Get(res.value, i, j) == if i == r then f(i, j, Get(m, i, j)) else Get(m, i, j)
  {
    if m.cols == 0 then Ok(m)
    else if !(0 <= r < m.rows) then Err(IndexOutOfRange)
    else Ok(RowLoop(m, r, f, m.cols))
  }

  /** The first n steps of ColumnApplicator's loop over the rows of column c. */
  function ColumnLoop(m: Mat, c: int, f: Functor, n: nat): (res: Mat)
    requires 0 <= c < m.cols && n <= m.rows
    ensures res.SameShape(m)
    ensures forall i, j :: m.Has(i, j) ==>
      Get(res, i, j) == if j == c && i < n then f(i, j, Get(m, i, j)) else Get(m, i, j)
  {
    if n == 0 then m else Update(ColumnLoop(m, c, f, n - 1), n - 1, c, f)
  }

  /** ColumnApplicator.apply(M, c). With no rows the loop never runs; otherwise
      a column outside the matrix fails on the first get. */
  function ApplyColumn(m: Mat, c: int, f: Functor): (res: Result<Mat>)
    ensures res.Err? <==> m.rows > 0 && !(0 <= c < m.cols)
    ensures res.Err? ==> res.error == IndexOutOfRange
    ensures res.Ok? ==> res.value.SameShape(m)
    ensures res.Ok? ==> forall i, j :: m.Has(i, j) ==>
      Get(res.value, i, j) == if j == c then f(i, j, Get(m, i, j)) else Get(m, i, j)
  {
    if m.rows == 0 then Ok(m)
    else if !(0 <= c < m.cols) then Err(IndexOutOfRange)
    else Ok(ColumnLoop(m, c, f, m.rows))
  }

  /** The first n column passes of ColumnApplicator.apply(M). */
  function ColumnsLoop(m: Mat, f: Functor, n: nat): (res: Mat)
    requires n <= m.cols
    ensures res.SameShape(m)
    ensures forall i, j :: m.Has(i, j) ==>
      Get(res, i, j) == if j < n then f(i, j, Get(m, i, j)) else Get(m, i, j)
  {
    if n == 0 then m else ColumnLoop(ColumnsLoop(m, f, n - 1), n - 1, f, m.rows)
  }

  /** ColumnApplicator.apply(M): the column-major pass over every cell. */
  function ApplyColumns(m: Mat, f: Functor): (res: Mat)
    ensures res == MapCells(m, f)
  {
    var res := ColumnsLoop(m, f, m.cols);
    Ext(res, MapCells(m, f));
    res
  }

  /** The first n row passes of ElementApplicator.apply(M). */
  function ElementsLoop(m: Mat, f: Functor, n: nat): (res: Mat)
    requires n <= m.rows
    ensures res.SameShape(m)
    ensures forall i, j :: m.Has(i, j) ==>
      Get(res, i, j) == if i < n then f(i, j, Get(m, i, j)) else Get(m, i, j)
  {
    if n == 0 then m else RowLoop(ElementsLoop(m, f, n - 1), n - 1, f, m.cols)
  }

  /** ElementApplicator.apply(M): the row-major pass over every cell. */
  function ApplyElements(m: Mat, f: Functor): (res: Mat)
    ensures res == MapCells(m, f)
  {
    var res := ElementsLoop(m, f, m.rows);
    Ext(res, MapCells(m, f));
    res
  }

  /** Each cell is read once, before it is written, so the visiting order does
      not matter: the row-major and the column-major passes agree. */
  lemma ApplyOrderFree(m: Mat, f: Functor)
    ensures ApplyElements(m, f) == ApplyColumns(m, f)
  {
  }

  /** The first n steps of DiagonalApplicator's loop. */
  function DiagonalLoop(m: Mat, f: Functor, n: nat): (res: Mat)
    requires n <= Min(m.rows, m.cols)
    ensures res.SameShape(m)
    ensures forall i, j :: m.Has(i, j) ==>
      Get(res, i, j) == if i == j && i < n then f(i, j, Get(m, i, j)) else Get(m, i, j)
  {
    if n == 0 then m else Update(DiagonalLoop(m, f, n - 1), n - 1, n - 1, f)
  }

  /** DiagonalApplicator.apply(M): f on the min(R, C) diagonal cells only. */
  function ApplyDiagonal(m: Mat, f: Functor): (res: Mat)
    ensures res.SameShape(m)
    ensures forall i, j :: m.Has(i, j) ==>
      Get(res, i, j) == if i == j then f(i, j, Get(m, i, j)) else Get(m, i, j)
  {
    DiagonalLoop(m, f, Min(m.rows, m.cols))
  }

  // ---------------------------------------------------------------------
  // Iterators: each iterator() call copies the values into a fresh list.

  /** The list after n iterations of RowIterator's loop. */
  function RowPrefix(m: Mat, r: int, n: nat): (s: seq<real>)
    requires 0 <= r < m.rows && n <= m.cols
    ensures |s| == n
    ensures forall k :: 0 <= k < n ==> s[k] == Get(m, r, k)
  {
    if n == 0 then [] else RowPrefix(m, r, n - 1) + [Get(m, r, n - 1)]
  }

  /** Row r of M, as RowIterator(M, r) yields it. */
  function RowValues(m: Mat, r: int): (s: seq<real>)
    requires 0 <= r < m.rows
    ensures |s| == m.cols
    ensures forall k :: 0 <= k < m.cols ==> s[k] == Get(m, r, k)
  {
    RowPrefix(m, r, m.cols)
  }

  /** RowIterator(M, r).iterator(): fails on a row outside M unless M has no columns. */
  function RowIterator(m: Mat, r: int): (res: Result<seq<real>>)
    ensures res.Err? <==> m.cols > 0 && !(0 <= r < m.rows)
    ensures res.Err? ==> res.error == IndexOutOfRange
    ensures res.Ok? ==> |res.value| == m.cols
    ensures res.Ok? ==> forall k :: 0 <= k < m.cols ==> res.value[k] == Get(m, r, k)
  {
    if m.cols == 0 then Ok([])
    else if !(0 <= r < m.rows) then Err(IndexOutOfRange)
    else Ok(RowValues(m, r))
  }

  /** The list after n iterations of ColumnIterator's loop. */
  function ColumnPrefix(m: Mat, c: int, n: nat): (s: seq<real>)
    requires 0 <= c < m.cols && n <= m.rows
    ensures |s| == n
    ensures forall k :: 0 <= k < n ==> s[k] == Get(m, k, c)
  {
    if n == 0 then [] else ColumnPrefix(m, c, n - 1) + [Get(m, n - 1, c)]
  }

  /** Column c of M, as ColumnIterator(M, c) yields it. */
  function ColumnValues(m: Mat, c: int): (s: seq<real>)
    requires 0 <= c < m.cols
    ensures |s| == m.rows
    ensures forall k :: 0 <= k < m.rows ==> s[k] == Get(m, k, c)
  {
    ColumnPrefix(m, c, m.rows)
  }

  /** ColumnIterator(M, c).iterator(): fails on a column outside M unless M has no rows. */
  function ColumnIterator(m: Mat, c: int): (res: Result<seq<real>>)
    ensures res.Err? <==> m.rows > 0 && !(0 <= c < m.cols)
    ensures res.Err? ==> res.error == IndexOutOfRange
    ensures res.Ok? ==> |res.value| == m.rows
    ensures res.Ok? ==> forall k :: 0 <= k < m.rows ==> res.value[k] == Get(m, k, c)
  {
    if m.rows == 0 then Ok([])
    else if !(0 <= c < m.cols) then Err(IndexOutOfRange)
    else Ok(ColumnValues(m, c))
  }

  /** The list after n iterations of DiagonalIterator's loop. */
  function DiagonalPrefix(m: Mat, n: nat): (s: seq<real>)
    requires n <= Min(m.rows, m.cols)
    ensures |s| == n
    ensures forall k :: 0 <= k < n ==> s[k] == Get(m, k, k)
  {
    if n == 0 then [] else DiagonalPrefix(m, n - 1) + [Get(m, n - 1, n - 1)]
  }

  /** DiagonalIterator(M).iterator(): the min(R, C) diagonal cells, also on a
      non-square matrix. */
  function Diagonal(m: Mat): (s: seq<real>)
    ensures |s| == Min(m.rows, m.cols)
    ensures forall k :: 0 <= k < |s| ==> s[k] == Get(m, k, k)
  {
    DiagonalPrefix(m, Min(m.rows, m.cols))
  }

  /** The list after the first n rows of ElementIterator's nested loop. */
  function ElementsPrefix(m: Mat, n: nat): (s: seq<real>)
    requires n <= m.rows
  {
    if n == 0 then [] else ElementsPrefix(m, n - 1) + RowValues(m, n - 1)
  }

  /** ElementIterator(M).iterator(): every cell, row by row. */
  function Elements(m: Mat): seq<real>
  {
    ElementsPrefix(m, m.rows)
  }

  /** Row i of c cells ends before row n starts, for i < n. */
  lemma RowMajorBound(i: nat, j: nat, n: nat, c: nat)
    requires i < n && j < c
    ensures i * c + j < n * c
  {
    assert (i + 1) * c == i * c + c;
    MulMonotone(i + 1, n, c);
  }

  lemma MulMonotone(a: nat, b: nat, c: nat)
    requires a <= b
    ensures a * c <= b * c
  {
  }

  lemma ProductPred(n: nat, c: nat)
    requires n > 0
    ensures n * c == (n - 1) * c + c
  {
  }

  lemma {:induction false} ElementsPrefixLength(m: Mat, n: nat)
    requires n <= m.rows
    ensures |ElementsPrefix(m, n)| == n * m.cols
  {
    if n > 0 {
      ElementsPrefixLength(m, n - 1);
      ProductPred(n, m.cols);
    }
  }

  /** The nested loop lays the cells out in row-major order: position i·C + j
      holds cell (i, j). */
  lemma {:induction false} ElementsPrefixAt(m: Mat, n: nat, i: nat, j: nat)
    requires n <= m.rows && i < n && j < m.cols
    ensures i * m.cols + j < |ElementsPrefix(m, n)|
    ensures ElementsPrefix(m, n)[i * m.cols + j] == Get(m, i, j)
  {
    var c := m.cols;
    var k := i * c + j;
    ElementsPrefixLength(m, n);
    ElementsPrefixLength(m, n - 1);
    RowMajorBound(i, j, n, c);
    var front, row := ElementsPrefix(m, n - 1), RowValues(m, n - 1);
    assert ElementsPrefix(m, n) == front + row;
    if i < n - 1 {
      RowMajorBound(i, j, n - 1, c);
      ElementsPrefixAt(m, n - 1, i, j);
      assert (front + row)[k] == front[k];
    } else {
      assert k == |front| + j;
      assert (front + row)[k] == row[j];
    }
  }

  /** ElementIterator yields R·C values; position i·C + j holds cell (i, j). */
  lemma ElementsIndex(m: Mat, i: int, j: int)
    requires m.Has(i, j)
    ensures |Elements(m)| == m.rows * m.cols
    ensures 0 <= i * m.cols + j < |Elements(m)|
    ensures Elements(m)[i * m.cols + j] == Get(m, i, j)
  {
    ElementsPrefixLength(m, m.rows);
    ElementsPrefixAt(m, m.rows, i, j);
  }

  /** The row sums of M, as getRowSumMatrix accumulates them. */
  function RowSums(m: Mat): (s: seq<real>)
    ensures |s| == m.rows
    ensures forall i :: 0 <= i < m.rows ==> s[i] == Sum(RowValues(m, i))
  {
    seq(m.rows, i requires 0 <= i < m.rows => Sum(RowValues(m, i)))
  }

  /** A matrix with a cell yields at least one element. */
  lemma ElementsNonEmpty(m: Mat)
    requires m.rows > 0 && m.cols > 0
    ensures |Elements(m)| > 0
  {
    ElementsIndex(m, 0, 0);
  }

  /** The element iterator yields rows · columns values. */
  lemma ElementsCount(m: Mat)
    ensures |Elements(m)| as real == m.rows as real * m.cols as real
  {
    ElementsPrefixLength(m, m.rows);
    CastProduct(m.rows, m.cols);
  }

  lemma CastProduct(a: nat, b: nat)
    ensures (a * b) as real == a as real * b as real
  {
  }

  /** The element iterator's total is the total of the row sums. */
  lemma {:induction false} ElementsSum(m: Mat)
    ensures Sum(Elements(m)) == Sum(RowSums(m))
  {
    ElementsPrefixSum(m, m.rows);
    assert RowSums(m)[..m.rows] == RowSums(m);
  }

  lemma {:induction false} ElementsPrefixSum(m: Mat, n: nat)
    requires n <= m.rows
    ensures Sum(ElementsPrefix(m, n)) == Sum(RowSums(m)[..n])
  {
    var s := RowSums(m);
    if n > 0 {
      var front, row := ElementsPrefix(m, n - 1), RowValues(m, n - 1);
      assert Sum(ElementsPrefix(m, n)) == Sum(front) + Sum(row) by {
        SumAppend(front, row);
      }
      ElementsPrefixSum(m, n - 1);
      assert Sum(s[..n]) == Sum(s[..n - 1]) + Sum(row) by {
        var t := s[..n];
        SumLast(t);
        assert t[..n - 1] == s[..n - 1];
      }
    } else {
      assert s[..0] == [];
    }
  }

  // ---------------------------------------------------------------------
  // MatrixHelper.getRowSumMatrix and MMatrix.equalsEps

  /** The first n iterations of getRowSumMatrix: D[i][i] = Σ row i for i < n. */
  function RowSumLoop(m: Mat, n: nat): (d: Mat)
    requires n <= m.rows && m.rows <= m.cols
    ensures d.SameShape(m)
    ensures forall i, j :: d.Has(i, j) ==>
      Get(d, i, j) == if i == j && i < n then Sum(RowValues(m, i)) else 0.0
  {
    if n == 0 then Zeros(m.rows, m.cols)
    else Set(RowSumLoop(m, n - 1), n - 1, n - 1, Sum(RowValues(m, n - 1)))
  }

  /** MatrixHelper.getRowSumMatrix(m): the row sums on the diagonal of a matrix
      of m's shape. With more rows than columns, D.set(i, i) fails at i = C. */
  function RowSumMatrix(m: Mat): (r: Result<Mat>)
    ensures r.Err? <==> m.rows > m.cols
    ensures r.Err? ==> r.error == IndexOutOfRange
    ensures r.Ok? ==> r.value.SameShape(m)
    ensures r.Ok? ==> forall i, j :: m.Has(i, j) ==>
      Get(r.value, i, j) == if i == j then Sum(RowValues(m, i)) else 0.0
  {
    if m.rows > m.cols then Err(IndexOutOfRange) else Ok(RowSumLoop(m, m.rows))
  }

  /** The trace of the row-sum matrix is the grand total of m. */
  lemma {:induction false} RowSumTrace(m: Mat)
    requires m.rows <= m.cols
    ensures Sum(Diagonal(RowSumMatrix(m).value)) == Sum(Elements(m))
  {
    ElementsSum(m);
    assert Diagonal(RowSumMatrix(m).value) == RowSums(m);
  }

  function Abs(x: real): (r: real)
    ensures r >= 0.0 && (r == x || r == -x)
  {
    if x < 0.0 then -x else x
  }

  /** The reference meaning of equalsEps: the same shape, and every pair of
      corresponding cells at most eps apart. */
  ghost predicate Close(a: Mat, b: Mat, eps: real)
  {
    a.SameShape(b) && forall i, j :: a.Has(i, j) ==> Abs(Get(b, i, j) - Get(a, i, j)) <= eps
  }

  /** MMatrix.equalsEps(m, eps) on `self`: the shape test, then the row-major scan
      that stops at the first pair more than eps apart. */
  method EqualsEps(self: Mat, m: Mat, eps: real) returns (r: bool)
    ensures !self.SameShape(m) ==> !r
    ensures r <==> Close(self, m, eps)
  {
    if m.rows != self.rows || m.cols != self.cols {
      return false;
    }
    var i := 0;
    while i < m.rows
      invariant 0 <= i <= m.rows
      invariant forall a, b :: 0 <= a < i && 0 <= b < m.cols ==> Abs(Get(m, a, b) - Get(self, a, b)) <= eps
    {
      var j := 0;
      while j < m.cols
        invariant 0 <= j <= m.cols
        invariant forall a, b :: 0 <= a < i && 0 <= b < m.cols ==> Abs(Get(m, a, b) - Get(self, a, b)) <= eps
        invariant forall b :: 0 <= b < j ==> Abs(Get(m, i, b) - Get(self, i, b)) <= eps
      {
        if Abs(Get(m, i, j) - Get(self, i, j)) > eps {
          return false;
        }
        j := j + 1;
      }
      i := i + 1;
    }
    return true;
  }

  /** With eps ≥ 0 every matrix is close to itself. */
  lemma CloseReflexive(a: Mat, eps: real)
    requires eps >= 0.0
    ensures Close(a, a, eps)
  {
    forall i, j | a.Has(i, j) ensures Abs(Get(a, i, j) - Get(a, i, j)) <= eps {
      var x := Get(a, i, j);
      assert Abs(x - x) == 0.0;
    }
  }

  /** Closeness does not depend on which matrix is `this`. */
  lemma CloseSymmetric(a: Mat, b: Mat, eps: real)
    ensures Close(a, b, eps) <==> Close(b, a, eps)
  {
    if Close(a, b, eps) {
      forall i, j | b.Has(i, j) ensures Abs(Get(a, i, j) - Get(b, i, j)) <= eps {
        assert Abs(Get(b, i, j) - Get(a, i, j)) <= eps;
      }
    }
    if Close(b, a, eps) {
      forall i, j | a.Has(i, j) ensures Abs(Get(b, i, j) - Get(a, i, j)) <= eps {
        assert Abs(Get(a, i, j) - Get(b, i, j)) <= eps;
      }
    }
  }

  /** With eps = 0, closeness is equality. */
  lemma CloseZero(a: Mat, b: Mat)
    ensures Close(a, b, 0.0) <==> a == b
  {
    if Close(a, b, 0.0) {
      Ext(a, b);
    }
  }
}

/** The 3×3 fixtures of the library's matrix and iterator tests. */
module MatrixExamples {
  import opened Wrappers
  import opened Series
  import opened Matrices

  /** The test matrix with rows 1 2 3 / 4 5 6 / 7 8 9. */
  function Nine(): Mat
  {
    Matrix(3, 3, [[1.0, 2.0, 3.0], [4.0, 5.0, 6.0], [7.0, 8.0, 9.0]])
  }

  /** Columns 0 and 2 yield 1, 4, 7 and 3, 6, 9; rows 0 and 2 yield 1, 2, 3 and
      7, 8, 9; the diagonal yields 1, 5, 9. */
  lemma IteratorExample()
    ensures ColumnIterator(Nine(), 0) == Ok([1.0, 4.0, 7.0])
    ensures ColumnIterator(Nine(), 2) == Ok([3.0, 6.0, 9.0])
    ensures RowIterator(Nine(), 0) == Ok([1.0, 2.0, 3.0])
    ensures RowIterator(Nine(), 2) == Ok([7.0, 8.0, 9.0])
    ensures Diagonal(Nine()) == [1.0, 5.0, 9.0]
  {
    var m := Nine();
    assert ColumnValues(m, 0) == [1.0, 4.0, 7.0];
    assert ColumnValues(m, 2) == [3.0, 6.0, 9.0];
    assert RowValues(m, 0) == [1.0, 2.0, 3.0];
    assert RowValues(m, 2) == [7.0, 8.0, 9.0];
  }

  /** getRowSumMatrix of the test matrix carries 6, 15 and 24 on its diagonal. */
  lemma RowSumExample()
    ensures RowSumMatrix(Nine()).Ok?
    ensures Diagonal(RowSumMatrix(Nine()).value) == [6.0, 15.0, 24.0]
  {
    var m := Nine();
    assert RowValues(m, 0) == [1.0, 2.0, 3.0];
    assert RowValues(m, 1) == [4.0, 5.0, 6.0];
    assert RowValues(m, 2) == [7.0, 8.0, 9.0];
    assert Sum([1.0, 2.0, 3.0]) == 6.0;
    assert Sum([4.0, 5.0, 6.0]) == 15.0;
    assert Sum([7.0, 8.0, 9.0]) == 24.0;
  }

  /** Squaring the diagonal of diag(1, 2, 3) gives diag(1, 4, 9), zeros elsewhere. */
  lemma DiagonalSquareExample()
    ensures var d := Matrix(3, 3, [[1.0, 0.0, 0.0], [0.0, 2.0, 0.0], [0.0, 0.0, 3.0]]);
      ApplyDiagonal(d, (i, j, x) => x * x) == Matrix(3, 3, [[1.0, 0.0, 0.0], [0.0, 4.0, 0.0], [0.0, 0.0, 9.0]])
  {
    var d: Mat := Matrix(3, 3, [[1.0, 0.0, 0.0], [0.0, 2.0, 0.0], [0.0, 0.0, 3.0]]);
    var e: Mat := Matrix(3, 3, [[1.0, 0.0, 0.0], [0.0, 4.0, 0.0], [0.0, 0.0, 9.0]]);
    Ext(ApplyDiagonal(d, (i, j, x) => x * x), e);
  }
}

=== FILE: mds.dfy ===
/** Classical multidimensional scaling (org.roettig.maths.mva.MDS) around its
    two decompositions: the centring matrix H and the Gramian
    B = −½·H·D2·H of compute(), the rule that fixes the embedding
    dimension, the distance matrices, and embed/embedGramian with the
    compute-once measures they share. The singular value and eigenvalue
    decompositions are Jama's; their outputs enter as parameters. */
module Mds {
  import opened Wrappers
  import opened Series
  import opened Descriptive
  import opened Matrices
  import opened Algebra
  import opened Transforms
  import opened Pairs
  import opened Ranking

  /** The cut-off eps below which singular values and eigenvalues count as zero. */
  const Eps: real := 0.0001

  // ---------------------------------------------------------------------
  // The centring matrix and the Gramian of compute()

  /** Cell (i, j) of the n × n centring matrix: (n − 1)/n on the diagonal, −1/n elsewhere. */
  function CentringEntry(n: nat, i: int, j: int): real
    requires n > 0
  {
    if i == j then (n - 1) as real / n as real else -1.0 / n as real
  }

  /** The matrix H that compute() fills cell by cell. */
  function Centring(n: nat): (h: Mat)
    ensures h.rows == n && h.cols == n
    ensures forall i, j :: h.Has(i, j) ==> Get(h, i, j) == CentringEntry(n, i, j)
  {
    Build(n, n, (i, j) => if n > 0 then CentringEntry(n, i, j) else 0.0)
  }

  /** A sequence shaped like a row or column of H sums to zero. */
  lemma {:induction false} CentredSum(h: seq<real>, k: int)
    requires 0 <= k < |h|
    requires forall l :: 0 <= l < |h| ==> h[l] == CentringEntry(|h|, l, k)
    ensures Sum(h) == 0.0
  {
    var n := |h|;
    var one := Const(n, 1.0);
    forall l | 0 <= l < n
      ensures h[l] == (if l == k then (|one| - 1) as real / |one| as real else -1.0 / |one| as real)
    {
    }
    DotCentring(one, h, k);
    SumConst(n, 1.0);
    DotSymmetric(one, h);
    DotConst(h, 1.0);
  }

  /** Every row and every column of H sums to zero. */
  lemma {:induction false} CentringSums(n: nat, k: int)
    requires 0 <= k < n
    ensures Sum(RowValues(Centring(n), k)) == 0.0
    ensures Sum(ColumnValues(Centring(n), k)) == 0.0
  {
    var h := Centring(n);
    CentredSum(ColumnValues(h, k), k);
    var row := RowValues(h, k);
    forall l | 0 <= l < n ensures row[l] == CentringEntry(n, l, k) {
    }
    CentredSum(row, k);
  }

  /** The mean of row i, as RowIterator and Statistics.mean compute it. */
  function RowMean(m: Mat, i: int): real
    requires 0 <= i < m.rows && m.cols > 0
  {
    Mean(RowValues(m, i)).value
  }

  /** The row means of m, one per row. */
  function RowMeans(m: Mat): (s: seq<real>)
    requires m.cols > 0
    ensures |s| == m.rows
    ensures forall i :: 0 <= i < m.rows ==> s[i] == RowMean(m, i)
  {
    seq(m.rows, i requires 0 <= i < m.rows => RowMean(m, i))
  }

  /** The mean of all cells, as ElementIterator and Statistics.mean compute it. */
  function GrandMean(m: Mat): real
    requires m.rows > 0 && m.cols > 0
  {
    ElementsNonEmpty(m);
    Mean(Elements(m)).value
  }

  /** The grand mean is the mean of the row means. */
  lemma {:induction false} GrandMeanOfRows(m: Mat)
    requires m.rows > 0 && m.cols > 0
    ensures Sum(RowMeans(m)) / m.rows as real == GrandMean(m)
  {
    RowMeansTotal(m);
    GrandMeanTotal(m);
  }

  /** The row means add up to the total divided by the row length. */
  lemma {:induction false} RowMeansTotal(m: Mat)
    requires m.cols > 0
    ensures Sum(RowMeans(m)) == Sum(RowSums(m)) / m.cols as real
  {
    MeansScaled(m);
    SumScale(RowSums(m), 1.0 / m.cols as real);
    TimesReciprocal(Sum(RowSums(m)), m.cols as real, 1.0 / m.cols as real);
  }

  /** The grand mean is the total divided by the row length, then by the row count. */
  lemma {:induction false} GrandMeanTotal(m: Mat)
    requires m.rows > 0 && m.cols > 0
    ensures GrandMean(m) == Sum(RowSums(m)) / m.cols as real / m.rows as real
  {
    ElementsSum(m);
    ElementsCount(m);
    DivideTwice(Sum(Elements(m)), Sum(RowSums(m)), |Elements(m)| as real, m.rows as real, m.cols as real, GrandMean(m));
  }

  lemma DivideTwice(s: real, t: real, n: real, r: real, c: real, g: real)
    requires r > 0.0 && c > 0.0 && n == r * c && s == t && g == s / n
    ensures g == t / c / r
  {
  }

  lemma {:induction false} MeansScaled(m: Mat)
    requires m.cols > 0
    ensures RowMeans(m) == Scale(RowSums(m), 1.0 / m.cols as real)
  {
    var means, scaled := RowMeans(m), Scale(RowSums(m), 1.0 / m.cols as real);
    forall i | 0 <= i < m.rows ensures means[i] == scaled[i] {
      RowMeanScaled(m, i);
    }
  }

  lemma RowMeanScaled(m: Mat, i: int)
    requires 0 <= i < m.rows && m.cols > 0
    ensures RowMean(m, i) == Sum(RowValues(m, i)) * (1.0 / m.cols as real)
  {
    var c := m.cols as real;
    TimesReciprocal(Sum(RowValues(m, i)), c, 1.0 / c);
  }

  /** compute(): B = H.times(D2.times(H)).times(−0.5), where H is sized by
      the columns of D2; the product fails unless D2 is square. */
  function Gramian(d2: Mat): (b: Result<Mat>)
    ensures b.Err? <==> d2.rows != d2.cols
    ensures b.Err? ==> b.error == DimensionMismatch
    ensures b.Ok? ==> b.value.rows == d2.rows && b.value.cols == d2.rows
  {
    var h := Centring(d2.cols);
    var dh := Product(d2, h).value;
    var hdh :- Product(h, dh);
    Ok(Times(hdh, -0.5))
  }

  /** D2·H subtracts from every cell the mean of its row. */
  lemma {:induction false} RightCentring(d2: Mat, k: int, j: int)
    requires d2.rows == d2.cols && d2.Has(k, j)
    ensures Get(Product(d2, Centring(d2.cols)).value, k, j) == Get(d2, k, j) - RowMean(d2, k)
  {
    var n := d2.cols;
    var a, c := RowValues(d2, k), ColumnValues(Centring(n), j);
    forall l | 0 <= l < n
      ensures c[l] == (if l == j then (|a| - 1) as real / |a| as real else -1.0 / |a| as real)
    {
    }
    DotCentring(a, c, j);
  }

  /** Cell (i, j) of the Gramian: the double-centred squared distance,
      −½·(D2[i][j] − mean of row i − mean of column j + grand mean). */
  lemma {:induction false} GramianCell(d2: Mat, i: int, j: int)
    requires d2.rows == d2.cols && d2.Has(i, j)
    ensures Gramian(d2).Ok?
    ensures Get(Gramian(d2).value, i, j) ==
      -0.5 * (Get(d2, i, j) - RowMean(d2, i) - ColumnMean(d2, j) + GrandMean(d2))
  {
    var n := d2.cols;
    var dh := Product(d2, Centring(n)).value;
    var col := ColumnValues(dh, j);
    LeftCentring(dh, i, j);
    RightCentring(d2, i, j);
    CentredColumnSum(d2, j);
    GrandMeanOfRows(d2);
    DoubleCentred(Get(Gramian(d2).value, i, j), Get(Product(Centring(n), dh).value, i, j), col[i],
      Get(d2, i, j), RowMean(d2, i), Sum(col), Sum(ColumnValues(d2, j)), Sum(RowMeans(d2)),
      ColumnMean(d2, j), GrandMean(d2), n as real);
  }

  /** H·A subtracts from every cell the mean of its column. */
  lemma {:induction false} LeftCentring(a: Mat, i: int, j: int)
    requires a.Has(i, j)
    ensures Get(Product(Centring(a.rows), a).value, i, j) ==
      ColumnValues(a, j)[i] - Sum(ColumnValues(a, j)) / a.rows as real
  {
    var col, row := ColumnValues(a, j), RowValues(Centring(a.rows), i);
    forall l | 0 <= l < a.rows
      ensures row[l] == (if l == i then (|col| - 1) as real / |col| as real else -1.0 / |col| as real)
    {
    }
    DotCentring(col, row, i);
    DotSymmetric(row, col);
  }

  /** The column sums of D2·H: the column sum of D2 less the sum of the row means. */
  lemma {:induction false} CentredColumnSum(d2: Mat, j: int)
    requires d2.rows == d2.cols && 0 <= j < d2.cols
    ensures Sum(ColumnValues(Product(d2, Centring(d2.cols)).value, j)) ==
      Sum(ColumnValues(d2, j)) - Sum(RowMeans(d2))
  {
    var col, means, col2 := ColumnValues(Product(d2, Centring(d2.cols)).value, j), RowMeans(d2), ColumnValues(d2, j);
    assert col == Minus(col2, means) by {
      forall k | 0 <= k < d2.rows ensures col[k] == col2[k] - means[k] {
        RightCentring(d2, k, j);
      }
    }
    SumMinus(col2, means);
  }

  /** The arithmetic that assembles a cell of the Gramian from the centred
      column: v = −½·x with x = c − (s₂ − sₘ)/n and c = d − (row mean). */
  lemma DoubleCentred(v: real, x: real, c: real, d: real, rowMean: real,
                      sum: real, sum2: real, sumMeans: real, colMean: real, grand: real, n: real)
    requires n != 0.0
    requires v == x * -0.5 && x == c - sum / n && c == d - rowMean
    requires sum == sum2 - sumMeans && colMean == sum2 / n && grand == sumMeans / n
    ensures v == -0.5 * (d - rowMean - colMean + grand)
  {
  }

  /** D2 equals its transpose. */
  ghost predicate Symmetric(m: Mat)
  {
    m.rows == m.cols && forall i, j :: m.Has(i, j) ==> Get(m, i, j) == Get(m, j, i)
  }

  /** For a symmetric D2 the column means are the row means. */
  lemma {:induction false} GramianSymmetricCell(d2: Mat, i: int, j: int)
    requires Symmetric(d2) && d2.Has(i, j)
    ensures Gramian(d2).Ok?
    ensures Get(Gramian(d2).value, i, j) ==
      -0.5 * (Get(d2, i, j) - RowMean(d2, i) - RowMean(d2, j) + GrandMean(d2))
  {
    GramianCell(d2, i, j);
    assert ColumnValues(d2, j) == RowValues(d2, j);
  }

  // ---------------------------------------------------------------------
  // The embedding dimension and the coordinates of compute()

  /** compute()'s scan of the singular values: dim counts them while they
      exceed eps and stops at the first one that does not. */
  function Dim(svs: seq<real>): (d: nat)
    ensures d <= |svs|
    ensures forall k :: 0 <= k < d ==> svs[k] > Eps
    ensures d < |svs| ==> svs[d] <= Eps
  {
    if |svs| == 0 || svs[0] <= Eps then 0 else 1 + Dim(svs[1..])
  }

  /** The three properties above determine the dimension. */
  lemma {:induction false} DimUnique(svs: seq<real>, d: nat)
    requires d <= |svs|
    requires forall k :: 0 <= k < d ==> svs[k] > Eps
    requires d < |svs| ==> svs[d] <= Eps
    ensures d == Dim(svs)
  {
    if |svs| > 0 && svs[0] > Eps {
      assert d > 0;
      DimUnique(svs[1..], d - 1);
    }
  }

  /** A small value ends the scan: large values after it are never counted. */
  lemma DimStops(svs: seq<real>, k: int)
    requires 0 <= k < |svs| && svs[k] <= Eps
    ensures Dim(svs) <= k
  {
  }

  /** Jama's SVD of the Gramian: the singular values and the left singular vectors. */
  datatype Svd = Svd(values: seq<real>, u: Mat)

  /** What Jama delivers for an n × n matrix: n non-negative singular values
      and an n × n matrix U. */
  ghost predicate SvdShape(svd: Svd, n: nat)
  {
    |svd.values| == n && svd.u.rows == n && svd.u.cols == n &&
    forall k :: 0 <= k < n ==> svd.values[k] >= 0.0
  }

  /** svd.getS(): the n × n diagonal matrix of the singular values. */
  function Diag(values: seq<real>, n: nat): (s: Mat)
    ensures s.rows == n && s.cols == n
    ensures forall i, j :: s.Has(i, j) ==>
      Get(s, i, j) == if i == j && i < |values| then values[i] else 0.0
  {
    Build(n, n, (i, j) => if i == j && 0 <= i < |values| then values[i] else 0.0)
  }

  /** The state of an MDS object: the squared distances it was built with
      and the fields that compute() and computeEmbeddingMeasures() assign.
      A null field is None; D2means is kept as the sequence of its N
      entries; D2mean_tot is Err(NotFinite) when it holds NaN. */
  datatype Mds = Mds(
    d2: Mat,
    gram: Option<Mat>,
    dim: nat,
    x: Option<Mat>,
    computed: bool,
    means: Option<seq<real>>,
    total: Result<real>,
    q: Option<Mat>,
    s: Option<Mat>)

  /** new MDS(D2): only D2 is set; the other fields hold Java's defaults. */
  function Init(d2: Mat): (st: Mds)
    ensures st.d2 == d2 && !st.computed
    ensures st.gram.None? && st.x.None? && st.means.None? && st.q.None? && st.s.None?
  {
    Mds(d2, None, 0, None, false, None, Ok(0.0), None, None)
  }

  /** The ElementApplicator with Math.sqrt applied to getS(): the roots of
      the singular values on the diagonal, sqrt(0) elsewhere. */
  function Roots(values: seq<real>, n: nat, sqrt: real -> real): (r: Mat)
    ensures r.rows == n && r.cols == n
    ensures forall i, j :: r.Has(i, j) ==> Get(r, i, j) == sqrt(Get(Diag(values, n), i, j))
  {
    ApplyElements(Diag(values, n), (i, j, d) => sqrt(d))
  }

  /** compute(): B, then dim from the singular values of B, then
      X = U·sqrt(S) cut to its first dim columns. A non-square D2 fails in
      the first product, before any field is assigned. */
  function Compute(st: Mds, svd: Svd, sqrt: real -> real): (r: Result<Mds>)
    requires IsSqrt(sqrt)
    requires st.d2.rows == st.d2.cols ==> SvdShape(svd, st.d2.cols)
    ensures r.Err? <==> st.d2.rows != st.d2.cols
    ensures r.Err? ==> r.error == DimensionMismatch
    ensures r.Ok? ==> r.value.gram == Some(Gramian(st.d2).value) && r.value.dim == Dim(svd.values)
    ensures r.Ok? ==> r.value == st.(gram := r.value.gram, dim := r.value.dim, x := r.value.x)
    ensures r.Ok? ==> (r.value.x.Some? && r.value.x.value.rows == st.d2.rows &&
      r.value.x.value.cols == Dim(svd.values))
    ensures r.Ok? ==> forall i, k :: r.value.x.value.Has(i, k) ==>
      Get(r.value.x.value, i, k) == Get(svd.u, i, k) * sqrt(svd.values[k])
  {
    var b :- Gramian(st.d2);
    var n := st.d2.cols;
    var dim := Dim(svd.values);
    var root := Roots(svd.values, n, sqrt);
    var us := Product(svd.u, root).value;
    var x := Block(us, n, dim).value;
    assert forall i, k :: x.Has(i, k) ==> Get(x, i, k) == Get(svd.u, i, k) * sqrt(svd.values[k]) by {
      forall i, k | x.Has(i, k) ensures Get(x, i, k) == Get(svd.u, i, k) * sqrt(svd.values[k]) {
        RootColumn(svd, sqrt, root, i, k);
      }
    }
    Ok(st.(gram := Some(b), dim := dim, x := Some(x)))
  }

  /** Column k of U·sqrt(S) is column k of U scaled by the root of the k-th singular value. */
  lemma {:induction false} RootColumn(svd: Svd, sqrt: real -> real, root: Mat, i: int, k: int)
    requires IsSqrt(sqrt) && SvdShape(svd, |svd.values|)
    requires root == Roots(svd.values, |svd.values|, sqrt)
    requires 0 <= i < svd.u.rows && 0 <= k < |svd.values|
    ensures Product(svd.u, root).Ok?
    ensures Get(Product(svd.u, root).value, i, k) == Get(svd.u, i, k) * sqrt(svd.values[k])
  {
    RootColumnValues(svd, sqrt, root, k);
    WeightedColumn(svd.u, root, i, k, sqrt(svd.values[k]));
  }

  /** Column k of sqrt(S): the root of the k-th singular value at row k, zeros elsewhere. */
  lemma RootColumnValues(svd: Svd, sqrt: real -> real, root: Mat, k: int)
    requires IsSqrt(sqrt) && SvdShape(svd, |svd.values|)
    requires root == Roots(svd.values, |svd.values|, sqrt)
    requires 0 <= k < |svd.values|
    ensures ColumnValues(root, k) == Scale(Unit(|svd.values|, k), sqrt(svd.values[k]))
  {
    var n := |svd.values|;
    var col, e := ColumnValues(root, k), Scale(Unit(n, k), sqrt(svd.values[k]));
    SqrtZero(sqrt);
    forall l | 0 <= l < n ensures col[l] == e[l] {
    }
  }

  // ---------------------------------------------------------------------
  // Distance matrices

  /** r1.minus(r2).norm2() for rows a and b of X: the Euclidean length of
      their difference. */
  function Distance(x: Mat, a: int, b: int, sqrt: real -> real): real
    requires 0 <= a < x.rows && 0 <= b < x.rows
  {
    sqrt(SumSq(Minus(RowValues(x, a), RowValues(x, b))))
  }

  /** The distance does not depend on the order of the two rows, and a row
      is at distance zero from itself. */
  lemma DistanceSymmetric(x: Mat, a: int, b: int, sqrt: real -> real)
    requires IsSqrt(sqrt) && 0 <= a < x.rows && 0 <= b < x.rows
    ensures Distance(x, a, b, sqrt) == Distance(x, b, a, sqrt)
    ensures Distance(x, a, a, sqrt) == 0.0
  {
    var u, v := RowValues(x, a), RowValues(x, b);
    SumSqMinusSwap(u, v);
    SqrtZero(sqrt);
    SumSqZero(Minus(u, u));
  }

  lemma {:induction false} SumSqMinusSwap(u: seq<real>, v: seq<real>)
    requires |u| == |v|
    ensures SumSq(Minus(u, v)) == SumSq(Minus(v, u))
  {
    if |u| > 0 {
      assert Minus(u, v)[1..] == Minus(u[1..], v[1..]);
      assert Minus(v, u)[1..] == Minus(v[1..], u[1..]);
      SumSqMinusSwap(u[1..], v[1..]);
    }
  }

  /** The distances between every pair of rows of X, row by row: the
      values computeDistanceMatrix writes. */
  function DistanceTable(x: Mat, sqrt: real -> real): (t: seq<seq<real>>)
    ensures |t| == x.rows
    ensures forall i :: 0 <= i < x.rows ==> |t[i]| == x.rows
  {
    seq(x.rows, i requires 0 <= i < x.rows =>
      seq(x.rows, b requires 0 <= b < x.rows => Distance(x, i, b, sqrt)))
  }

  /** The inner loop of computeDistanceMatrix for row i, after the columns
      i ≤ j' < j: the value vals[j'] is written to (i, j') and (j', i). */
  function FillRow(d: Mat, i: int, j: int, vals: seq<real>): (r: Mat)
    requires d.rows == d.cols == |vals|
    requires 0 <= i <= j <= d.rows && i < d.rows
    ensures r.SameShape(d)
    ensures forall a, b :: d.Has(a, b) ==>
      Get(r, a, b) ==
        if a == i && i <= b < j then vals[b]
        else if b == i && i <= a < j then vals[a]
        else Get(d, a, b)
  {
    if j == i then d
    else SetBoth(FillRow(d, i, j - 1, vals), i, j - 1, vals[j - 1])
  }

  /** m.set(i, j, v) followed by m.set(j, i, v). */
  function SetBoth(m: Mat, i: int, j: int, v: real): (r: Mat)
    requires m.Has(i, j) && m.Has(j, i)
    ensures r.SameShape(m)
    ensures forall a, b :: m.Has(a, b) ==>
      Get(r, a, b) == if (a == i && b == j) || (a == j && b == i) then v else Get(m, a, b)
  {
    Set(Set(m, i, j, v), j, i, v)
  }

  function Max(a: int, b: int): int
  {
    if a <= b then b else a
  }

  /** The outer loop of computeDistanceMatrix over an N × N table of values,
      after its first n rows: the cells whose smaller index is below n hold
      their table entry, the others are still zero. */
  function FillLoop(t: seq<seq<real>>, n: nat): (r: Mat)
    requires n <= |t| && forall i :: 0 <= i < |t| ==> |t[i]| == |t|
    ensures r.rows == |t| && r.cols == |t|
    ensures forall a, b :: r.Has(a, b) ==>
      Get(r, a, b) == if Min(a, b) < n then t[Min(a, b)][Max(a, b)] else 0.0
  {
    if n == 0 then Zeros(|t|, |t|)
    else FillRow(FillLoop(t, n - 1), n - 1, |t|, t[n - 1])
  }

  /** The outer loop of computeDistanceMatrix after its first n rows: the
      cells whose smaller index is below n hold their distance. */
  function DistanceLoop(x: Mat, n: nat, sqrt: real -> real): (r: Mat)
    requires n <= x.rows
    ensures r.rows == x.rows && r.cols == x.rows
    ensures forall a, b :: r.Has(a, b) ==>
      Get(r, a, b) == if Min(a, b) < n then Distance(x, Min(a, b), Max(a, b), sqrt) else 0.0
  {
    FillLoop(DistanceTable(x, sqrt), n)
  }

  /** computeDistanceMatrix(X): the N × N matrix of distances between the rows of X. */
  function DistanceMatrix(x: Mat, sqrt: real -> real): (r: Mat)
    requires IsSqrt(sqrt)
    ensures r.rows == x.rows && r.cols == x.rows
    ensures forall a, b :: r.Has(a, b) ==> Get(r, a, b) == Distance(x, a, b, sqrt)
  {
    var r := DistanceLoop(x, x.rows, sqrt);
    forall a, b | r.Has(a, b) ensures Get(r, a, b) == Distance(x, a, b, sqrt) {
      DistanceSymmetric(x, a, b, sqrt);
    }
    r
  }

  /** The distance matrix is symmetric with a zero diagonal. */
  lemma DistanceMatrixShape(x: Mat, sqrt: real -> real)
    requires IsSqrt(sqrt)
    ensures Symmetric(DistanceMatrix(x, sqrt))
    ensures forall a :: 0 <= a < x.rows ==> Get(DistanceMatrix(x, sqrt), a, a) == 0.0
  {
    forall a, b | 0 <= a < x.rows && 0 <= b < x.rows
      ensures Distance(x, a, b, sqrt) == Distance(x, b, a, sqrt)
      ensures Distance(x, a, a, sqrt) == 0.0
    {
      DistanceSymmetric(x, a, b, sqrt);
    }
  }

  /** The functor d ↦ d·d that the squared variants apply to every cell. */
  function Square(): Functor
  {
    (i, j, d) => d * d
  }

  /** computeSquaredDistanceMatrix(X): every distance squared, that is the
      sum of squared coordinate differences of the two rows. */
  function SquaredDistanceMatrix(x: Mat, sqrt: real -> real): (r: Mat)
    requires IsSqrt(sqrt)
    ensures r.rows == x.rows && r.cols == x.rows
    ensures forall a, b :: r.Has(a, b) ==>
      Get(r, a, b) == SumSq(Minus(RowValues(x, a), RowValues(x, b)))
  {
    var d := DistanceMatrix(x, sqrt);
    var r := ApplyElements(d, Square());
    forall a, b | r.Has(a, b) ensures Get(r, a, b) == SumSq(Minus(RowValues(x, a), RowValues(x, b))) {
      SquaredDistanceCell(x, sqrt, d, a, b);
    }
    r
  }

  /** Squaring a cell that holds a root g of v gives v back. */
  lemma SquareOf(d: Mat, a: int, b: int, g: real, v: real)
    requires d.Has(a, b) && Get(d, a, b) == g && g * g == v
    ensures Get(ApplyElements(d, Square()), a, b) == v
  {
  }

  /** A distance squares to the sum of squared coordinate differences. */
  lemma DistanceSquare(x: Mat, sqrt: real -> real, a: int, b: int)
    requires IsSqrt(sqrt) && 0 <= a < x.rows && 0 <= b < x.rows
    ensures Distance(x, a, b, sqrt) * Distance(x, a, b, sqrt) == SumSq(Minus(RowValues(x, a), RowValues(x, b)))
  {
    RootSquares(sqrt, SumSq(Minus(RowValues(x, a), RowValues(x, b))), Distance(x, a, b, sqrt));
  }

  lemma SquaredDistanceCell(x: Mat, sqrt: real -> real, d: Mat, a: int, b: int)
    requires IsSqrt(sqrt) && d.Has(a, b) && a < x.rows && b < x.rows
    requires Get(d, a, b) == Distance(x, a, b, sqrt)
    ensures Get(ApplyElements(d, Square()), a, b) == SumSq(Minus(RowValues(x, a), RowValues(x, b)))
  {
    DistanceSquare(x, sqrt, a, b);
    SquareOf(d, a, b, Distance(x, a, b, sqrt), SumSq(Minus(RowValues(x, a), RowValues(x, b))));
  }

  /** The squared distance matrix is symmetric with a zero diagonal, so it is
      a valid input of compute(). */
  lemma SquaredDistanceShape(x: Mat, sqrt: real -> real)
    requires IsSqrt(sqrt)
    ensures Symmetric(SquaredDistanceMatrix(x, sqrt))
    ensures forall a :: 0 <= a < x.rows ==> Get(SquaredDistanceMatrix(x, sqrt), a, a) == 0.0
  {
    forall a, b | 0 <= a < x.rows && 0 <= b < x.rows
      ensures SumSq(Minus(RowValues(x, a), RowValues(x, b))) == SumSq(Minus(RowValues(x, b), RowValues(x, a)))
      ensures SumSq(Minus(RowValues(x, a), RowValues(x, a))) == 0.0
    {
      SumSqMinusSwap(RowValues(x, a), RowValues(x, b));
      SumSqZero(Minus(RowValues(x, a), RowValues(x, a)));
    }
  }

  /** Distance between row j of X and the first K = #columns of X entries of
      row i of Xtst. */
  function CrossDistance(x: Mat, xt: Mat, i: int, j: int, sqrt: real -> real): real
    requires 0 <= i < xt.rows && 0 <= j < x.rows && x.cols <= xt.cols
  {
    sqrt(SumSq(Minus(RowValues(x, j), RowValues(xt, i)[..x.cols])))
  }

  /** computeDistanceMatrix(X, Xtst): cell (i, j) is the distance between
      test row i and training row j. Xtst.getMatrix(i, i, 0, K − 1) fails
      when the test rows are shorter than the training rows. */
  function CrossDistanceMatrix(x: Mat, xt: Mat, sqrt: real -> real): (r: Result<Mat>)
    ensures r.Err? <==> x.rows > 0 && xt.rows > 0 && xt.cols < x.cols
    ensures r.Err? ==> r.error == IndexOutOfRange
    ensures r.Ok? ==> r.value.rows == xt.rows && r.value.cols == x.rows
    ensures r.Ok? ==> forall i, j :: r.value.Has(i, j) ==>
      xt.cols >= x.cols && Get(r.value, i, j) == CrossDistance(x, xt, i, j, sqrt)
  {
    if x.rows > 0 && xt.rows > 0 && xt.cols < x.cols then Err(IndexOutOfRange)
    else Ok(Build(xt.rows, x.rows, (i, j) =>
      if 0 <= i < xt.rows && 0 <= j < x.rows && x.cols <= xt.cols then CrossDistance(x, xt, i, j, sqrt) else 0.0))
  }

  /** Measured against itself, the cross distance matrix is the distance matrix. */
  lemma CrossDistanceSelf(x: Mat, sqrt: real -> real)
    requires IsSqrt(sqrt)
    ensures CrossDistanceMatrix(x, x, sqrt) == Ok(DistanceMatrix(x, sqrt))
  {
    var c, d := CrossDistanceMatrix(x, x, sqrt).value, DistanceMatrix(x, sqrt);
    forall i, j | c.Has(i, j) ensures Get(c, i, j) == Get(d, i, j) {
      assert RowValues(x, i)[..x.cols] == RowValues(x, i);
      DistanceSymmetric(x, i, j, sqrt);
    }
    Ext(c, d);
  }

  /** A cross distance squares to the sum of squared coordinate differences. */
  lemma CrossSquare(x: Mat, xt: Mat, sqrt: real -> real, i: int, j: int)
    requires IsSqrt(sqrt) && 0 <= i < xt.rows && 0 <= j < x.rows && x.cols <= xt.cols
    ensures CrossDistance(x, xt, i, j, sqrt) * CrossDistance(x, xt, i, j, sqrt) ==
      SumSq(Minus(RowValues(x, j), RowValues(xt, i)[..x.cols]))
  {
    RootSquares(sqrt, SumSq(Minus(RowValues(x, j), RowValues(xt, i)[..x.cols])), CrossDistance(x, xt, i, j, sqrt));
  }

  /** computeSquaredDistanceMatrix(X, Xtst): the cross distances squared. */
  function SquaredCrossDistanceMatrix(x: Mat, xt: Mat, sqrt: real -> real): (r: Result<Mat>)
    requires IsSqrt(sqrt)
    ensures r.Err? <==> x.rows > 0 && xt.rows > 0 && xt.cols < x.cols
    ensures r.Ok? ==> r.value.rows == xt.rows && r.value.cols == x.rows
    ensures r.Ok? ==> forall i, j :: r.value.Has(i, j) ==> (xt.cols >= x.cols &&
      Get(r.value, i, j) == SumSq(Minus(RowValues(x, j), RowValues(xt, i)[..x.cols])))
  {
    var d :- CrossDistanceMatrix(x, xt, sqrt);
    SquaredCrossCells(x, xt, sqrt, d);
    Ok(ApplyElements(d, Square()))
  }

  lemma SquaredCrossCells(x: Mat, xt: Mat, sqrt: real -> real, d: Mat)
    requires IsSqrt(sqrt) && CrossDistanceMatrix(x, xt, sqrt) == Ok(d)
    ensures forall i, j :: d.Has(i, j) ==> (xt.cols >= x.cols &&
      Get(ApplyElements(d, Square()), i, j) == SumSq(Minus(RowValues(x, j), RowValues(xt, i)[..x.cols])))
  {
    forall i, j | d.Has(i, j)
      ensures xt.cols >= x.cols
      ensures Get(ApplyElements(d, Square()), i, j) == SumSq(Minus(RowValues(x, j), RowValues(xt, i)[..x.cols]))
    {
      CrossSquare(x, xt, sqrt, i, j);
      SquareOf(d, i, j, CrossDistance(x, xt, i, j, sqrt), SumSq(Minus(RowValues(x, j), RowValues(xt, i)[..x.cols])));
    }
  }

  // ---------------------------------------------------------------------
  // computeEmbeddingMeasures: row means, grand mean, eigenvector selection

  /** Jama's eigendecomposition of the Gramian: real eigenvalues and eigenvectors. */
  datatype Eigen = Eigen(values: seq<real>, vectors: Mat)

  /** What Jama delivers for an n × n matrix: n eigenvalues and an n × n V. */
  predicate EigenShape(e: Eigen, n: nat)
  {
    |e.values| == n && e.vectors.rows == n && e.vectors.cols == n
  }

  /** The state after a call, and whether the call returned or threw. */
  datatype Outcome<T> = Outcome(state: Mds, result: Result<T>)

  /** The filter over the sorted (index, eigenvalue) pairs: keep those above eps. */
  function Large(ps: seq<Ranked>): (r: seq<Ranked>)
    ensures |r| <= |ps|
    ensures forall x :: x in r <==> x in ps && x.second > Eps
  {
    if |ps| == 0 then []
    else (if ps[0].second > Eps then [ps[0]] else []) + Large(ps[1..])
  }

  /** Filtering keeps the order of a sorted sequence. */
  lemma {:induction false} LargeSorted(ps: seq<Ranked>)
    requires Sorted(ps, false)
    ensures Sorted(Large(ps), false)
  {
    if |ps| > 0 {
      var tail := ps[1..];
      assert Sorted(tail, false);
      LargeSorted(tail);
      if ps[0].second > Eps {
        var r := Large(ps);
        forall k | 0 < k < |r| ensures InOrder(r[0], r[k], false) {
          assert r[k] in Large(tail);
          var l :| 0 <= l < |tail| && tail[l] == r[k];
          assert ps[l + 1] == r[k];
        }
      }
    }
  }

  /** The eigenvalue indices that toFetch collects. */
  function Firsts(ps: seq<Ranked>): (r: seq<int>)
    ensures |r| == |ps| && forall k :: 0 <= k < |ps| ==> r[k] == ps[k].first
  {
    seq(|ps|, k requires 0 <= k < |ps| => ps[k].first)
  }

  /** The eigenvalues kept, largest first. */
  function Kept(values: seq<real>): seq<Ranked>
  {
    Large(Sort(values, false))
  }

  /** Exactly the eigenvalues above eps are kept, each with its own index,
      in non-increasing order. */
  lemma {:induction false} KeptIndices(values: seq<real>, i: int)
    ensures (exists k :: 0 <= k < |Kept(values)| && Kept(values)[k].first == i) <==>
      0 <= i < |values| && values[i] > Eps
    ensures forall k :: 0 <= k < |Kept(values)| ==>
      0 <= Kept(values)[k].first < |values| && Kept(values)[k].second == values[Kept(values)[k].first]
    ensures Sorted(Kept(values), false)
  {
    var sorted := Sort(values, false);
    var kept := Kept(values);
    LargeSorted(sorted);
    forall k | 0 <= k < |kept|
      ensures 0 <= kept[k].first < |values| && kept[k].second == values[kept[k].first]
    {
      assert kept[k] in sorted;
      var l :| 0 <= l < |sorted| && sorted[l] == kept[k];
      SortEntries(values, false, l);
    }
    if 0 <= i < |values| && values[i] > Eps {
      var x := Pair(i, values[i]);
      assert Indexed(values)[i] == x;
      assert x in multiset(sorted);
      assert x in kept;
      var k :| 0 <= k < |kept| && kept[k] == x;
    }
  }

  /** The cells D2means holds after the first n passes of its loop. */
  function MeansLoop(d2: Mat, n: nat): (r: seq<real>)
    requires n <= d2.rows && n <= d2.cols
    ensures |r| == d2.cols
    ensures forall k :: 0 <= k < d2.cols ==> r[k] == if k < n then RowMean(d2, k) else 0.0
  {
    if n == 0 then Const(d2.cols, 0.0) else MeansLoop(d2, n - 1)[n - 1 := RowMean(d2, n - 1)]
  }

  /** 1/sqrt(λ) for an eigenvalue above eps. */
  function InverseRoot(v: real, sqrt: real -> real): (r: real)
    requires IsSqrt(sqrt) && v > 0.0
    ensures r > 0.0 && r * r * v == 1.0
  {
    SqSign(sqrt(v));
    InverseRootSquare(sqrt(v), v);
    1.0 / sqrt(v)
  }

  lemma InverseRootSquare(w: real, v: real)
    requires w > 0.0 && w * w == v
    ensures (1.0 / w) * (1.0 / w) * v == 1.0
  {
  }

  /** S after computeEmbeddingMeasures' last loop: dim × dim, with 1/sqrt of
      the j-th kept eigenvalue at (j, j) for every j the list reaches. */
  function Whitening(kept: seq<Ranked>, dim: nat, sqrt: real -> real): (s: Mat)
    requires IsSqrt(sqrt)
    requires forall k :: 0 <= k < |kept| ==> kept[k].second > Eps
    ensures s.rows == dim && s.cols == dim
    ensures forall j, k :: s.Has(j, k) ==>
      Get(s, j, k) == if j == k && j < |kept| then InverseRoot(kept[j].second, sqrt) else 0.0
  {
    Build(dim, dim, (j, k) =>
      if j == k && 0 <= j < |kept| then InverseRoot(kept[j].second, sqrt) else 0.0)
  }

  /** computeEmbeddingMeasures(): does nothing once the flag is set; otherwise
      sets the flag first, then D2means (row by row), D2mean_tot, and from
      the eigendecomposition of B the selection Q and the scaling S. B still
      null throws after D2mean_tot; a row of D2 missing throws in the
      D2means loop; fewer kept eigenvalues than dim throws in S's loop. */
  function Measures(st: Mds, e: Eigen, sqrt: real -> real): (o: Outcome<()>)
    requires IsSqrt(sqrt)
    ensures o.state.computed
    ensures st.computed ==> o == Outcome(st, Ok(()))
    ensures o.state == st.(computed := true, means := o.state.means, total := o.state.total,
      q := o.state.q, s := o.state.s)
    ensures !st.computed && st.d2.rows < st.d2.cols ==> o.result == Err(IndexOutOfRange)
    ensures !st.computed && st.d2.rows < st.d2.cols ==> o.state.total == st.total
    ensures !st.computed && st.d2.rows >= st.d2.cols && st.gram.None? ==> o.result == Err(NullReference)
    ensures !st.computed ==>
      o.state.means.Some? && |o.state.means.value| == st.d2.cols &&
      forall k :: 0 <= k < st.d2.cols ==>
        o.state.means.value[k] == if k < st.d2.rows then RowMean(st.d2, k) else 0.0
    ensures !st.computed && st.d2.rows >= st.d2.cols ==> o.state.total == Mean(Elements(st.d2))
    ensures !st.computed && (st.d2.rows < st.d2.cols || st.gram.None?) ==> o.state.q == st.q && o.state.s == st.s
    ensures !st.computed && st.d2.rows >= st.d2.cols && st.gram.Some? ==>
      var cols := Columns(e.vectors, st.d2.cols, Firsts(Kept(e.values)));
      (cols.Err? ==> o.result == Err(cols.error) && o.state.q == st.q && o.state.s == st.s) &&
      (cols.Ok? ==>
        o.state.q == Some(cols.value) && o.state.s == Some(Whitening(Kept(e.values), st.dim, sqrt)) &&
        (o.result.Ok? <==> st.dim <= |Kept(e.values)|) &&
        (o.result.Err? ==> o.result.error == IndexOutOfRange))
  {
    if st.computed then Outcome(st, Ok(()))
    else
      var d2 := st.d2;
      var n := d2.cols;
      if d2.rows < n then
        Outcome(st.(computed := true, means := Some(MeansLoop(d2, d2.rows))), Err(IndexOutOfRange))
      else
        var st1 := st.(computed := true, means := Some(MeansLoop(d2, n)), total := Mean(Elements(d2)));
        if st1.gram.None? then Outcome(st1, Err(NullReference))
        else
          var kept := Kept(e.values);
          match Columns(e.vectors, n, Firsts(kept))
          case Err(err) => Outcome(st1, Err(err))
          case Ok(q) =>
            var st2 := st1.(q := Some(q), s := Some(Whitening(kept, st.dim, sqrt)));
            if st.dim > |kept| then Outcome(st2, Err(IndexOutOfRange)) else Outcome(st2, Ok(()))
  }

  // ---------------------------------------------------------------------
  // embedGramian and embed

  /** The G loop of embedGramian and embed over the K test rows and the N
      training points, evaluated left to right as Java does: D2t.get(i, j)
      first, then D2means.get(j, 0); D2mean_tot still NaN makes every cell NaN. */
  function TestGramian(st: Mds, d2t: Mat): (r: Result<Mat>)
    ensures r.Ok? ==> r.value.rows == d2t.rows && r.value.cols == st.d2.rows
    ensures r.Ok? && d2t.rows > 0 && st.d2.rows > 0 ==>
      d2t.cols >= st.d2.rows && st.means.Some? && |st.means.value| >= st.d2.rows && st.total.Ok? &&
      forall i, j :: r.value.Has(i, j) ==>
        Get(r.value, i, j) ==
          -0.5 * (Get(d2t, i, j) - st.means.value[j] - RowMean(d2t, i) + st.total.value)
    ensures r.Ok? <==>
      (d2t.rows == 0 || st.d2.rows == 0 ||
       (d2t.cols >= st.d2.rows && st.means.Some? && |st.means.value| >= st.d2.rows && st.total.Ok?))
    ensures d2t.rows > 0 && st.d2.rows > 0 && d2t.cols == 0 ==> r == Err(IndexOutOfRange)
    ensures d2t.rows > 0 && st.d2.rows > 0 && st.means.None? && d2t.cols > 0 ==> r == Err(NullReference)
    ensures d2t.rows > 0 && st.d2.rows > 0 && st.means.Some? ==>
      (d2t.cols < st.d2.rows || |st.means.value| < st.d2.rows ==> r == Err(IndexOutOfRange)) &&
      (d2t.cols >= st.d2.rows && |st.means.value| >= st.d2.rows && st.total.Err? ==> r == Err(NotFinite))
  {
    var k, n := d2t.rows, st.d2.rows;
    if k == 0 || n == 0 then Ok(Zeros(k, n))
    else if d2t.cols == 0 then Err(IndexOutOfRange)
    else if st.means.None? then Err(NullReference)
    else if d2t.cols < n || |st.means.value| < n then Err(IndexOutOfRange)
    else if st.total.Err? then Err(NotFinite)
    else
      var means, total := st.means.value, st.total.value;
      Ok(Build(k, n, (i, j) =>
        if 0 <= i < k && 0 <= j < n then -0.5 * (Get(d2t, i, j) - means[j] - RowMean(d2t, i) + total)
        else 0.0))
  }

  /** After the measures of a square D2 with B set, the test Gramian fails
      only for test rows narrower than D2, and its cells use D2's own row
      means and grand mean. */
  lemma TestGramianAfterMeasures(st: Mds, d2t: Mat, e: Eigen, sqrt: real -> real)
    requires IsSqrt(sqrt) && !st.computed && st.d2.rows == st.d2.cols && st.gram.Some?
    ensures var g := TestGramian(Measures(st, e, sqrt).state, d2t);
      (g.Ok? <==> d2t.rows == 0 || st.d2.rows == 0 || d2t.cols >= st.d2.rows) &&
      (g.Ok? && d2t.rows > 0 && st.d2.rows > 0 ==>
        forall i, j :: g.value.Has(i, j) ==>
          Get(g.value, i, j) == -0.5 * (Get(d2t, i, j) - RowMean(st.d2, j) - RowMean(d2t, i) + GrandMean(st.d2)))
  {
    var o := Measures(st, e, sqrt);
    if st.d2.rows > 0 {
      ElementsNonEmpty(st.d2);
      assert o.state.total == Ok(GrandMean(st.d2));
    }
  }

  /** embedGramian(D2t): the measures first, then the K × N test Gramian. */
  function EmbedGramian(st: Mds, d2t: Mat, e: Eigen, sqrt: real -> real): (o: Outcome<Mat>)
    requires IsSqrt(sqrt)
    ensures o.state == Measures(st, e, sqrt).state
    ensures Measures(st, e, sqrt).result.Err? ==> o.result == Err(Measures(st, e, sqrt).result.error)
    ensures Measures(st, e, sqrt).result.Ok? ==> o.result == TestGramian(o.state, d2t)
  {
    var m := Measures(st, e, sqrt);
    if m.result.Err? then Outcome(m.state, Err(m.result.error))
    else Outcome(m.state, TestGramian(m.state, d2t))
  }

  /** embed(D2t): the same G, then G.times(Q).times(S); Q or S still null
      throws in the product. */
  function Embed(st: Mds, d2t: Mat, e: Eigen, sqrt: real -> real): (o: Outcome<Mat>)
    requires IsSqrt(sqrt)
    ensures o.state == EmbedGramian(st, d2t, e, sqrt).state
    ensures EmbedGramian(st, d2t, e, sqrt).result.Err? ==> o.result == EmbedGramian(st, d2t, e, sqrt).result
    ensures o.result.Ok? ==> (o.state.s.Some? && o.result.value.rows == d2t.rows &&
      o.result.value.cols == o.state.s.value.cols)
    ensures EmbedGramian(st, d2t, e, sqrt).result.Ok? && (o.state.q.None? || o.state.s.None?) ==>
      o.result == Err(NullReference)
    ensures o.result.Ok? ==>
      var g := EmbedGramian(st, d2t, e, sqrt).result;
      g.Ok? && o.state.q.Some? && o.state.q.value.cols == o.state.s.value.rows &&
      Product(g.value, o.state.q.value).Ok? &&
      o.result == Product(Product(g.value, o.state.q.value).value, o.state.s.value)
  {
    var g := EmbedGramian(st, d2t, e, sqrt);
    if g.result.Err? then g
    else if g.state.q.None? || g.state.s.None? then Outcome(g.state, Err(NullReference))
    else
      var s := g.state.s.value;
      match Product(g.result.value, g.state.q.value)
      case Err(err) => Outcome(g.state, Err(err))
      case Ok(gq) =>
        match Product(gq, s)
        case Err(err) => Outcome(g.state, Err(err))
        case Ok(x) => Outcome(g.state, Ok(x))
  }

  /** On a first call with B set and every kept eigenvector column present,
      embed succeeds exactly when D2 is square, exactly dim eigenvalues exceed
      eps (Q has one column per kept eigenvalue, S has dim rows) and the test
      Gramian G exists; the coordinates are then G·Q·S, with Q the kept
      eigenvectors and S = diag(1/sqrt λ). */
  lemma EmbedCoordinates(st: Mds, d2t: Mat, e: Eigen, sqrt: real -> real)
    requires IsSqrt(sqrt) && !st.computed && st.d2.rows >= st.d2.cols && st.gram.Some?
    requires Columns(e.vectors, st.d2.cols, Firsts(Kept(e.values))).Ok?
    ensures Embed(st, d2t, e, sqrt).result.Ok? <==>
      st.d2.rows == st.d2.cols && st.dim == |Kept(e.values)| &&
      TestGramian(Measures(st, e, sqrt).state, d2t).Ok?
    ensures Embed(st, d2t, e, sqrt).result.Ok? ==>
      Embed(st, d2t, e, sqrt).result ==
        Product(Product(TestGramian(Measures(st, e, sqrt).state, d2t).value,
                        Columns(e.vectors, st.d2.cols, Firsts(Kept(e.values))).value).value,
                Whitening(Kept(e.values), st.dim, sqrt))
  {
    var m := Measures(st, e, sqrt);
    var q := Columns(e.vectors, st.d2.cols, Firsts(Kept(e.values))).value;
    assert m.state.q == Some(q);
    assert m.state.s == Some(Whitening(Kept(e.values), st.dim, sqrt));
  }

  /** Embedding before compute(): B is still null, so the measures throw,
      yet the flag stays set and a second call skips the measures entirely. */
  lemma EmbedBeforeCompute(d2: Mat, d2t: Mat, e: Eigen, e': Eigen, sqrt: real -> real)
    requires IsSqrt(sqrt)
    ensures EmbedGramian(Init(d2), d2t, e, sqrt).result.Err?
    ensures Embed(Init(d2), d2t, e, sqrt).result.Err?
    ensures d2.rows >= d2.cols ==> EmbedGramian(Init(d2), d2t, e, sqrt).result == Err(NullReference)
    ensures EmbedGramian(Init(d2), d2t, e, sqrt).state.computed
    ensures Measures(EmbedGramian(Init(d2), d2t, e, sqrt).state, e', sqrt).state ==
      EmbedGramian(Init(d2), d2t, e, sqrt).state
  {
    var o := Measures(Init(d2), e, sqrt);
    assert o.result.Err?;
  }

  /** Embedding the training distances themselves reproduces the Gramian B
      of compute() for a symmetric D2, and fails only when fewer
      eigenvalues than dim exceed eps. */
  lemma {:induction false} EmbedGramianIsGramian(st: Mds, e: Eigen, sqrt: real -> real)
    requires IsSqrt(sqrt) && Symmetric(st.d2) && st.d2.rows > 0 && !st.computed
    requires st.gram == Some(Gramian(st.d2).value)
    requires EigenShape(e, st.d2.rows)
    ensures EmbedGramian(st, st.d2, e, sqrt).result.Ok? <==> st.dim <= |Kept(e.values)|
    ensures EmbedGramian(st, st.d2, e, sqrt).result.Ok? ==>
      EmbedGramian(st, st.d2, e, sqrt).result.value == st.gram.value
  {
    var kept := Kept(e.values);
    KeptIndices(e.values, 0);
    assert Columns(e.vectors, st.d2.rows, Firsts(kept)).Ok?;
    var o := EmbedGramian(st, st.d2, e, sqrt);
    if o.result.Ok? {
      EmbedGramianCells(st, e, sqrt, o.result.value);
    }
  }

  lemma {:induction false} EmbedGramianCells(st: Mds, e: Eigen, sqrt: real -> real, g: Mat)
    requires IsSqrt(sqrt) && Symmetric(st.d2) && st.d2.rows > 0 && !st.computed
    requires st.gram == Some(Gramian(st.d2).value)
    requires EmbedGramian(st, st.d2, e, sqrt).result == Ok(g)
    ensures g == st.gram.value
  {
    var d2, b := st.d2, st.gram.value;
    var o := EmbedGramian(st, d2, e, sqrt);
    ElementsNonEmpty(d2);
    assert o.state.total == Ok(GrandMean(d2));
    forall i, j | g.Has(i, j) ensures Get(g, i, j) == Get(b, i, j) {
      GramianSymmetricCell(d2, i, j);
      SameCell(Get(g, i, j), Get(b, i, j), Get(d2, i, j), RowMean(d2, i), RowMean(d2, j),
        o.state.means.value[j], GrandMean(d2), o.state.total.value);
    }
    Ext(g, b);
  }

  /** The test Gramian's cell formula, with the stored row mean and grand
      mean, is the training Gramian's cell formula. */
  lemma SameCell(v: real, w: real, d: real, rowMean: real, colMean: real, stored: real, grand: real, total: real)
    requires stored == colMean && total == grand
    requires v == -0.5 * (d - stored - rowMean + total)
    requires w == -0.5 * (d - rowMean - colMean + grand)
    ensures v == w
  {
  }
}

=== FILE: pair.dfy ===
/** util/Pair: a two-field record with getters and setters. The setters of
    the mutable Java object become functions returning the updated pair. */
module Pairs {

  /** new Pair(first, second); getFirst and getSecond are the field reads. */
  datatype Pair<A, B> = Pair(first: A, second: B)

  /** setFirst: replace the first component. */
  function SetFirst<A, B>(p: Pair<A, B>, x: A): (r: Pair<A, B>)
    ensures r.first == x && r.second == p.second
  {
    p.(first := x)
  }

  /** setSecond: replace the second component. */
  function SetSecond<A, B>(p: Pair<A, B>, y: B): (r: Pair<A, B>)
    ensures r.second == y && r.first == p.first
  {
    p.(second := y)
  }

  /** Setting both components in either order rebuilds the pair from scratch. */
  lemma SettersCommute<A, B>(p: Pair<A, B>, x: A, y: B)
    ensures SetSecond(SetFirst(p, x), y) == SetFirst(SetSecond(p, y), x) == Pair(x, y)
  {
  }

  /** Writing back what was read changes nothing. */
  lemma SetGetIdentity<A, B>(p: Pair<A, B>)
    ensures SetFirst(p, p.first) == p && SetSecond(p, p.second) == p
  {
  }
}

=== FILE: pca.dfy ===
/** Principal component analysis (org.roettig.maths.mva.PCA) around Jama's
    singular value decomposition X_ = U·S·Vᵀ of the prepared data: the
    centring or standardizing of the copy X_, the snapping of tiny singular
    values, the cut to ncomp components, the scores T = U·S, the residuals
    Xres = T·Vᵀ − X_, TT = Tᵀ·T, DModX, and the statistics read from them.
    The decomposition itself enters as a parameter. */
module Pca {
  import opened Wrappers
  import opened Series
  import opened Descriptive
  import opened Matrices
  import opened Algebra
  import opened Transforms
  import opened JavaInt

  // ---------------------------------------------------------------------
  // The constructor's preparation of X_

  /** X_ after the constructor: the copy of X centred column by column, and
      then scaled to unit deviation when standardize is set. */
  function Prepare(x: Mat, standardize: bool, sqrt: real -> real): (r: Mat)
    requires IsSqrt(sqrt)
    ensures r.SameShape(x)
  {
    if standardize then ScaleAll(CenterAll(x), sqrt) else CenterAll(x)
  }

  /** Every column of the prepared data has mean 0. */
  lemma PreparedMean(x: Mat, standardize: bool, sqrt: real -> real, j: int)
    requires IsSqrt(sqrt) && 0 <= j < x.cols && x.rows > 0
    ensures ColumnMean(Prepare(x, standardize, sqrt), j) == 0.0
  {
    CenterAllMeans(x, j);
    if standardize {
      StandardizedMean(CenterAll(x), sqrt, j);
    }
  }

  /** Standardizing gives every column of non-zero spread the sample
      variance 1. */
  lemma PreparedVariance(x: Mat, sqrt: real -> real, j: int)
    requires IsSqrt(sqrt) && 0 <= j < x.cols && x.rows >= 2
    requires ColumnStd(CenterAll(x), j, sqrt) > 0.0
    ensures Var(ColumnValues(Prepare(x, true, sqrt), j)) == Ok(1.0)
  {
    ScaleAllColumn(CenterAll(x), j, sqrt);
    ScaleColumnVar(CenterAll(x), j, sqrt);
  }

  /** Dividing a column of mean 0 by its deviation keeps its mean 0. */
  lemma {:induction false} StandardizedMean(c: Mat, sqrt: real -> real, j: int)
    requires IsSqrt(sqrt) && 0 <= j < c.cols && c.rows > 0 && ColumnMean(c, j) == 0.0
    ensures ColumnMean(ScaleAll(c, sqrt), j) == 0.0
  {
    if c.rows >= 2 {
      var col := ColumnValues(c, j);
      var s := ColumnStd(c, j, sqrt);
      if s > 0.0 {
        ScaleAllColumn(c, j, sqrt);
        ScaledColumn(c, j, sqrt);
        ScaledMeanZero(col, 1.0 / s);
      } else {
        assert ColumnValues(ScaleAll(c, sqrt), j) == col;
      }
    }
  }

  /** A multiple of a series of mean 0 has mean 0. */
  lemma {:induction false} ScaledMeanZero(s: seq<real>, k: real)
    requires Mean(s) == Ok(0.0)
    ensures Mean(Scale(s, k)) == Ok(0.0)
  {
    SumScale(s, k);
    var m := Mean(Scale(s, k)).value;
    assert m * |s| as real == 0.0;
  }

  // ---------------------------------------------------------------------
  // The singular values

  /** Singular values of magnitude below 1e-9 are taken as zero. */
  const Tiny: real := 0.000000001

  /** The value calcSVD keeps of one singular value. */
  function Snap(d: real): real
  {
    if Abs(d) < Tiny then 0.0 else d
  }

  /** An eigenvalue ev·ev is never negative; it is zero exactly for a
      singular value below the cut, and the plain square otherwise. */
  lemma SnapSquare(d: real)
    ensures Sq(Snap(d)) >= 0.0
    ensures Sq(Snap(d)) == 0.0 <==> Abs(d) < Tiny
    ensures Abs(d) >= Tiny ==> Sq(Snap(d)) == Sq(d)
  {
    SqSign(Snap(d));
  }

  /** S after n iterations of calcSVD's loop: the identity of order |d| whose
      first n diagonal cells hold the snapped singular values. */
  function SnapLoop(d: seq<real>, n: nat): (s: Mat)
    requires n <= |d|
    ensures s.rows == |d| && s.cols == |d|
    ensures forall i, j :: s.Has(i, j) ==>
      Get(s, i, j) == if i != j then 0.0 else if i < n then Snap(d[i]) else 1.0
  {
    if n == 0 then EyeSquare(|d|) else Set(SnapLoop(d, n - 1), n - 1, n - 1, Snap(d[n - 1]))
  }

  /** S once the loop has run: the snapped singular values on the diagonal. */
  function Singular(d: seq<real>): (s: Mat)
    ensures s.rows == |d| && s.cols == |d| && IsDiagonal(s)
    ensures forall k :: 0 <= k < |d| ==> Get(s, k, k) == Snap(d[k])
  {
    Build(|d|, |d|, (i, j) => if i == j && 0 <= i < |d| then Snap(d[i]) else 0.0)
  }

  /** Setting the diagonal of the identity one cell at a time yields Singular. */
  lemma {:induction false} SnapLoopSingular(d: seq<real>)
    ensures SnapLoop(d, |d|) == Singular(d)
  {
    var a, b := SnapLoop(d, |d|), Singular(d);
    forall i, j | a.Has(i, j) ensures Get(a, i, j) == Get(b, i, j) {
      SnapCell(d, i, j);
    }
    Ext(a, b);
  }

  /** evals after n iterations of the same loop. */
  function EvalsLoop(d: seq<real>, n: nat): (e: seq<real>)
    requires n <= |d|
    ensures |e| == n
    ensures forall k :: 0 <= k < n ==> e[k] == Sq(Snap(d[k]))
  {
    if n == 0 then [] else EvalsLoop(d, n - 1) + [Sq(Snap(d[n - 1]))]
  }

  predicate NonNegative(s: seq<real>)
  {
    forall k :: 0 <= k < |s| ==> s[k] >= 0.0
  }

  // ---------------------------------------------------------------------
  // The constructor

  /** Jama's SVD of X_: the singular values, U and V. */
  datatype Decomposition = Decomposition(values: seq<real>, u: Mat, v: Mat)

  /** The shapes Jama gives an m × n matrix with m ≥ n: n singular values,
      U of m × n and V of n × n. */
  predicate ThinShape(svd: Decomposition, m: nat, n: nat)
  {
    |svd.values| == n && svd.u.rows == m && svd.u.cols == n && svd.v.rows == n && svd.v.cols == n
  }

  /** Whether one of calcSVD's three getMatrix calls reaches beyond its
      matrix when cutting S, U (m rows) and V (n rows) to ncomp columns. */
  predicate OutOfRange(svd: Decomposition, m: nat, n: nat, ncomp: nat)
  {
    ncomp > 0 &&
    (ncomp > |svd.values| ||
     (m > 0 && (m > svd.u.rows || ncomp > svd.u.cols)) ||
     (n > 0 && (n > svd.v.rows || ncomp > svd.v.cols)))
  }

  /** The fields of a constructed PCA. DModX is kept as its column of
      entries, each Err(NotFinite) where the double division yields an
      infinity or NaN. */
  datatype Pca = Pca(
    ncomp: nat,
    x: Mat,
    evals: seq<real>,
    s: Mat,
    u: Mat,
    v: Mat,
    t: Mat,
    xres: Mat,
    tt: Mat,
    dmodx: seq<Result<real>>)

  /** The entry calcDModX stores for row i of Xres: its sum of squares over
      the int divisor nSamples − ncomp − 1, not finite when that is 0. */
  function DModXEntry(xres: Mat, ncomp: int, i: int): Result<real>
    requires 0 <= i < xres.rows
  {
    var div := xres.rows - ncomp - 1;
    if div == 0 then Err(NotFinite) else Ok(SumSq(RowValues(xres, i)) / div as real)
  }

  /** calcDModX: one entry per row of Xres. */
  function DModXColumn(xres: Mat, ncomp: int): (d: seq<Result<real>>)
    ensures |d| == xres.rows
    ensures forall i :: 0 <= i < xres.rows ==> d[i] == DModXEntry(xres, ncomp, i)
  {
    seq(xres.rows, i requires 0 <= i < xres.rows => DModXEntry(xres, ncomp, i))
  }

  /** The shapes calcSVD gives the fields: S and TT of ncomp × ncomp, U and
      T of R × ncomp, V of C × ncomp, Xres of R × C and one DModX entry per
      sample, for the prepared data x of R × C. */
  predicate Shaped(p: Pca)
  {
    p.s.rows == p.ncomp && p.s.cols == p.ncomp &&
    p.u.rows == p.x.rows && p.u.cols == p.ncomp &&
    p.v.rows == p.x.cols && p.v.cols == p.ncomp &&
    p.t.rows == p.x.rows && p.t.cols == p.ncomp &&
    p.xres.SameShape(p.x) &&
    p.tt.rows == p.ncomp && p.tt.cols == p.ncomp &&
    |p.dmodx| == p.x.rows
  }

  /** The scores T = U·S, with S diagonal. */
  ghost predicate ScoresOf(p: Pca)
  {
    Shaped(p) && IsDiagonal(p.s) &&
    forall i, k :: p.t.Has(i, k) ==> Get(p.t, i, k) == Get(p.u, i, k) * Get(p.s, k, k)
  }

  /** The residuals Xres = T·Vᵀ − X_. */
  ghost predicate ResidualsOf(p: Pca)
  {
    Shaped(p) &&
    forall i, j :: p.x.Has(i, j) ==>
      Get(p.xres, i, j) == Dot(RowValues(p.t, i), RowValues(p.v, j)) - Get(p.x, i, j)
  }

  /** TT = Tᵀ·T. */
  ghost predicate GramOf(p: Pca)
  {
    Shaped(p) &&
    forall i, k :: p.tt.Has(i, k) ==> Get(p.tt, i, k) == Dot(ColumnValues(p.t, i), ColumnValues(p.t, k))
  }

  /** DModX as calcDModX computes it from Xres. */
  ghost predicate DModXOf(p: Pca)
  {
    Shaped(p) &&
    forall i :: 0 <= i < |p.dmodx| ==> p.dmodx[i] == DModXEntry(p.xres, p.ncomp, i)
  }

  /** What calcSVD reads off the decomposition: one eigenvalue per singular
      value, the snapped values on the diagonal of S, and the leading
      columns of U and V. */
  ghost predicate CutOf(p: Pca, svd: Decomposition)
  {
    Shaped(p) && p.ncomp <= |svd.values| && |p.evals| == |svd.values| &&
    (forall k :: 0 <= k < |svd.values| ==> p.evals[k] == Sq(Snap(svd.values[k]))) &&
    (forall k :: 0 <= k < p.ncomp ==> Get(p.s, k, k) == Snap(svd.values[k])) &&
    (forall i, k :: p.u.Has(i, k) ==> svd.u.Has(i, k) && Get(p.u, i, k) == Get(svd.u, i, k)) &&
    (forall j, k :: p.v.Has(j, k) ==> svd.v.Has(j, k) && Get(p.v, j, k) == Get(svd.v, j, k))
  }

  /** calcSVD() on the prepared data X_. A negative ncomp fails in the first
      getMatrix, which allocates a negative size; a cut beyond S, U or V
      fails with an index error. */
  function CalcSvd(xp: Mat, ncomp: int, svd: Decomposition): (r: Result<Pca>)
    ensures r.Err? <==> ncomp < 0 || OutOfRange(svd, xp.rows, xp.cols, ncomp)
    ensures r.Err? ==> r.error == if ncomp < 0 then NegativeSize else IndexOutOfRange
    ensures r.Ok? ==> r.value.ncomp == ncomp && r.value.x == xp && Shaped(r.value)
  {
    if ncomp < 0 then Err(NegativeSize)
    else
      var d := svd.values;
      var s :- Block(Singular(d), ncomp, ncomp);
      var u :- Block(svd.u, xp.rows, ncomp);
      var v :- Block(svd.v, xp.cols, ncomp);
      SnapCut(d, s);
      var t := Scores(u, s);
      var xres := Residuals(t, v, xp);
      var p := Pca(ncomp, xp, EvalsLoop(d, |d|), s, u, v, t, xres, Gram(t), []);
      Ok(p.(dmodx := DModXColumn(p.xres, p.ncomp)))
  }

  /** The fields calcSVD computes from the cut S, U and V. */
  ghost predicate Built(p: Pca)
  {
    Shaped(p) && IsDiagonal(p.s) && p.t == Scores(p.u, p.s) &&
    p.xres == Residuals(p.t, p.v, p.x) && p.tt == Gram(p.t) && DModXOf(p)
  }

  /** The fields calcSVD takes from the decomposition. */
  ghost predicate Taken(p: Pca, svd: Decomposition)
  {
    Block(Singular(svd.values), p.ncomp, p.ncomp) == Ok(p.s) &&
    Block(svd.u, p.x.rows, p.ncomp) == Ok(p.u) &&
    Block(svd.v, p.x.cols, p.ncomp) == Ok(p.v) &&
    p.evals == EvalsLoop(svd.values, |svd.values|)
  }

  /** calcSVD spelled out. */
  lemma CalcSvdParts(xp: Mat, ncomp: int, svd: Decomposition)
    requires CalcSvd(xp, ncomp, svd).Ok?
    ensures Built(CalcSvd(xp, ncomp, svd).value)
    ensures Taken(CalcSvd(xp, ncomp, svd).value, svd)
  {
  }

  lemma BuiltFields(p: Pca)
    requires Built(p)
    ensures ScoresOf(p) && ResidualsOf(p) && GramOf(p) && DModXOf(p)
  {
  }

  lemma TakenCut(p: Pca, svd: Decomposition)
    requires Shaped(p) && Taken(p, svd)
    ensures CutOf(p, svd) && NonNegative(p.evals)
  {
    EvalsNonNegative(svd.values);
    SnapCut(svd.values, p.s);
  }

  /** T = U·S, Xres = T·Vᵀ − X_, TT = Tᵀ·T and DModX from Xres. */
  lemma CalcSvdFields(xp: Mat, ncomp: int, svd: Decomposition)
    requires CalcSvd(xp, ncomp, svd).Ok?
    ensures var p := CalcSvd(xp, ncomp, svd).value;
      ScoresOf(p) && ResidualsOf(p) && GramOf(p) && DModXOf(p)
  {
    CalcSvdParts(xp, ncomp, svd);
    BuiltFields(CalcSvd(xp, ncomp, svd).value);
  }

  /** The eigenvalues and the cut S, U and V come from the decomposition, and
      no eigenvalue is negative. */
  lemma CalcSvdCut(xp: Mat, ncomp: int, svd: Decomposition)
    requires CalcSvd(xp, ncomp, svd).Ok?
    ensures var p := CalcSvd(xp, ncomp, svd).value;
      CutOf(p, svd) && NonNegative(p.evals)
  {
    CalcSvdParts(xp, ncomp, svd);
    TakenCut(CalcSvd(xp, ncomp, svd).value, svd);
  }

  /** Cell (i, k) of the scores is U[i][k] of the decomposition times the
      k-th snapped singular value. */
  lemma ScoresOfSvd(p: Pca, svd: Decomposition)
    requires ScoresOf(p) && CutOf(p, svd)
    ensures forall i, k :: p.t.Has(i, k) ==>
      svd.u.Has(i, k) && Get(p.t, i, k) == Get(svd.u, i, k) * Snap(svd.values[k])
  {
  }

  /** The cut of the snapped S is diagonal, with the snapped values on its diagonal. */
  lemma SnapCut(d: seq<real>, s: Mat)
    requires s.rows == s.cols <= |d|
    requires forall i, k :: s.Has(i, k) ==> Get(s, i, k) == Get(Singular(d), i, k)
    ensures IsDiagonal(s)
    ensures forall k :: 0 <= k < s.rows ==> Get(s, k, k) == Snap(d[k])
  {
  }

  lemma SnapCell(d: seq<real>, l: int, k: int)
    requires 0 <= l < |d| && 0 <= k < |d|
    ensures Get(SnapLoop(d, |d|), l, k) == if l != k then 0.0 else Snap(d[l])
  {
  }

  /** T = U.times(S) for the diagonal S: column k of U scaled by S[k][k]. */
  function Scores(u: Mat, s: Mat): (t: Mat)
    requires u.cols == s.rows == s.cols && IsDiagonal(s)
    ensures t.rows == u.rows && t.cols == s.cols
    ensures forall i, k :: t.Has(i, k) ==> Get(t, i, k) == Get(u, i, k) * Get(s, k, k)
  {
    DiagonalProduct(u, s);
    Product(u, s).value
  }

  /** Xres = T.times(V.transpose()).minus(X_). */
  function Residuals(t: Mat, v: Mat, xp: Mat): (r: Mat)
    requires t.cols == v.cols && t.rows == xp.rows && v.rows == xp.cols
    ensures r.SameShape(xp)
    ensures forall i, j :: xp.Has(i, j) ==>
      Get(r, i, j) == Dot(RowValues(t, i), RowValues(v, j)) - Get(xp, i, j)
  {
    OuterProduct(t, v);
    Difference(Product(t, Transpose(v)).value, xp).value
  }

  /** TT = T.transpose().times(T). */
  function Gram(t: Mat): (tt: Mat)
    ensures tt.rows == t.cols && tt.cols == t.cols
    ensures forall i, k :: tt.Has(i, k) ==> Get(tt, i, k) == Dot(ColumnValues(t, i), ColumnValues(t, k))
  {
    GramProduct(t);
    Product(Transpose(t), t).value
  }

  lemma EvalsNonNegative(d: seq<real>)
    ensures NonNegative(EvalsLoop(d, |d|))
  {
    var e := EvalsLoop(d, |d|);
    forall k | 0 <= k < |d| ensures e[k] >= 0.0 {
      SnapSquare(d[k]);
    }
  }

  /** new PCA(X, ncomp, standardize): calcSVD on the prepared copy X_, whose
      columns all have mean 0. Copying a matrix without rows already fails,
      as Jama's array constructor reads the length of row 0. */
  function New(x: Mat, ncomp: int, standardize: bool, svd: Decomposition, sqrt: real -> real): (r: Result<Pca>)
    requires IsSqrt(sqrt)
    ensures r.Err? <==> x.rows == 0 || ncomp < 0 || OutOfRange(svd, x.rows, x.cols, ncomp)
    ensures x.rows == 0 ==> r == Err(IndexOutOfRange)
    ensures r.Ok? ==> r.value.x == Prepare(x, standardize, sqrt)
    ensures r.Ok? ==> forall j :: 0 <= j < x.cols ==> ColumnMean(r.value.x, j) == 0.0
  {
    if x.rows == 0 then Err(IndexOutOfRange)
    else
      var xp := Prepare(x, standardize, sqrt);
      assert forall j :: 0 <= j < x.cols ==> ColumnMean(xp, j) == 0.0 by {
        forall j | 0 <= j < x.cols ensures ColumnMean(xp, j) == 0.0 {
          PreparedMean(x, standardize, sqrt, j);
        }
      }
      CalcSvd(xp, ncomp, svd)
  }

  /** With Jama's thin shapes calcSVD fails exactly for a negative ncomp or
      one beyond the number of columns. */
  lemma ThinCut(xp: Mat, ncomp: int, svd: Decomposition)
    requires ThinShape(svd, xp.rows, xp.cols)
    ensures CalcSvd(xp, ncomp, svd).Err? <==> ncomp < 0 || ncomp > xp.cols
  {
  }

  /** With Jama's thin shapes the constructor fails exactly for data without
      rows, a negative ncomp or one beyond the number of columns. */
  lemma ThinErrors(x: Mat, ncomp: int, standardize: bool, svd: Decomposition, sqrt: real -> real)
    requires IsSqrt(sqrt) && ThinShape(svd, x.rows, x.cols)
    ensures New(x, ncomp, standardize, svd, sqrt).Err? <==> x.rows == 0 || ncomp < 0 || ncomp > x.cols
  {
  }

  // ---------------------------------------------------------------------
  // The accessors

  /** getEval(i): the i-th entry of evals. */
  function Eval(p: Pca, i: int): (r: Result<real>)
    ensures r.Err? <==> !(0 <= i < |p.evals|)
    ensures r.Err? ==> r.error == IndexOutOfRange
    ensures r.Ok? ==> r.value == p.evals[i]
  {
    if 0 <= i < |p.evals| then Ok(p.evals[i]) else Err(IndexOutOfRange)
  }

  /** Every singular value has its eigenvalue, also beyond ncomp: the square
      of the value, or zero when the value is below the cut. */
  lemma EvalOfSingular(p: Pca, svd: Decomposition, i: int)
    requires CutOf(p, svd)
    ensures var e := Eval(p, i);
      (e.Ok? <==> 0 <= i < |svd.values|) &&
      (e.Ok? ==> e.value >= 0.0 && (e.value == 0.0 <==> Abs(svd.values[i]) < Tiny)) &&
      (e.Ok? && Abs(svd.values[i]) >= Tiny ==> e.value == Sq(svd.values[i]))
  {
    if 0 <= i < |svd.values| {
      SnapSquare(svd.values[i]);
    }
  }

  /** getDModX(i): entry i of the DModX column. */
  function DModXAt(p: Pca, i: int): (r: Result<real>)
    ensures !(0 <= i < |p.dmodx|) ==> r == Err(IndexOutOfRange)
    ensures 0 <= i < |p.dmodx| ==> r == p.dmodx[i]
  {
    if 0 <= i < |p.dmodx| then p.dmodx[i] else Err(IndexOutOfRange)
  }

  /** DModX of a data point is its squared distance to the model plane over
      the degrees of freedom R − ncomp − 1: not finite when that is 0, never
      negative when it is positive, and never positive when it is negative. */
  lemma DModXOfResidual(p: Pca, i: int)
    requires DModXOf(p)
    ensures var d := DModXAt(p, i);
      var dof := p.x.rows - p.ncomp - 1;
      (!(0 <= i < p.x.rows) ==> d == Err(IndexOutOfRange)) &&
      (0 <= i < p.x.rows && dof == 0 ==> d == Err(NotFinite)) &&
      (0 <= i < p.x.rows && dof != 0 ==>
        d.Ok? && d.value * dof as real == SumSq(RowValues(p.xres, i)) &&
        (dof > 0 ==> d.value >= 0.0) && (dof < 0 ==> d.value <= 0.0))
  {
    var dof := p.x.rows - p.ncomp - 1;
    if 0 <= i < p.x.rows && dof != 0 {
      var e := SumSq(RowValues(p.xres, i));
      RatioTimes(e / dof as real, e, e, dof as real);
      if dof > 0 {
        NonNegativeRatio(e, dof as real);
      } else {
        NegativeRatio(e, dof as real);
      }
    }
  }

  lemma NegativeRatio(x: real, d: real)
    requires x >= 0.0 && d < 0.0
    ensures x / d <= 0.0
  {
    assert x / d == -(x / -d);
    NonNegativeRatio(x, -d);
  }

  /** getTval(i): the diagonal cell (i, i) of TT. */
  function Tval(p: Pca, i: int): (r: Result<real>)
    ensures r.Err? <==> !p.tt.Has(i, i)
    ensures r.Err? ==> r.error == IndexOutOfRange
    ensures r.Ok? ==> r.value == Get(p.tt, i, i)
  {
    if p.tt.Has(i, i) then Ok(Get(p.tt, i, i)) else Err(IndexOutOfRange)
  }

  /** The i-th diagonal cell of TᵀT is the sum of squares of the i-th score
      column, so it is defined for the ncomp components and never negative. */
  lemma TvalSpread(p: Pca, i: int)
    requires GramOf(p)
    ensures var r := Tval(p, i);
      (r.Ok? <==> 0 <= i < p.ncomp) &&
      (r.Ok? ==> r.value == SumSq(ColumnValues(p.t, i)) && r.value >= 0.0)
  {
    if 0 <= i < p.ncomp {
      SumSqIsDot(ColumnValues(p.t, i));
    }
  }

  /** When column i of U has unit length, as the columns of an orthogonal
      U do, the Hotelling statistic of component i is its eigenvalue. */
  lemma {:induction false} TvalIsEval(p: Pca, svd: Decomposition, i: int)
    requires ScoresOf(p) && GramOf(p) && CutOf(p, svd)
    requires ThinShape(svd, p.x.rows, p.x.cols) && 0 <= i < p.ncomp
    requires SumSq(ColumnValues(svd.u, i)) == 1.0
    ensures Tval(p, i) == Eval(p, i)
  {
    var w := Snap(svd.values[i]);
    var col := ColumnValues(svd.u, i);
    TvalSpread(p, i);
    ScoreColumn(p, svd, i);
    SumSqScale(col, w);
    assert Tval(p, i).value == SumSq(ColumnValues(p.t, i));
    UnitFactor(SumSq(col), w * w);
    assert SumSq(ColumnValues(p.t, i)) == SumSq(Scale(col, w));
    assert SumSq(Scale(col, w)) == SumSq(col) * (w * w);
    assert SumSq(col) * (w * w) == w * w;
    assert Tval(p, i).Ok?;
    assert Tval(p, i).value == w * w == Eval(p, i).value;
  }

  lemma UnitFactor(a: real, x: real)
    requires a == 1.0
    ensures a * x == x
  {
  }

  /** Column i of the scores is column i of U scaled by the i-th snapped
      singular value. */
  lemma ScoreColumn(p: Pca, svd: Decomposition, i: int)
    requires ScoresOf(p) && CutOf(p, svd)
    requires ThinShape(svd, p.x.rows, p.x.cols) && 0 <= i < p.ncomp
    ensures ColumnValues(p.t, i) == Scale(ColumnValues(svd.u, i), Snap(svd.values[i]))
  {
    var w := Snap(svd.values[i]);
    var col := ColumnValues(svd.u, i);
    ScoresOfSvd(p, svd);
    forall k | 0 <= k < p.x.rows ensures ColumnValues(p.t, i)[k] == Scale(col, w)[k] {
      assert Get(p.t, k, i) == Get(svd.u, k, i) * w;
    }
  }

  // ---------------------------------------------------------------------
  // A model that reproduces the data

  /** Row i of U·S with the singular values as Jama returns them. */
  function Weighted(svd: Decomposition, i: int): (w: seq<real>)
    requires 0 <= i < svd.u.rows && |svd.values| <= svd.u.cols
    ensures |w| == |svd.values|
    ensures forall k :: 0 <= k < |w| ==> w[k] == Get(svd.u, i, k) * svd.values[k]
  {
    seq(|svd.values|, k requires 0 <= k < |svd.values| => Get(svd.u, i, k) * svd.values[k])
  }

  /** The decomposition multiplies back to the prepared data: U·S·Vᵀ = X_. */
  ghost predicate Reproduces(svd: Decomposition, xp: Mat)
  {
    ThinShape(svd, xp.rows, xp.cols) &&
    forall i, j :: xp.Has(i, j) ==> Dot(Weighted(svd, i), RowValues(svd.v, j)) == Get(xp, i, j)
  }

  /** No singular value lies below the cut. */
  predicate Unsnapped(svd: Decomposition)
  {
    forall k :: 0 <= k < |svd.values| ==> Snap(svd.values[k]) == svd.values[k]
  }

  /** Keeping every component of an exact decomposition none of whose
      singular values is snapped leaves no residual: Xres is zero and so
      is DModX wherever it is finite. */
  lemma {:induction false} FullModelResidual(p: Pca, svd: Decomposition)
    requires ScoresOf(p) && ResidualsOf(p) && DModXOf(p) && CutOf(p, svd)
    requires Reproduces(svd, p.x) && Unsnapped(svd) && p.ncomp == p.x.cols
    ensures p.xres == Zeros(p.x.rows, p.x.cols)
    ensures forall i :: 0 <= i < p.x.rows && p.x.rows != p.x.cols + 1 ==> DModXAt(p, i) == Ok(0.0)
  {
    forall i, j | p.x.Has(i, j) ensures Get(p.xres, i, j) == 0.0 {
      WeightedRow(p, svd, i);
      assert RowValues(p.v, j) == RowValues(svd.v, j);
    }
    Ext(p.xres, Zeros(p.x.rows, p.x.cols));
    forall i | 0 <= i < p.x.rows && p.x.rows != p.x.cols + 1 ensures DModXAt(p, i) == Ok(0.0) {
      ZeroRowEntry(p.xres, p.ncomp, i);
    }
  }

  /** A zero row of Xres has DModX entry 0 whenever the divisor is not 0. */
  lemma ZeroRowEntry(xres: Mat, ncomp: int, i: int)
    requires xres == Zeros(xres.rows, xres.cols) && 0 <= i < xres.rows && xres.rows - ncomp - 1 != 0
    ensures DModXEntry(xres, ncomp, i) == Ok(0.0)
  {
    SumSqZero(RowValues(xres, i));
  }

  /** With every component kept and none snapped, row i of the scores is
      row i of U weighted by the singular values. */
  lemma {:induction false} WeightedRow(p: Pca, svd: Decomposition, i: int)
    requires ScoresOf(p) && CutOf(p, svd) && Unsnapped(svd) && ThinShape(svd, p.x.rows, p.x.cols)
    requires p.ncomp == p.x.cols && 0 <= i < p.x.rows
    ensures RowValues(p.t, i) == Weighted(svd, i)
  {
    forall k | 0 <= k < p.ncomp ensures RowValues(p.t, i)[k] == Weighted(svd, i)[k] {
      ScoreCell(p, svd, i, k);
    }
  }

  lemma ScoreCell(p: Pca, svd: Decomposition, i: int, k: int)
    requires ScoresOf(p) && CutOf(p, svd) && p.t.Has(i, k)
    ensures svd.u.Has(i, k) && Get(p.t, i, k) == Get(svd.u, i, k) * Snap(svd.values[k])
  {
  }

  /** calcSVD with all components of an exact decomposition whose singular
      values are all kept succeeds and leaves a zero residual. */
  lemma FullModel(xp: Mat, svd: Decomposition)
    requires Reproduces(svd, xp) && Unsnapped(svd)
    ensures CalcSvd(xp, xp.cols, svd).Ok?
    ensures CalcSvd(xp, xp.cols, svd).value.xres == Zeros(xp.rows, xp.cols)
  {
    ThinCut(xp, xp.cols, svd);
    CalcSvdFields(xp, xp.cols, svd);
    CalcSvdCut(xp, xp.cols, svd);
    FullModelResidual(CalcSvd(xp, xp.cols, svd).value, svd);
  }

  // ---------------------------------------------------------------------
  // Goodness of fit

  /** getGoodnessOfFit(dim): the share of the first dim eigenvalues in their
      total. A dim beyond evals reads past the list; a total of zero makes
      the double quotient NaN or infinite. */
  function GoodnessOfFit(p: Pca, dim: int): (r: Result<real>)
    ensures r.Err? <==> dim > |p.evals| || Sum(p.evals) == 0.0
    ensures dim > |p.evals| ==> r == Err(IndexOutOfRange)
    ensures r.Ok? ==> r.value * Sum(p.evals) == Sum(p.evals[..if dim < 0 then 0 else dim])
  {
    var total := Sum(p.evals);
    if dim > |p.evals| then Err(IndexOutOfRange)
    else
      var part := Sum(p.evals[..if dim < 0 then 0 else dim]);
      if total == 0.0 then Err(NotFinite) else Ok(part / total)
  }

  /** Over non-negative entries, a longer prefix has the larger sum. */
  lemma {:induction false} PrefixSumMonotone(s: seq<real>, a: int, b: int)
    requires NonNegative(s) && 0 <= a <= b <= |s|
    ensures 0.0 <= Sum(s[..a]) <= Sum(s[..b])
  {
    if b > a {
      PrefixSumMonotone(s, a, b - 1);
      assert s[..b][..b - 1] == s[..b - 1];
      SumLast(s[..b]);
    } else if a > 0 {
      PrefixSumMonotone(s, a - 1, a);
    }
  }

  /** With non-negative eigenvalues the goodness of fit is a share: between
      0 and 1, 0 for no component and 1 for all of them. */
  lemma {:induction false} GoodnessShare(p: Pca, dim: int)
    requires NonNegative(p.evals)
    ensures GoodnessOfFit(p, dim).Ok? ==> 0.0 <= GoodnessOfFit(p, dim).value <= 1.0
    ensures Sum(p.evals) != 0.0 ==> GoodnessOfFit(p, 0) == Ok(0.0)
    ensures Sum(p.evals) != 0.0 ==> GoodnessOfFit(p, |p.evals|) == Ok(1.0)
  {
    var total := Sum(p.evals);
    assert p.evals[..|p.evals|] == p.evals;
    assert p.evals[..0] == [];
    if total != 0.0 {
      SelfRatio(total);
    }
    if GoodnessOfFit(p, dim).Ok? {
      var d := if dim < 0 then 0 else dim;
      PrefixSumMonotone(p.evals, d, |p.evals|);
      PrefixSumMonotone(p.evals, 0, d);
      assert p.evals[..0] == [];
      UnitRatio(Sum(p.evals[..d]), total);
    }
  }

  /** Taking more components never lowers the goodness of fit. */
  lemma {:induction false} GoodnessMonotone(p: Pca, d1: int, d2: int)
    requires NonNegative(p.evals) && d1 <= d2
    requires GoodnessOfFit(p, d2).Ok?
    ensures GoodnessOfFit(p, d1).Ok?
    ensures GoodnessOfFit(p, d1).value <= GoodnessOfFit(p, d2).value
  {
    var total := Sum(p.evals);
    var a := if d1 < 0 then 0 else d1;
    var b := if d2 < 0 then 0 else d2;
    PrefixSumMonotone(p.evals, a, b);
    PrefixSumMonotone(p.evals, b, |p.evals|);
    assert p.evals[..|p.evals|] == p.evals;
    RatioMonotone(Sum(p.evals[..a]), Sum(p.evals[..b]), total);
  }

  lemma SelfRatio(x: real)
    requires x != 0.0
    ensures x / x == 1.0 && 0.0 / x == 0.0
  {
  }

  lemma RatioMonotone(x: real, y: real, d: real)
    requires x <= y && d > 0.0
    ensures x / d <= y / d
  {
  }

  // ---------------------------------------------------------------------
  // Residual variance

  /** The int divisor (R − ncomp − 1)·(C − ncomp) of getVarE. */
  function VarEDivisor(p: Pca): int
  {
    Mul(Sub(Sub(p.xres.rows, p.ncomp), 1), Sub(p.xres.cols, p.ncomp))
  }

  /** getVarE(): the variance of all residual cells, times the int R·C − 1,
      over the int (R − ncomp − 1)·(C − ncomp). */
  function VarE(p: Pca): (r: Result<real>)
    ensures r.Err? ==> r.error == NotFinite
  {
    VarERatio(Var(Elements(p.xres)), Sub(Mul(p.xres.rows, p.xres.cols), 1), VarEDivisor(p))
  }

  /** The variance v times the int count over the int div. */
  function VarERatio(v: Result<real>, count: int, div: int): Result<real>
  {
    match v
    case Err(_) => Err(NotFinite)
    case Ok(s) => if div == 0 then Err(NotFinite) else Ok(s * count as real / div as real)
  }

  /** getVarE() is not finite exactly when Xres is a single cell (var is
      0/0) or the int divisor is 0. */
  lemma VarEFails(p: Pca)
    ensures VarE(p).Err? <==> (p.xres.rows == 1 && p.xres.cols == 1) || VarEDivisor(p) == 0
  {
    ElementsLength(p.xres);
  }

  lemma ElementsLength(m: Mat)
    ensures |Elements(m)| == m.rows * m.cols
    ensures |Elements(m)| == 1 <==> m.rows == 1 && m.cols == 1
  {
    ElementsPrefixLength(m, m.rows);
    if m.rows * m.cols == 1 {
      assert m.rows != 0 && m.cols != 0;
      MulAtLeast(m.rows, m.cols);
      MulAtLeast(m.cols, m.rows);
    }
  }

  /** Without int overflow, getVarE is the residual sum of squares about
      the residuals' mean over the degrees of freedom (R − ncomp − 1)·(C − ncomp). */
  lemma {:induction false} VarEResidualSpread(p: Pca)
    requires p.xres.rows * p.xres.cols >= 2
    requires InRange(p.xres.rows) && InRange(p.xres.rows * p.xres.cols)
    requires InRange(p.xres.rows - p.ncomp - 1) && InRange(p.xres.cols - p.ncomp)
    requires InRange((p.xres.rows - p.ncomp - 1) * (p.xres.cols - p.ncomp))
    requires (p.xres.rows - p.ncomp - 1) * (p.xres.cols - p.ncomp) != 0
    ensures VarE(p) == Ok(SumSq(Deviations(Elements(p.xres))) /
      ((p.xres.rows - p.ncomp - 1) * (p.xres.cols - p.ncomp)) as real)
  {
    var n := p.xres.rows * p.xres.cols;
    var div := (p.xres.rows - p.ncomp - 1) * (p.xres.cols - p.ncomp);
    ElementsPrefixLength(p.xres, p.xres.rows);
    VarEInts(p);
    VarEUnfold(p, n - 1, div);
    SeriesSpread(Elements(p.xres), n, div, SumSq(Deviations(Elements(p.xres))));
  }

  /** getVarE() with its two int factors given. */
  lemma VarEUnfold(p: Pca, count: int, div: int)
    requires Sub(Mul(p.xres.rows, p.xres.cols), 1) == count && VarEDivisor(p) == div
    ensures VarE(p) == VarERatio(Var(Elements(p.xres)), count, div)
  {
  }

  /** var of n ≥ 2 values times n − 1, over div: their sum of squared
      deviations over div. */
  lemma SeriesSpread(es: seq<real>, n: int, div: int, y: real)
    requires |es| == n && n >= 2 && div != 0 && y == SumSq(Deviations(es))
    ensures VarERatio(Var(es), n - 1, div) == Ok(y / div as real)
  {
    VarOfLength(es, n);
    RatioOk(Var(es), n - 1, div);
    CancelCount(Var(es).value, (n - 1) as real, div as real, y);
  }

  lemma RatioOk(v: Result<real>, count: int, div: int)
    requires v.Ok? && div != 0
    ensures VarERatio(v, count, div) == Ok(v.value * count as real / div as real)
  {
  }

  lemma CancelCount(v: real, c: real, d: real, y: real)
    requires v * c == y && d != 0.0
    ensures v * c / d == y / d
  {
  }

  /** var of n ≥ 2 values, times n − 1, is their sum of squared deviations. */
  lemma VarOfLength(s: seq<real>, n: int)
    requires |s| == n && n >= 2
    ensures Var(s).Ok? && Var(s).value * (n - 1) as real == SumSq(Deviations(s))
  {
  }

  /** Without overflow the two int factors of getVarE are exact. */
  lemma VarEInts(p: Pca)
    requires InRange(p.xres.rows) && InRange(p.xres.rows * p.xres.cols)
    requires InRange(p.xres.rows - p.ncomp - 1) && InRange(p.xres.cols - p.ncomp)
    requires InRange((p.xres.rows - p.ncomp - 1) * (p.xres.cols - p.ncomp))
    ensures VarEDivisor(p) == (p.xres.rows - p.ncomp - 1) * (p.xres.cols - p.ncomp)
    ensures p.xres.rows * p.xres.cols >= 1 ==> Sub(Mul(p.xres.rows, p.xres.cols), 1) == p.xres.rows * p.xres.cols - 1
  {
    assert InRange(p.xres.rows - p.ncomp);
  }

  lemma RatioTimes(v: real, x: real, y: real, d: real)
    requires d != 0.0 && v == x / d && x == y
    ensures v * d == y
  {
  }

  // ---------------------------------------------------------------------
  // The Hotelling parameter

  /** The factor 2·(I·I − 1)/(I·(I − 2)) of getHotellingParam, evaluated
      in Java int arithmetic: every product wraps and the quotient is
      truncated. */
  function HotellingFactor(rows: int): (r: Result<int>)
    requires InRange(rows)
    ensures r.Err? <==> Mul(rows, Sub(rows, 2)) == 0
    ensures r.Err? ==> r.error == ArithmeticError
  {
    Quot(Mul(2, Sub(Mul(rows, rows), 1)), Mul(rows, Sub(rows, 2)))
  }

  /** getHotellingParam(dim): sqrt(var(T[:, dim])·3·factor). The column is
      read before the int factor is evaluated; a NaN variance (one row) or a
      negative radicand gives a non-finite result. */
  function HotellingParam(p: Pca, dim: int, sqrt: real -> real): (r: Result<real>)
    requires IsSqrt(sqrt) && InRange(p.x.rows)
    ensures ColumnIterator(p.t, dim).Err? ==> r == Err(IndexOutOfRange)
    ensures ColumnIterator(p.t, dim).Ok? && HotellingFactor(p.x.rows).Err? ==> r == Err(ArithmeticError)
    ensures r.Ok? ==>
      ColumnIterator(p.t, dim).Ok? && HotellingFactor(p.x.rows).Ok? && Var(ColumnIterator(p.t, dim).value).Ok?
    ensures r.Ok? ==> (r.value >= 0.0 &&
      Sq(r.value) == Radicand(Var(ColumnIterator(p.t, dim).value).value, HotellingFactor(p.x.rows).value as real))
    ensures ColumnIterator(p.t, dim).Ok? && HotellingFactor(p.x.rows).Ok? ==>
      (r.Ok? <==> (Var(ColumnIterator(p.t, dim).value).Ok? &&
        Radicand(Var(ColumnIterator(p.t, dim).value).value, HotellingFactor(p.x.rows).value as real) >= 0.0))
  {
    var col := ColumnIterator(p.t, dim);
    if col.Err? then Err(col.error)
    else
      var factor := HotellingFactor(p.x.rows);
      if factor.Err? then Err(factor.error)
      else Radical(Var(col.value), factor.value as real, sqrt)
  }

  /** The argument var·fc·factor of the square root, with fc = 3. */
  function Radicand(v: real, factor: real): real
  {
    v * 3.0 * factor
  }

  /** Math.sqrt(var·fc·factor): NaN for a NaN variance or a negative
      radicand, otherwise the non-negative root. */
  function Radical(v: Result<real>, factor: real, sqrt: real -> real): (r: Result<real>)
    requires IsSqrt(sqrt)
    ensures r.Ok? <==> v.Ok? && Radicand(v.value, factor) >= 0.0
    ensures r.Err? ==> r.error == NotFinite
    ensures r.Ok? ==> r.value >= 0.0 && Sq(r.value) == Radicand(v.value, factor)
  {
    if v.Err? then Err(NotFinite)
    else
      var a := Radicand(v.value, factor);
      if a < 0.0 then Err(NotFinite)
      else
        SqrtSquare(sqrt, a);
        Ok(sqrt(a))
  }

  /** For 6 up to 32768 samples the int factor is always 2. */
  lemma HotellingFactorTwo(rows: int)
    requires 6 <= rows <= 32768
    ensures HotellingFactor(rows) == Ok(2)
  {
    var num := 2 * (rows * rows - 1);
    var den := rows * (rows - 2);
    SquareBound(rows);
    assert Mul(rows, rows) == rows * rows;
    assert Mul(2, Sub(Mul(rows, rows), 1)) == num;
    assert Mul(rows, Sub(rows, 2)) == den;
    FactorBounds(rows);
    QuotTruncates(num, den);
    var q := HotellingFactor(rows).value;
    QuotUnique(num, den, q, 2);
  }

  lemma SquareBound(rows: int)
    requires 6 <= rows <= 32768
    ensures 0 < rows * (rows - 2) < rows * rows <= 0x4000_0000
  {
    MulAtLeast(rows, rows - 2);
    assert rows * rows <= 32768 * rows <= 32768 * 32768 by {
      MulMonoInt(rows, 32768, rows);
      MulMonoInt(rows, 32768, 32768);
    }
  }

  lemma MulMonoInt(a: int, b: int, k: int)
    requires a <= b && k >= 0
    ensures a * k <= b * k
  {
    MulNonNeg(b - a, k);
  }

  /** 2·den ≤ num < 3·den, with num = 2(I² − 1) and den = I(I − 2), for I ≥ 6. */
  lemma FactorBounds(rows: int)
    requires rows >= 6
    ensures 0 <= 2 * (rows * rows - 1) - 2 * (rows * (rows - 2)) < rows * (rows - 2)
  {
    assert rows * (rows - 2) == rows * rows - 2 * rows;
    assert (rows - 6) * rows >= 0 by {
      MulNonNeg(rows - 6, rows);
    }
  }

  /** With 16 samples the int factor is 2, where the real quotient
      2·255/224 is about 2.28. */
  lemma HotellingTruncates()
    ensures HotellingFactor(16) == Ok(2)
    ensures IntendedFactor(16) == Ok(255.0 / 112.0)
  {
  }

  /** With 40000 samples 2·(I·I − 1) overflows to a negative int and the
      factor becomes 0, where the real quotient exceeds 2. */
  lemma HotellingOverflows()
    ensures HotellingFactor(40000) == Ok(0)
    ensures IntendedFactor(40000).Ok? && IntendedFactor(40000).value > 2.0
  {
    IntendedAboveTwo(40000);
  }

  /** The factor as the formula in the source's comment means it, with the
      MATLAB element-wise division ./ on reals; I·(I − 2) = 0 divides by zero. */
  function IntendedFactor(rows: int): (r: Result<real>)
    ensures r.Err? <==> rows == 0 || rows == 2
    ensures r.Ok? ==> r.value * (rows * (rows - 2)) as real == (2 * (rows * rows - 1)) as real
  {
    var den := rows * (rows - 2);
    if den == 0 then Err(NotFinite)
    else Ok((2 * (rows * rows - 1)) as real / den as real)
  }

  /** For three samples or more the intended factor lies strictly above 2. */
  lemma IntendedAboveTwo(rows: int)
    ensures rows >= 3 ==> IntendedFactor(rows).Ok? && IntendedFactor(rows).value > 2.0
  {
    if rows >= 3 {
      var den := rows * (rows - 2);
      MulAtLeast(rows, rows - 2);
      assert den > 0;
      assert 2 * (rows * rows - 1) > 2 * den;
      AboveRatio((2 * (rows * rows - 1)) as real, den as real);
    }
  }

  lemma AboveRatio(x: real, d: real)
    requires d > 0.0 && x > 2.0 * d
    ensures x / d > 2.0
  {
  }

  /** getHotellingParam with the intended real factor. */
  function HotellingParamIntended(p: Pca, dim: int, sqrt: real -> real): (r: Result<real>)
    requires IsSqrt(sqrt)
    ensures ColumnIterator(p.t, dim).Err? ==> r == Err(IndexOutOfRange)
    ensures r.Ok? ==>
      ColumnIterator(p.t, dim).Ok? && IntendedFactor(p.x.rows).Ok? && Var(ColumnIterator(p.t, dim).value).Ok?
    ensures r.Ok? ==> (r.value >= 0.0 &&
      Sq(r.value) == Radicand(Var(ColumnIterator(p.t, dim).value).value, IntendedFactor(p.x.rows).value))
    ensures ColumnIterator(p.t, dim).Ok? && p.x.rows >= 3 && |ColumnIterator(p.t, dim).value| != 1 ==> r.Ok?
  {
    var col := ColumnIterator(p.t, dim);
    if col.Err? then Err(col.error)
    else
      var factor := IntendedFactor(p.x.rows);
      if factor.Err? then Err(factor.error)
      else
        IntendedAboveTwo(p.x.rows);
        Radical(Var(col.value), factor.value, sqrt)
  }
}

=== FILE: ranking.dfy ===
/** Statistics.sort: pairs every value with its position and sorts the pairs
    by value, ascending or descending, with Collections.sort — a stable sort,
    so equal values keep the order of their positions. */
module Ranking {
  import opened Pairs

  type Ranked = Pair<int, real>

  /** The (index, value) pairs that sort builds before sorting. */
  function Indexed(s: seq<real>): (r: seq<Ranked>)
    ensures |r| == |s|
    ensures forall i :: 0 <= i < |s| ==> r[i] == Pair(i, s[i])
  {
    seq(|s|, i requires 0 <= i < |s| => Pair(i, s[i]))
  }

  /** x may stand before y in the output: its value comes first in the
      requested direction, or the values tie and x's position is not later. */
  predicate InOrder(x: Ranked, y: Ranked, ascending: bool)
  {
    if x.second == y.second then x.first <= y.first
    else if ascending then x.second < y.second
    else x.second > y.second
  }

  predicate Sorted(r: seq<Ranked>, ascending: bool)
  {
    forall i, j :: 0 <= i < j < |r| ==> InOrder(r[i], r[j], ascending)
  }

  lemma InOrderTotal(x: Ranked, y: Ranked, ascending: bool)
    ensures InOrder(x, y, ascending) || InOrder(y, x, ascending)
  {
  }

  lemma InOrderTransitive(x: Ranked, y: Ranked, z: Ranked, ascending: bool)
    requires InOrder(x, y, ascending) && InOrder(y, z, ascending)
    ensures InOrder(x, z, ascending)
  {
  }

  /** Insert x into a sorted sequence at its place. */
  function Insert(x: Ranked, r: seq<Ranked>, ascending: bool): (r': seq<Ranked>)
    requires Sorted(r, ascending)
    ensures multiset(r') == multiset(r) + multiset{x}
    ensures Sorted(r', ascending)
  {
    if |r| == 0 then [x]
    else if InOrder(x, r[0], ascending) then
      InsertFront(x, r, ascending);
      [x] + r
    else
      InOrderTotal(x, r[0], ascending);
      var rest := Insert(x, r[1..], ascending);
      InsertBehind(r[0], rest, r[1..], x, ascending);
      assert r == [r[0]] + r[1..];
      [r[0]] + rest
  }

  lemma InsertFront(x: Ranked, r: seq<Ranked>, ascending: bool)
    requires Sorted(r, ascending) && |r| > 0 && InOrder(x, r[0], ascending)
    ensures Sorted([x] + r, ascending)
  {
    forall j | 0 < j < |r| ensures InOrder(x, r[j], ascending) {
      InOrderTransitive(x, r[0], r[j], ascending);
    }
  }

  lemma InsertBehind(y: Ranked, rest: seq<Ranked>, tail: seq<Ranked>, x: Ranked, ascending: bool)
    requires Sorted(rest, ascending) && Sorted([y] + tail, ascending)
    requires multiset(rest) == multiset(tail) + multiset{x}
    requires InOrder(y, x, ascending)
    ensures Sorted([y] + rest, ascending)
  {
    forall j | 0 <= j < |rest| ensures InOrder(y, rest[j], ascending) {
      assert rest[j] in multiset(rest);
      if rest[j] != x {
        assert rest[j] in multiset(tail);
        assert rest[j] in tail;
        var k :| 0 <= k < |tail| && tail[k] == rest[j];
        assert ([y] + tail)[0] == y && ([y] + tail)[k + 1] == tail[k];
      }
    }
  }

  /** Insertion sort of arbitrary pairs. */
  function SortPairs(ps: seq<Ranked>, ascending: bool): (r: seq<Ranked>)
    ensures multiset(r) == multiset(ps)
    ensures Sorted(r, ascending)
  {
    if |ps| == 0 then []
    else
      assert ps == [ps[0]] + ps[1..];
      Insert(ps[0], SortPairs(ps[1..], ascending), ascending)
  }

  /** Statistics.sort(values, ascending). */
  function Sort(s: seq<real>, ascending: bool): (r: seq<Ranked>)
    ensures |r| == |s|
    ensures multiset(r) == multiset(Indexed(s))
    ensures Sorted(r, ascending)
  {
    var r := SortPairs(Indexed(s), ascending);
    assert |r| == |multiset(r)| == |Indexed(s)|;
    r
  }

  /** Every output pair is some position together with the value found there. */
  lemma {:induction false} SortEntries(s: seq<real>, ascending: bool, k: int)
    requires 0 <= k < |s|
    ensures 0 <= Sort(s, ascending)[k].first < |s|
    ensures Sort(s, ascending)[k].second == s[Sort(s, ascending)[k].first]
  {
    var r := Sort(s, ascending);
    assert r[k] in multiset(Indexed(s));
    var i :| 0 <= i < |s| && Indexed(s)[i] == r[k];
  }

  /** Values come out non-decreasing when ascending, non-increasing otherwise;
      equal values keep their original positions in increasing order. */
  lemma {:induction false} SortOrder(s: seq<real>, ascending: bool, i: int, j: int)
    requires 0 <= i < j < |s|
    ensures ascending ==> Sort(s, ascending)[i].second <= Sort(s, ascending)[j].second
    ensures !ascending ==> Sort(s, ascending)[i].second >= Sort(s, ascending)[j].second
    ensures Sort(s, ascending)[i].second == Sort(s, ascending)[j].second ==>
      Sort(s, ascending)[i].first < Sort(s, ascending)[j].first
  {
    var r := Sort(s, ascending);
    assert InOrder(r[i], r[j], ascending);
    if r[i].first == r[j].first {
      SortEntries(s, ascending, i);
      SortEntries(s, ascending, j);
      assert r[i] == r[j];
      TwiceInSeq(r, i, j);
      IndexedOnce(s, r[i]);
    }
  }

  /** A value standing at two positions of a sequence occurs twice in its multiset. */
  lemma {:induction false} TwiceInSeq(r: seq<Ranked>, i: int, j: int)
    requires 0 <= i < j < |r| && r[i] == r[j]
    ensures multiset(r)[r[i]] >= 2
  {
    var a, b, c := r[..i], r[i + 1..j], r[j + 1..];
    assert r == a + [r[i]] + b + [r[j]] + c;
  }

  /** Every pair occurs at most once among the indexed pairs. */
  lemma {:induction false} IndexedOnce(s: seq<real>, x: Ranked)
    ensures multiset(Indexed(s))[x] <= 1
  {
    if |s| > 0 {
      var n := |s| - 1;
      assert Indexed(s) == Indexed(s[..n]) + [Pair(n, s[n])];
      IndexedOnce(s[..n], x);
      if x == Pair(n, s[n]) {
        assert forall k :: 0 <= k < n ==> Indexed(s[..n])[k].first != n;
        assert x !in Indexed(s[..n]);
      }
    }
  }
}

=== FILE: roc.dfy ===
/** Statistics.auROC: the area under the ROC curve as the share of
    (positive, negative) score pairs that the positive score wins, a tie
    counting half. Scores are compared with compareTo, modelled as the order
    of the reals. */
module Roc {
  import opened Wrappers
  import JavaInt

  /** The credit of one (positive, negative) pair. */
  function Credit(x: real, y: real): (r: real)
    ensures r == 1.0 || r == 0.5 || r == 0.0
    ensures r == 1.0 <==> x > y
  {
    if x > y then 1.0 else if x == y then 0.5 else 0.0
  }

  /** A pair is credited 1 in total: to one side, to the other, or half to each. */
  lemma CreditComplement(x: real, y: real)
    ensures Credit(x, y) + Credit(y, x) == 1.0
  {
  }

  /** Σ over ys of Credit(x, y): how often the score x beats the scores ys. */
  function Wins(x: real, ys: seq<real>): (r: real)
    ensures 0.0 <= r <= |ys| as real
  {
    if |ys| == 0 then 0.0 else Credit(x, ys[0]) + Wins(x, ys[1..])
  }

  /** Σ over ys of Credit(y, x): how often the scores ys beat the score x. */
  function Losses(ys: seq<real>, x: real): (r: real)
    ensures 0.0 <= r <= |ys| as real
  {
    if |ys| == 0 then 0.0 else Credit(ys[0], x) + Losses(ys[1..], x)
  }

  /** Σ over xs of Wins(x, ys): the sum accumulated by auROC's double loop. */
  function Score(xs: seq<real>, ys: seq<real>): (r: real)
    ensures 0.0 <= r
  {
    if |xs| == 0 then 0.0 else Wins(xs[0], ys) + Score(xs[1..], ys)
  }

  /** Σ over xs of Losses(ys, x). */
  function LossTotal(ys: seq<real>, xs: seq<real>): real
  {
    if |xs| == 0 then 0.0 else Losses(ys, xs[0]) + LossTotal(ys, xs[1..])
  }

  /** The int N of auROC after its double loop: one increment per pair, so
      the number of pairs wrapped to 32 bits (JavaInt.CounterIsWrap). */
  function PairCounter(pos: seq<real>, neg: seq<real>): (n: int)
    ensures JavaInt.InRange(n)
    ensures |pos| * |neg| <= JavaInt.MaxInt ==> n == |pos| * |neg|
    ensures |pos| == 0 || |neg| == 0 ==> n == 0
  {
    JavaInt.Wrap(|pos| * |neg|)
  }

  /** Statistics.auROC(ypPos, ypNeg): the accumulated credit divided by the
      int pair counter N. N is 0 when either side is empty, and also when
      the number of pairs wraps to 0; the quotient is then NaN or +∞. Beyond
      2^31 − 1 pairs N may also be negative or smaller than the true count. */
  function AuRoc(pos: seq<real>, neg: seq<real>): (r: Result<real>)
    ensures r.Err? <==> PairCounter(pos, neg) == 0
    ensures r.Err? ==> r.error == NotFinite
    ensures |pos| == 0 || |neg| == 0 ==> r.Err?
    ensures |pos| * |neg| <= JavaInt.MaxInt && r.Ok? ==> 0.0 <= r.value <= 1.0
    ensures r.Ok? && PairCounter(pos, neg) < 0 ==> r.value <= 0.0
  {
    var n := PairCounter(pos, neg);
    if n == 0 then Err(NotFinite)
    else
      ScoreBound(pos, neg);
      JavaInt.CounterShare(Score(pos, neg), n, |pos| * |neg|);
      Ok(Score(pos, neg) / n as real)
  }

  /** The area times the pair counter N gives back the accumulated credit;
      below 2^31 pairs N is the number of pairs. */
  lemma {:induction false} AuRocCredit(pos: seq<real>, neg: seq<real>)
    requires PairCounter(pos, neg) != 0
    ensures AuRoc(pos, neg).Ok?
    ensures AuRoc(pos, neg).value * PairCounter(pos, neg) as real == Score(pos, neg)
  {
    Recover(AuRoc(pos, neg).value, Score(pos, neg), PairCounter(pos, neg) as real);
  }

  lemma PositiveProduct(a: nat, b: nat)
    requires a > 0 && b > 0
    ensures a * b > 0
  {
  }

  /** s/n is a fraction in [0, 1] for 0 <= s <= n. */
  lemma Fraction(s: real, n: real)
    requires 0.0 <= s <= n && n > 0.0
    ensures 0.0 <= s / n <= 1.0
  {
  }

  /** A quotient by a non-zero n, multiplied back by n. */
  lemma Recover(a: real, s: real, n: real)
    requires n != 0.0 && a == s / n
    ensures a * n == s
  {
  }

  /** The accumulated credit is at most the number of pairs. */
  lemma {:induction false} ScoreBound(xs: seq<real>, ys: seq<real>)
    ensures Score(xs, ys) <= (|xs| * |ys|) as real
  {
    if |xs| > 0 {
      ScoreBound(xs[1..], ys);
      ProductStep(|xs|, |ys|);
    }
  }

  lemma ProductStep(a: nat, b: nat)
    requires a > 0
    ensures (a * b) as real == b as real + ((a - 1) * b) as real
  {
    assert a * b == b + (a - 1) * b;
  }

  /** Against a fixed score, the wins of x and the losses of the ys add up to |ys|. */
  lemma {:induction false} WinsAndLosses(x: real, ys: seq<real>)
    ensures Wins(x, ys) + Losses(ys, x) == |ys| as real
  {
    if |ys| > 0 {
      WinsAndLosses(x, ys[1..]);
      CreditComplement(x, ys[0]);
    }
  }

  /** Peeling the first score of ys off every loss count. */
  lemma {:induction false} LossTotalFirst(ys: seq<real>, xs: seq<real>)
    requires |ys| > 0
    ensures LossTotal(ys, xs) == Wins(ys[0], xs) + LossTotal(ys[1..], xs)
  {
    if |xs| > 0 {
      LossTotalFirst(ys, xs[1..]);
    }
  }

  /** The double loop may run in either order. */
  lemma {:induction false} ScoreExchange(ys: seq<real>, xs: seq<real>)
    ensures Score(ys, xs) == LossTotal(ys, xs)
  {
    if |ys| == 0 {
      LossTotalEmpty(xs);
    } else {
      ScoreExchange(ys[1..], xs);
      LossTotalFirst(ys, xs);
    }
  }

  lemma {:induction false} LossTotalEmpty(xs: seq<real>)
    ensures LossTotal([], xs) == 0.0
  {
    if |xs| > 0 {
      LossTotalEmpty(xs[1..]);
    }
  }

  /** Every pair is credited once each way, to a total of 1. */
  lemma {:induction false} ScoresComplement(xs: seq<real>, ys: seq<real>)
    ensures Score(xs, ys) + Score(ys, xs) == (|xs| * |ys|) as real
  {
    ScoreExchange(ys, xs);
    ScoreAndLossTotal(xs, ys);
  }

  lemma {:induction false} ScoreAndLossTotal(xs: seq<real>, ys: seq<real>)
    ensures Score(xs, ys) + LossTotal(ys, xs) == (|xs| * |ys|) as real
  {
    if |xs| > 0 {
      ScoreAndLossTotal(xs[1..], ys);
      WinsAndLosses(xs[0], ys);
      ProductStep(|xs|, |ys|);
    }
  }

  /** Swapping the roles of positives and negatives: the two areas together
      give the number of pairs over N, so below 2^31 pairs the area A
      becomes 1 − A. */
  lemma {:induction false} AuRocSwap(pos: seq<real>, neg: seq<real>)
    requires PairCounter(pos, neg) != 0
    ensures AuRoc(neg, pos).Ok? && AuRoc(pos, neg).Ok?
    ensures AuRoc(neg, pos).value + AuRoc(pos, neg).value == (|pos| * |neg|) as real / PairCounter(pos, neg) as real
    ensures |pos| * |neg| <= JavaInt.MaxInt ==> AuRoc(neg, pos).value == 1.0 - AuRoc(pos, neg).value
  {
    var n := PairCounter(pos, neg);
    assert PairCounter(neg, pos) == n by {
      assert |neg| * |pos| == |pos| * |neg|;
    }
    ScoresComplement(pos, neg);
    SumOfShares(Score(pos, neg), Score(neg, pos), (|pos| * |neg|) as real, n as real);
    if |pos| * |neg| <= JavaInt.MaxInt {
      PositiveProduct(|pos|, |neg|);
      Complement(Score(pos, neg), Score(neg, pos), (|pos| * |neg|) as real, n as real);
    }
  }

  lemma SumOfShares(s: real, t: real, p: real, n: real)
    requires n != 0.0 && s + t == p
    ensures t / n + s / n == p / n
  {
  }

  lemma Complement(s: real, t: real, n: real, m: real)
    requires n > 0.0 && n == m && s + t == n
    ensures t / m == 1.0 - s / n
  {
    assert t / n + s / n == (t + s) / n;
  }

  /** A positive factor cancels. */
  lemma Cancel(x: real, y: real, n: real)
    requires n > 0.0 && x * n == y * n
    ensures x == y
  {
    assert (x - y) * n == 0.0;
  }

  /** x beats every score of ys outright exactly when it wins all |ys| comparisons. */
  lemma {:induction false} WinsAll(x: real, ys: seq<real>)
    ensures Wins(x, ys) == |ys| as real <==> forall j :: 0 <= j < |ys| ==> x > ys[j]
  {
    if |ys| > 0 {
      WinsAll(x, ys[1..]);
      assert forall j :: 1 <= j < |ys| ==> ys[1..][j - 1] == ys[j];
    }
  }

  /** The credit reaches the number of pairs exactly when every positive wins all its pairs. */
  lemma {:induction false} ScoreAll(xs: seq<real>, ys: seq<real>)
    ensures Score(xs, ys) == (|xs| * |ys|) as real <==>
      forall i :: 0 <= i < |xs| ==> Wins(xs[i], ys) == |ys| as real
  {
    if |xs| > 0 {
      ScoreAll(xs[1..], ys);
      ScoreBound(xs[1..], ys);
      ProductStep(|xs|, |ys|);
      assert forall i :: 1 <= i < |xs| ==> xs[1..][i - 1] == xs[i];
    }
  }

  /** The area is 1 exactly when every positive score exceeds every negative score. */
  lemma {:induction false} AuRocPerfect(pos: seq<real>, neg: seq<real>)
    requires |pos| > 0 && |neg| > 0 && |pos| * |neg| <= JavaInt.MaxInt
    ensures AuRoc(pos, neg).Ok?
    ensures AuRoc(pos, neg).value == 1.0 <==>
      forall i, j :: 0 <= i < |pos| && 0 <= j < |neg| ==> pos[i] > neg[j]
  {
    var n := (|pos| * |neg|) as real;
    assert AuRoc(pos, neg).Ok? && (AuRoc(pos, neg).value == 1.0 <==> Score(pos, neg) == n) by {
      PositiveProduct(|pos|, |neg|);
      assert PairCounter(pos, neg) as real == n;
      AuRocCredit(pos, neg);
      UnitFraction(AuRoc(pos, neg).value, Score(pos, neg), n);
    }
    ScoreAll(pos, neg);
    AllWinsAllPairs(pos, neg);
  }

  /** Every x of xs wins all its comparisons exactly when every x exceeds every y. */
  lemma {:induction false} AllWinsAllPairs(xs: seq<real>, ys: seq<real>)
    ensures (forall i :: 0 <= i < |xs| ==> Wins(xs[i], ys) == |ys| as real) <==>
      forall i, j :: 0 <= i < |xs| && 0 <= j < |ys| ==> xs[i] > ys[j]
  {
    forall i | 0 <= i < |xs| {
      WinsAll(xs[i], ys);
    }
  }

  lemma UnitFraction(a: real, s: real, n: real)
    requires n > 0.0 && a * n == s
    ensures a == 1.0 <==> s == n
  {
  }

  /** All scores tie: x against ys earns half a point per pair. */
  lemma {:induction false} WinsTied(x: real, ys: seq<real>)
    requires forall j :: 0 <= j < |ys| ==> ys[j] == x
    ensures Wins(x, ys) == 0.5 * |ys| as real
  {
    if |ys| > 0 {
      WinsTied(x, ys[1..]);
    }
  }

  lemma {:induction false} ScoreTied(xs: seq<real>, ys: seq<real>, v: real)
    requires forall i :: 0 <= i < |xs| ==> xs[i] == v
    requires forall j :: 0 <= j < |ys| ==> ys[j] == v
    ensures Score(xs, ys) == 0.5 * (|xs| * |ys|) as real
  {
    if |xs| > 0 {
      ScoreTied(xs[1..], ys, v);
      WinsTied(xs[0], ys);
      ProductStep(|xs|, |ys|);
    }
  }

  /** Scores that cannot separate the classes at all give an area of 1/2. */
  lemma {:induction false} AuRocTied(pos: seq<real>, neg: seq<real>, v: real)
    requires |pos| > 0 && |neg| > 0 && |pos| * |neg| <= JavaInt.MaxInt
    requires forall i :: 0 <= i < |pos| ==> pos[i] == v
    requires forall j :: 0 <= j < |neg| ==> neg[j] == v
    ensures AuRoc(pos, neg) == Ok(0.5)
  {
    ScoreTied(pos, neg, v);
    PositiveProduct(|pos|, |neg|);
    var n := (|pos| * |neg|) as real;
    assert PairCounter(pos, neg) as real == n;
    AuRocCredit(pos, neg);
    Half(AuRoc(pos, neg).value, Score(pos, neg), n);
  }

  lemma Half(a: real, s: real, n: real)
    requires n > 0.0 && a * n == s && s == 0.5 * n
    ensures a == 0.5
  {
    Cancel(a, 0.5, n);
  }

  /** 46341 positives all above 46341 negatives: every pair is a win, but
      the 2147488281 pairs wrap N to −2147479015, so auROC is negative
      instead of 1. */
  lemma AuRocOverflow(pos: seq<real>, neg: seq<real>)
    requires |pos| == 46341 && |neg| == 46341
    requires forall i, j :: 0 <= i < |pos| && 0 <= j < |neg| ==> pos[i] > neg[j]
    ensures PairCounter(pos, neg) == -2147479015
    ensures AuRoc(pos, neg).Ok? && AuRoc(pos, neg).value < 0.0
  {
    assert |pos| * |neg| == 2147488281;
    assert JavaInt.Wrap(2147488281) == -2147479015;
    assert Wins(pos[0], neg) >= Credit(pos[0], neg[0]) == 1.0;
    assert Score(pos, neg) > 0.0;
  }

  /** The area the counter is meant to divide by: the accumulated credit over
      the true number of pairs, undefined only when a side is empty. */
  function AuRocIntended(pos: seq<real>, neg: seq<real>): (r: Result<real>)
    ensures r.Err? <==> |pos| == 0 || |neg| == 0
    ensures r.Err? ==> r.error == NotFinite
    ensures r.Ok? ==> 0.0 <= r.value <= 1.0
    ensures r.Ok? ==> r.value * (|pos| * |neg|) as real == Score(pos, neg)
  {
    if |pos| == 0 || |neg| == 0 then Err(NotFinite)
    else
      var n := (|pos| * |neg|) as real;
      PositiveProduct(|pos|, |neg|);
      ScoreBound(pos, neg);
      Fraction(Score(pos, neg), n);
      Recover(Score(pos, neg) / n, Score(pos, neg), n);
      Ok(Score(pos, neg) / n)
  }

  /** Below 2^31 pairs the counter is exact and the code computes the
      intended area. */
  lemma AuRocAgrees(pos: seq<real>, neg: seq<real>)
    requires |pos| * |neg| <= JavaInt.MaxInt
    ensures AuRoc(pos, neg) == AuRocIntended(pos, neg)
  {
  }

  /** For any number of pairs, exchanging positives and negatives turns the
      intended area into its complement. */
  lemma {:induction false} AuRocIntendedSwap(pos: seq<real>, neg: seq<real>)
    requires |pos| > 0 && |neg| > 0
    ensures AuRocIntended(neg, pos).Ok? && AuRocIntended(pos, neg).Ok?
    ensures AuRocIntended(neg, pos).value == 1.0 - AuRocIntended(pos, neg).value
  {
    PositiveProduct(|pos|, |neg|);
    ScoresComplement(pos, neg);
    var n := (|pos| * |neg|) as real;
    assert (|neg| * |pos|) as real == n;
    Complement(Score(pos, neg), Score(neg, pos), n, n);
  }

  /** n copies of the score x. */
  function Run(n: nat, x: real): (r: seq<real>)
    ensures |r| == n
    ensures forall i :: 0 <= i < n ==> r[i] == x
  {
    seq(n, _ => x)
  }

  lemma RunCons(n: nat, x: real)
    requires n > 0
    ensures Run(n, x) == [x] + Run(n - 1, x)
  {
  }

  /** Prefixing n equal scores y adds n credits of x against y. */
  lemma {:induction false} WinsRun(x: real, n: nat, y: real, ys: seq<real>)
    ensures Wins(x, Run(n, y) + ys) == n as real * Credit(x, y) + Wins(x, ys)
  {
    if n > 0 {
      RunCons(n, y);
      assert Run(n, y) + ys == [y] + (Run(n - 1, y) + ys);
      WinsRun(x, n - 1, y, ys);
      RunStep(n, Credit(x, y));
    } else {
      assert Run(n, y) + ys == ys;
    }
  }

  lemma RunStep(n: nat, c: real)
    requires n > 0
    ensures n as real * c == c + (n - 1) as real * c
  {
  }

  /** n-fold sum of w, without multiplication. */
  function Times(n: nat, w: real): real
  {
    if n == 0 then 0.0 else w + Times(n - 1, w)
  }

  lemma {:induction false} TimesProduct(n: nat, w: real)
    ensures Times(n, w) == n as real * w
  {
    if n > 0 {
      TimesProduct(n - 1, w);
      RunStep(n, w);
    }
  }

  /** Prefixing n equal positive scores x adds n times the wins of x. */
  lemma {:induction false} ScoreRun(n: nat, x: real, xs: seq<real>, ys: seq<real>)
    ensures Score(Run(n, x) + xs, ys) == Times(n, Wins(x, ys)) + Score(xs, ys)
  {
    if n > 0 {
      var rest := Run(n - 1, x) + xs;
      RunCons(n, x);
      assert Run(n, x) + xs == [x] + rest;
      assert ([x] + rest)[1..] == rest;
      ScoreRun(n - 1, x, xs, ys);
    } else {
      assert Run(n, x) + xs == xs;
    }
  }

  /** The ROC fixture of the library's tests, on five increasing score
      levels v1 < … < v5: counts of negatives and positives per level. */
  function RocNegatives(v1: real, v2: real, v3: real, v4: real, v5: real): seq<real>
  {
    Run(11, v1) + (Run(9, v2) + (Run(3, v3) + (Run(1, v4) + (Run(1, v5) + []))))
  }

  function RocPositives(v1: real, v2: real, v3: real, v4: real, v5: real): seq<real>
  {
    Run(1, v1) + (Run(2, v2) + (Run(3, v3) + (Run(9, v4) + (Run(10, v5) + []))))
  }

  /** The wins of each level against the fixture's negatives. */
  lemma {:induction false} RocWins(v1: real, v2: real, v3: real, v4: real, v5: real, x: real)
    requires v1 < v2 < v3 < v4 < v5
    requires x == v1 || x == v2 || x == v3 || x == v4 || x == v5
    ensures var w := Wins(x, RocNegatives(v1, v2, v3, v4, v5));
      && (x == v1 ==> w == 5.5) && (x == v2 ==> w == 15.5) && (x == v3 ==> w == 21.5)
      && (x == v4 ==> w == 23.5) && (x == v5 ==> w == 24.5)
  {
    var e: seq<real> := [];
    assert Wins(x, e) == 0.0;
    WinsRun(x, 1, v5, e);
    WinsRun(x, 1, v4, Run(1, v5) + e);
    WinsRun(x, 3, v3, Run(1, v4) + (Run(1, v5) + e));
    WinsRun(x, 9, v2, Run(3, v3) + (Run(1, v4) + (Run(1, v5) + e)));
    WinsRun(x, 11, v1, Run(9, v2) + (Run(3, v3) + (Run(1, v4) + (Run(1, v5) + e))));
  }

  /** The library's auROC test: 557.5 of 625 pairs, an area of 0.892. */
  lemma {:induction false} AuRocExample(v1: real, v2: real, v3: real, v4: real, v5: real)
    requires v1 < v2 < v3 < v4 < v5
    ensures AuRoc(RocPositives(v1, v2, v3, v4, v5), RocNegatives(v1, v2, v3, v4, v5)) == Ok(0.892)
  {
    var neg := RocNegatives(v1, v2, v3, v4, v5);
    var e: seq<real> := [];
    RocWins(v1, v2, v3, v4, v5, v1);
    RocWins(v1, v2, v3, v4, v5, v2);
    RocWins(v1, v2, v3, v4, v5, v3);
    RocWins(v1, v2, v3, v4, v5, v4);
    RocWins(v1, v2, v3, v4, v5, v5);
    assert Score(e, neg) == 0.0;
    TimesProduct(10, 24.5);
    TimesProduct(9, 23.5);
    TimesProduct(3, 21.5);
    TimesProduct(2, 15.5);
    TimesProduct(1, 5.5);
    ScoreRun(10, v5, e, neg);
    ScoreRun(9, v4, Run(10, v5) + e, neg);
    ScoreRun(3, v3, Run(9, v4) + (Run(10, v5) + e), neg);
    ScoreRun(2, v2, Run(3, v3) + (Run(9, v4) + (Run(10, v5) + e)), neg);
    ScoreRun(1, v1, Run(2, v2) + (Run(3, v3) + (Run(9, v4) + (Run(10, v5) + e))), neg);
    assert Score(RocPositives(v1, v2, v3, v4, v5), neg) == 557.5;
    assert |RocPositives(v1, v2, v3, v4, v5)| == 25 && |neg| == 25;
  }
}

=== FILE: series.dfy ===
/** Finite sums over sequences of reals: the arithmetic that the statistics,
    the matrix transforms and the Gramian identity all rest on. */
module Series {

  /** Σ s[i], accumulated front to back as the library's loops do. */
  function Sum(s: seq<real>): real
  {
    if |s| == 0 then 0.0 else s[0] + Sum(s[1..])
  }

  /** x², written x*x as the library's Math.pow(x,2) is modelled. */
  function Sq(x: real): real
  {
    x * x
  }

  /** A square is non-negative and vanishes only at zero. */
  lemma SqSign(x: real)
    ensures Sq(x) >= 0.0
    ensures Sq(x) == 0.0 ==> x == 0.0
  {
    if x > 0.0 {
      SquareNonZero(x, Sq(x));
    } else if x < 0.0 {
      SquareNonZero(-x, Sq(x));
    }
  }

  lemma SquareNonZero(x: real, y: real)
    requires y == x * x
    requires x > 0.0
    ensures y != 0.0
  {
    ProductPositive(x, x, y);
  }

  lemma ProductPositive(a: real, b: real, y: real)
    requires y == a * b
    requires a > 0.0 && b > 0.0
    ensures y > 0.0
  {
  }

  /** Σ s[i]², the residual and deviation sums of the library. */
  function SumSq(s: seq<real>): (r: real)
    ensures r >= 0.0
  {
    if |s| == 0 then 0.0 else SqSign(s[0]); Sq(s[0]) + SumSq(s[1..])
  }

  /** Σ a[i]·b[i]. */
  function Dot(a: seq<real>, b: seq<real>): real
    requires |a| == |b|
  {
    if |a| == 0 then 0.0 else a[0] * b[0] + Dot(a[1..], b[1..])
  }

  /** s with k subtracted from every entry (deviations from k). */
  function Shift(s: seq<real>, k: real): (r: seq<real>)
    ensures |r| == |s|
    ensures forall i :: 0 <= i < |s| ==> r[i] == s[i] - k
  {
    seq(|s|, i requires 0 <= i < |s| => s[i] - k)
  }

  /** s with every entry multiplied by k. */
  function Scale(s: seq<real>, k: real): (r: seq<real>)
    ensures |r| == |s|
    ensures forall i :: 0 <= i < |s| ==> r[i] == s[i] * k
  {
    seq(|s|, i requires 0 <= i < |s| => s[i] * k)
  }

  /** n copies of v. */
  function Const(n: nat, v: real): (r: seq<real>)
    ensures |r| == n
    ensures forall i :: 0 <= i < n ==> r[i] == v
  {
    seq(n, i => v)
  }

  /** The j-th unit vector of length n (all zero when j is out of range). */
  function Unit(n: nat, j: int): (r: seq<real>)
    ensures |r| == n
    ensures forall i :: 0 <= i < n ==> r[i] == (if i == j then 1.0 else 0.0)
  {
    seq(n, i => if i == j then 1.0 else 0.0)
  }

  /** Entrywise difference a − b. */
  function Minus(a: seq<real>, b: seq<real>): (r: seq<real>)
    requires |a| == |b|
    ensures |r| == |a|
    ensures forall i :: 0 <= i < |a| ==> r[i] == a[i] - b[i]
  {
    seq(|a|, i requires 0 <= i < |a| => a[i] - b[i])
  }

  lemma {:induction false} SumAppend(a: seq<real>, b: seq<real>)
    ensures Sum(a + b) == Sum(a) + Sum(b)
  {
    if |a| == 0 {
      assert a + b == b;
    } else {
      assert (a + b)[1..] == a[1..] + b;
      SumAppend(a[1..], b);
    }
  }

  lemma {:induction false} SumSqAppend(a: seq<real>, b: seq<real>)
    ensures SumSq(a + b) == SumSq(a) + SumSq(b)
  {
    if |a| == 0 {
      assert a + b == b;
    } else {
      assert (a + b)[1..] == a[1..] + b;
      SumSqAppend(a[1..], b);
    }
  }

  lemma {:induction false} SumMinus(a: seq<real>, b: seq<real>)
    requires |a| == |b|
    ensures Sum(Minus(a, b)) == Sum(a) - Sum(b)
  {
    if |a| > 0 {
      assert Minus(a, b)[1..] == Minus(a[1..], b[1..]);
      SumMinus(a[1..], b[1..]);
    }
  }

  /** Shifting every entry down by k lowers the sum by |s|·k. */
  lemma {:induction false} SumShift(s: seq<real>, k: real)
    ensures Sum(Shift(s, k)) == Sum(s) - |s| as real * k
  {
    if |s| > 0 {
      assert Shift(s, k)[1..] == Shift(s[1..], k);
      SumShift(s[1..], k);
    }
  }

  lemma {:induction false} SumScale(s: seq<real>, k: real)
    ensures Sum(Scale(s, k)) == Sum(s) * k
  {
    if |s| > 0 {
      ScaleTail(s, k);
      SumScale(s[1..], k);
    }
  }

  lemma {:induction false} ScaleTail(s: seq<real>, k: real)
    requires |s| > 0
    ensures Scale(s, k)[1..] == Scale(s[1..], k)
  {
    forall i | 0 <= i < |s| - 1 ensures Scale(s, k)[1..][i] == Scale(s[1..], k)[i] {
      assert s[1..][i] == s[i + 1];
    }
  }

  lemma {:induction false} SumSqScale(s: seq<real>, k: real)
    ensures SumSq(Scale(s, k)) == SumSq(s) * (k * k)
  {
    if |s| > 0 {
      ScaleTail(s, k);
      SumSqScale(s[1..], k);
      var t := Scale(s, k);
      calc {
        SumSq(t);
        Sq(t[0]) + SumSq(t[1..]);
        Sq(s[0] * k) + SumSq(s[1..]) * (k * k);
        { assert (s[0] * k) * (s[0] * k) == (s[0] * s[0]) * (k * k); }
        Sq(s[0]) * (k * k) + SumSq(s[1..]) * (k * k);
        (Sq(s[0]) + SumSq(s[1..])) * (k * k);
        SumSq(s) * (k * k);
      }
    }
  }

  lemma {:induction false} SumConst(n: nat, v: real)
    ensures Sum(Const(n, v)) == n as real * v
  {
    if n > 0 {
      assert Const(n, v)[1..] == Const(n - 1, v);
      SumConst(n - 1, v);
    }
  }

  /** A sum of squares vanishes exactly when every entry does. */
  lemma {:induction false} SumSqZero(s: seq<real>)
    ensures SumSq(s) == 0.0 <==> forall i :: 0 <= i < |s| ==> s[i] == 0.0
  {
    if |s| > 0 {
      SumSqZero(s[1..]);
      SqSign(s[0]);
      if SumSq(s) == 0.0 {
        assert s[0] == 0.0 && SumSq(s[1..]) == 0.0;
        forall i | 0 <= i < |s| ensures s[i] == 0.0 {
          if i > 0 { assert s[i] == s[1..][i - 1]; }
        }
      }
      assert forall i :: 0 <= i < |s[1..]| ==> s[1..][i] == s[i + 1];
    }
  }

  lemma {:induction false} SumSqIsDot(s: seq<real>)
    ensures SumSq(s) == Dot(s, s)
  {
    if |s| > 0 {
      SumSqIsDot(s[1..]);
      assert Sq(s[0]) == s[0] * s[0];
    }
  }

  lemma {:induction false} DotSymmetric(a: seq<real>, b: seq<real>)
    requires |a| == |b|
    ensures Dot(a, b) == Dot(b, a)
  {
    if |a| > 0 {
      DotSymmetric(a[1..], b[1..]);
    }
  }

  lemma {:induction false} DotUnit(a: seq<real>, j: int)
    requires 0 <= j < |a|
    ensures Dot(a, Unit(|a|, j)) == a[j]
  {
    if j == 0 {
      DotZeroRight(a[1..], Unit(|a|, j)[1..]);
    } else {
      assert Unit(|a|, j)[1..] == Unit(|a| - 1, j - 1);
      DotUnit(a[1..], j - 1);
    }
  }

  lemma {:induction false} DotZeroRight(a: seq<real>, z: seq<real>)
    requires |a| == |z|
    requires forall i :: 0 <= i < |z| ==> z[i] == 0.0
    ensures Dot(a, z) == 0.0
  {
    if |a| > 0 {
      DotZeroRight(a[1..], z[1..]);
    }
  }

  lemma {:induction false} DotConst(a: seq<real>, v: real)
    ensures Dot(a, Const(|a|, v)) == Sum(a) * v
  {
    if |a| > 0 {
      assert Const(|a|, v)[1..] == Const(|a| - 1, v);
      DotConst(a[1..], v);
    }
  }

  lemma {:induction false} DotMinus(a: seq<real>, u: seq<real>, v: seq<real>)
    requires |a| == |u| == |v|
    ensures Dot(a, Minus(u, v)) == Dot(a, u) - Dot(a, v)
  {
    if |a| > 0 {
      assert Minus(u, v)[1..] == Minus(u[1..], v[1..]);
      DotMinus(a[1..], u[1..], v[1..]);
    }
  }

  /** Dot product with the j-th column of the n×n centring matrix
      (1 − 1/n on the diagonal, −1/n elsewhere): the entry minus the mean. */
  lemma {:induction false} DotCentring(a: seq<real>, h: seq<real>, j: int)
    requires 0 <= j < |a| == |h|
    requires forall l :: 0 <= l < |h| ==>
      h[l] == (if l == j then (|a| - 1) as real / |a| as real else -1.0 / |a| as real)
    ensures Dot(a, h) == a[j] - Sum(a) / |a| as real
  {
    var n := |a| as real;
    CentringColumn(h, j);
    DotUnitMinusConst(a, j, 1.0 / n);
    TimesReciprocal(Sum(a), n, 1.0 / n);
  }

  lemma {:induction false} DotUnitMinusConst(a: seq<real>, j: int, k: real)
    requires 0 <= j < |a|
    ensures Dot(a, Minus(Unit(|a|, j), Const(|a|, k))) == a[j] - Sum(a) * k
  {
    DotMinus(a, Unit(|a|, j), Const(|a|, k));
    DotUnit(a, j);
    DotConst(a, k);
  }

  lemma TimesReciprocal(s: real, n: real, k: real)
    requires n != 0.0 && k == 1.0 / n
    ensures s * k == s / n
  {
  }

  lemma {:induction false} CentringColumn(h: seq<real>, j: int)
    requires 0 <= j < |h|
    requires forall l :: 0 <= l < |h| ==>
      h[l] == (if l == j then (|h| - 1) as real / |h| as real else -1.0 / |h| as real)
    ensures h == Minus(Unit(|h|, j), Const(|h|, 1.0 / |h| as real))
  {
    var n := |h| as real;
    var m := Minus(Unit(|h|, j), Const(|h|, 1.0 / n));
    assert (n - 1.0) / n == 1.0 - 1.0 / n;
    forall l | 0 <= l < |h| ensures h[l] == m[l] {
      if l == j {
        assert h[l] == (n - 1.0) / n;
      } else {
        assert h[l] == -1.0 / n;
      }
    }
  }

  /** The sum of a sequence of sums, split by the last element. */
  lemma {:induction false} SumLast(s: seq<real>)
    requires |s| > 0
    ensures Sum(s) == Sum(s[..|s| - 1]) + s[|s| - 1]
  {
    SumAppend(s[..|s| - 1], [s[|s| - 1]]);
    assert s[..|s| - 1] + [s[|s| - 1]] == s;
  }

  /** A prefix's sum of squares is bounded by the whole sequence's. */
  lemma {:induction false} SumSqPrefix(s: seq<real>, m: int)
    requires 0 <= m <= |s|
    ensures SumSq(s[..m]) <= SumSq(s)
  {
    SumSqAppend(s[..m], s[m..]);
    assert s[..m] + s[m..] == s;
  }

  lemma DiffSquare(x: real, y: real)
    ensures Sq(x - y) == Sq(x) - 2.0 * (x * y) + Sq(y)
  {
  }

  /** ‖u − v‖² = ‖u‖² − 2⟨u, v⟩ + ‖v‖². */
  lemma {:induction false} SumSqMinus(u: seq<real>, v: seq<real>)
    requires |u| == |v|
    ensures SumSq(Minus(u, v)) == SumSq(u) - 2.0 * Dot(u, v) + SumSq(v)
  {
    if |u| > 0 {
      assert Minus(u, v)[1..] == Minus(u[1..], v[1..]);
      SumSqMinus(u[1..], v[1..]);
      DiffSquare(u[0], v[0]);
    }
  }

  lemma {:induction false} DotScale(a: seq<real>, b: seq<real>, t: real)
    requires |a| == |b|
    ensures Dot(Scale(a, t), b) == t * Dot(a, b)
  {
    if |a| > 0 {
      ScaleTail(a, t);
      DotScale(a[1..], b[1..], t);
      assert Scale(a, t)[0] * b[0] == t * (a[0] * b[0]);
    }
  }

  lemma {:induction false} DotZeroLeft(a: seq<real>, b: seq<real>)
    requires |a| == |b|
    requires forall i :: 0 <= i < |a| ==> a[i] == 0.0
    ensures Dot(a, b) == 0.0
  {
    if |a| > 0 {
      DotZeroLeft(a[1..], b[1..]);
    }
  }

  /** The Cauchy–Schwarz inequality ⟨a, b⟩² ≤ ‖a‖²·‖b‖². */
  lemma {:induction false} CauchySchwarz(a: seq<real>, b: seq<real>)
    requires |a| == |b|
    ensures Sq(Dot(a, b)) <= SumSq(a) * SumSq(b)
  {
    if SumSq(a) == 0.0 {
      SumSqZero(a);
      DotZeroLeft(a, b);
      SqSign(0.0);
    } else {
      var t := Dot(a, b) / SumSq(a);
      SumSqMinus(Scale(a, t), b);
      SumSqScale(a, t);
      DotScale(a, b, t);
      Discriminant(SumSq(a), SumSq(b), Dot(a, b), t, SumSq(Minus(Scale(a, t), b)),
                   SumSq(Scale(a, t)), Dot(Scale(a, t), b));
    }
  }

  /** C² ≤ A·B, read off the non-negative quadratic A·t² − 2C·t + B at t = C/A. */
  lemma Discriminant(A: real, B: real, C: real, t: real, q: real, sa: real, sd: real)
    requires A > 0.0 && t == C / A
    requires q == sa - 2.0 * sd + B && sa == A * (t * t) && sd == t * C && q >= 0.0
    ensures Sq(C) <= A * B
  {
    assert t * A == C;
    assert sa == t * (t * A);
    assert sa == t * C;
    assert t * C <= B;
    MulMono(t * C, B, A);
    assert (t * C) * A == C * C;
  }

  lemma MulMono(x: real, y: real, k: real)
    requires x <= y && k > 0.0
    ensures x * k <= y * k
  {
  }

  /** sqrt behaves as Math.sqrt on the non-negative reals. */
  ghost predicate IsSqrt(sqrt: real -> real)
  {
    forall x :: x >= 0.0 ==> sqrt(x) >= 0.0 && sqrt(x) * sqrt(x) == x
  }

  /** The root of v squares back to v. */
  lemma SqrtSquare(sqrt: real -> real, v: real)
    requires IsSqrt(sqrt) && v >= 0.0
    ensures sqrt(v) * sqrt(v) == v
  {
  }

  /** Any value known to be the root of v squares back to v. */
  lemma RootSquares(sqrt: real -> real, v: real, root: real)
    requires IsSqrt(sqrt) && v >= 0.0 && root == sqrt(v)
    ensures root * root == v
  {
  }

  /** The root of zero is zero. */
  lemma SqrtZero(sqrt: real -> real)
    requires IsSqrt(sqrt)
    ensures sqrt(0.0) == 0.0
  {
    SqSign(sqrt(0.0));
  }
}

=== FILE: transforms.dfy ===
/** ColumnCenterer and ColumnScaler: column-wise centring to mean 0 and
    scaling to standard deviation 1. The column statistic is taken from a
    ColumnIterator snapshot before the ColumnApplicator changes any cell.
    Math.sqrt is the parameter sqrt, assumed to be a square root on the
    non-negative reals. */
module Transforms {
  import opened Wrappers
  import opened Series
  import opened Descriptive
  import opened Matrices

  /** Matrices that agree on column c have the same column c. */
  lemma ColumnAgree(a: Mat, b: Mat, c: int)
    requires a.SameShape(b) && 0 <= c < a.cols
    requires forall i :: 0 <= i < a.rows ==> Get(a, i, c) == Get(b, i, c)
    ensures ColumnValues(a, c) == ColumnValues(b, c)
  {
  }

  /** The mean of column c: Statistics.mean over a ColumnIterator. */
  function ColumnMean(m: Mat, c: int): real
    requires 0 <= c < m.cols && m.rows > 0
  {
    Mean(ColumnValues(m, c)).value
  }

  // ---------------------------------------------------------------------
  // ColumnCenterer

  /** ColumnCenterer.apply(M, c): every cell of column c minus the column mean.
      With no rows the mean is 0/0 = NaN, but the update loop never runs. */
  function CenterColumn(m: Mat, c: int): (r: Result<Mat>)
    ensures r.Err? <==> m.rows > 0 && !(0 <= c < m.cols)
    ensures r.Err? ==> r.error == IndexOutOfRange
    ensures r.Ok? ==> r.value.SameShape(m)
    ensures r.Ok? && m.rows == 0 ==> r.value == m
    ensures r.Ok? && m.rows > 0 ==> forall i, j :: m.Has(i, j) ==>
      Get(r.value, i, j) == if j == c then Get(m, i, j) - ColumnMean(m, c) else Get(m, i, j)
  {
    var col :- ColumnIterator(m, c);
    match Mean(col)
    case Err(_) => Ok(m)
    case Ok(mean) => ApplyColumn(m, c, (i, j, d) => d - mean)
  }

  /** The centred column holds the deviations from the old column mean. */
  lemma CenteredColumn(m: Mat, c: int)
    requires 0 <= c < m.cols && m.rows > 0
    ensures CenterColumn(m, c).Ok?
    ensures ColumnValues(CenterColumn(m, c).value, c) == Deviations(ColumnValues(m, c))
  {
  }

  /** After centring, column c has mean 0. */
  lemma {:induction false} CenterColumnMean(m: Mat, c: int)
    requires 0 <= c < m.cols && m.rows > 0
    ensures CenterColumn(m, c).Ok?
    ensures ColumnMean(CenterColumn(m, c).value, c) == 0.0
  {
    var col := ColumnValues(m, c);
    CenteredColumn(m, c);
    DeviationsSumToZero(col);
    ZeroMean(Deviations(col));
  }

  /** A sequence summing to zero has mean zero. */
  lemma ZeroMean(s: seq<real>)
    requires |s| > 0 && Sum(s) == 0.0
    ensures Mean(s) == Ok(0.0)
  {
    Cancel(Mean(s).value, 0.0, |s| as real);
  }

  /** Centring an already centred column changes nothing. */
  lemma {:induction false} CenterColumnIdempotent(m: Mat, c: int)
    requires CenterColumn(m, c).Ok?
    ensures CenterColumn(CenterColumn(m, c).value, c) == CenterColumn(m, c)
  {
    var r := CenterColumn(m, c).value;
    if m.rows > 0 {
      CenterColumnMean(m, c);
      Ext(CenterColumn(r, c).value, r);
    }
  }

  /** The first n passes of ColumnCenterer.apply(M). */
  function CenterLoop(m: Mat, n: nat): (r: Mat)
    requires n <= m.cols
    ensures r.SameShape(m)
    ensures forall i, j :: m.Has(i, j) ==>
      Get(r, i, j) == if j < n then Get(m, i, j) - ColumnMean(m, j) else Get(m, i, j)
  {
    if n == 0 then m
    else
      var prev := CenterLoop(m, n - 1);
      CenterStep(m, prev, n);
      CenterColumn(prev, n - 1).value
  }

  /** Pass n − 1 of ColumnCenterer.apply(M) centres column n − 1 with the mean
      it had in M, since the earlier passes did not touch it. */
  lemma CenterStep(m: Mat, prev: Mat, n: nat)
    requires 0 < n <= m.cols && prev.SameShape(m)
    requires forall i, j :: m.Has(i, j) ==>
      Get(prev, i, j) == if j < n - 1 then Get(m, i, j) - ColumnMean(m, j) else Get(m, i, j)
    ensures CenterColumn(prev, n - 1).Ok? && CenterColumn(prev, n - 1).value.SameShape(m)
    ensures forall i, j :: m.Has(i, j) ==>
      Get(CenterColumn(prev, n - 1).value, i, j) ==
        if j < n then Get(m, i, j) - ColumnMean(m, j) else Get(m, i, j)
  {
    if m.rows > 0 {
      ColumnAgree(prev, m, n - 1);
      var mean := ColumnMean(m, n - 1);
      assert ColumnMean(prev, n - 1) == mean;
      var r := CenterColumn(prev, n - 1).value;
      forall i, j | m.Has(i, j)
        ensures Get(r, i, j) == if j < n then Get(m, i, j) - ColumnMean(m, j) else Get(m, i, j)
      {
        if j == n - 1 {
          assert Get(prev, i, j) == Get(m, i, j);
        }
      }
    }
  }

  /** ColumnCenterer.apply(M): every column centred with its own mean. */
  function CenterAll(m: Mat): (r: Mat)
    ensures r.SameShape(m)
    ensures forall i, j :: m.Has(i, j) ==> Get(r, i, j) == Get(m, i, j) - ColumnMean(m, j)
  {
    CenterLoop(m, m.cols)
  }

  /** After CenterAll every column has mean 0. */
  lemma {:induction false} CenterAllMeans(m: Mat, c: int)
    requires 0 <= c < m.cols && m.rows > 0
    ensures ColumnMean(CenterAll(m), c) == 0.0
  {
    var r := CenterAll(m);
    ColumnAgree(r, CenterColumn(m, c).value, c);
    CenterColumnMean(m, c);
  }

  /** Centring a centred matrix changes nothing. */
  lemma {:induction false} CenterAllIdempotent(m: Mat)
    ensures CenterAll(CenterAll(m)) == CenterAll(m)
  {
    var r := CenterAll(m);
    forall i, j | r.Has(i, j) ensures Get(CenterAll(r), i, j) == Get(r, i, j) {
      CenterAllMeans(m, j);
    }
    Ext(CenterAll(r), r);
  }

  // ---------------------------------------------------------------------
  // ColumnScaler

  /** The standard deviation of column c: Math.sqrt(Statistics.var(...)). */
  function ColumnStd(m: Mat, c: int, sqrt: real -> real): (s: real)
    requires IsSqrt(sqrt)
    requires 0 <= c < m.cols && m.rows >= 2
    ensures s >= 0.0
  {
    Std(ColumnValues(m, c), sqrt).value
  }

  /** ColumnScaler.apply(M, c): divide column c by its standard deviation s,
      only when s > 0. With fewer than two rows var is −0.0 or NaN, whose root
      is not > 0, so nothing changes. */
  function ScaleColumn(m: Mat, c: int, sqrt: real -> real): (r: Result<Mat>)
    requires IsSqrt(sqrt)
    ensures r.Err? <==> m.rows > 0 && !(0 <= c < m.cols)
    ensures r.Err? ==> r.error == IndexOutOfRange
    ensures r.Ok? ==> r.value.SameShape(m)
    ensures r.Ok? && m.rows < 2 ==> r.value == m
    ensures r.Ok? && m.rows >= 2 ==> forall i, j :: m.Has(i, j) ==>
      Get(r.value, i, j) ==
        if j == c && ColumnStd(m, c, sqrt) > 0.0 then Get(m, i, j) / ColumnStd(m, c, sqrt) else Get(m, i, j)
  {
    var col :- ColumnIterator(m, c);
    match Std(col, sqrt)
    case Err(_) => Ok(m)
    case Ok(s) => if s > 0.0 then ApplyColumn(m, c, (i, j, d) => d / s) else Ok(m)
  }

  /** A constant column (zero variance) is left exactly as it is. */
  lemma {:induction false} ScaleConstant(m: Mat, c: int, sqrt: real -> real)
    requires IsSqrt(sqrt) && 0 <= c < m.cols && m.rows >= 2
    requires forall i :: 0 <= i < m.rows ==> Get(m, i, c) == Get(m, 0, c)
    ensures ScaleColumn(m, c, sqrt) == Ok(m)
  {
    var col := ColumnValues(m, c);
    VarZero(col);
    var s := ColumnStd(m, c, sqrt);
    SqSign(s);
  }

  /** With s > 0 the scaled column is the old column times 1/s. */
  lemma ScaledColumn(m: Mat, c: int, sqrt: real -> real)
    requires IsSqrt(sqrt) && 0 <= c < m.cols && m.rows >= 2
    requires ColumnStd(m, c, sqrt) > 0.0
    ensures ScaleColumn(m, c, sqrt).Ok?
    ensures ColumnValues(ScaleColumn(m, c, sqrt).value, c) ==
      Scale(ColumnValues(m, c), 1.0 / ColumnStd(m, c, sqrt))
  {
    var s := ColumnStd(m, c, sqrt);
    var r := ScaleColumn(m, c, sqrt).value;
    assert forall i :: 0 <= i < m.rows ==> Get(r, i, c) == Get(m, i, c) / s;
    ColumnDivided(m, r, c, s);
  }

  /** A column whose every cell was divided by s is the old column times 1/s. */
  lemma {:induction false} ColumnDivided(m: Mat, r: Mat, c: int, s: real)
    requires r.SameShape(m) && 0 <= c < m.cols && s != 0.0
    requires forall i :: 0 <= i < m.rows ==> Get(r, i, c) == Get(m, i, c) / s
    ensures ColumnValues(r, c) == Scale(ColumnValues(m, c), 1.0 / s)
  {
    forall k | 0 <= k < m.rows
      ensures ColumnValues(r, c)[k] == Scale(ColumnValues(m, c), 1.0 / s)[k]
    {
      DivAsProduct(Get(m, k, c), s);
    }
  }

  lemma DivAsProduct(x: real, s: real)
    requires s != 0.0
    ensures x / s == x * (1.0 / s)
  {
  }

  /** After scaling by s > 0 the column has sample variance 1. */
  lemma {:induction false} ScaleColumnVar(m: Mat, c: int, sqrt: real -> real)
    requires IsSqrt(sqrt) && 0 <= c < m.cols && m.rows >= 2
    requires ColumnStd(m, c, sqrt) > 0.0
    ensures ScaleColumn(m, c, sqrt).Ok?
    ensures Var(ColumnValues(ScaleColumn(m, c, sqrt).value, c)) == Ok(1.0)
  {
    ScaledColumn(m, c, sqrt);
    UnitScaled(ColumnValues(m, c), sqrt, ColumnStd(m, c, sqrt));
  }

  /** Values of standard deviation s > 0, divided by s, have variance 1. */
  lemma UnitScaled(col: seq<real>, sqrt: real -> real, s: real)
    requires IsSqrt(sqrt) && |col| >= 2 && s == Std(col, sqrt).value && s > 0.0
    ensures Var(Scale(col, 1.0 / s)) == Ok(1.0)
  {
    var k := 1.0 / s;
    VarScale(col, k);
    UnitVariance(Var(col).value, s, k, Var(Scale(col, k)).value);
  }

  /** Dividing by s, with s·s = v, turns variance v into 1. */
  lemma UnitVariance(v: real, s: real, k: real, w: real)
    requires s > 0.0 && s * s == v && k == 1.0 / s && w == v * (k * k)
    ensures w == 1.0
  {
    assert k * k == 1.0 / (s * s);
  }

  /** sqrt(x) is the one non-negative r with r·r = x. */
  lemma SqrtUnique(sqrt: real -> real, x: real, r: real)
    requires IsSqrt(sqrt) && r >= 0.0 && r * r == x
    ensures sqrt(x) == r
  {
    var q := sqrt(x);
    assert q >= 0.0 && q * q == x;
    if q != r {
      assert r + q > 0.0;
      assert (r - q) * (r + q) == r * r - q * q == 0.0 * (r + q);
      Cancel(r - q, 0.0, r + q);
    }
  }

  /** Scaling an already scaled column changes nothing. */
  lemma {:induction false} ScaleColumnIdempotent(m: Mat, c: int, sqrt: real -> real)
    requires IsSqrt(sqrt)
    requires ScaleColumn(m, c, sqrt).Ok?
    ensures ScaleColumn(ScaleColumn(m, c, sqrt).value, c, sqrt) == ScaleColumn(m, c, sqrt)
  {
    var r := ScaleColumn(m, c, sqrt).value;
    if m.rows >= 2 && ColumnStd(m, c, sqrt) > 0.0 {
      ScaleColumnVar(m, c, sqrt);
      SqrtUnique(sqrt, 1.0, 1.0);
      assert ColumnStd(r, c, sqrt) == 1.0;
      Ext(ScaleColumn(r, c, sqrt).value, r);
    }
  }

  /** The first n passes of ColumnScaler.apply(M). */
  function ScaleLoop(m: Mat, n: nat, sqrt: real -> real): (r: Mat)
    requires IsSqrt(sqrt) && n <= m.cols
    ensures r.SameShape(m)
    ensures m.rows < 2 ==> r == m
    ensures m.rows >= 2 ==> forall i, j :: m.Has(i, j) ==>
      Get(r, i, j) ==
        if j < n && ColumnStd(m, j, sqrt) > 0.0 then Get(m, i, j) / ColumnStd(m, j, sqrt) else Get(m, i, j)
  {
    if n == 0 then m
    else
      var prev := ScaleLoop(m, n - 1, sqrt);
      if m.rows >= 2 then
        ScaleStep(m, prev, n, sqrt);
        ScaleColumn(prev, n - 1, sqrt).value
      else
        ScaleColumn(prev, n - 1, sqrt).value
  }

  /** Pass n − 1 of ColumnScaler.apply(M) scales column n − 1 by the spread it had
      in M, since the earlier passes did not touch it. */
  lemma ScaleStep(m: Mat, prev: Mat, n: nat, sqrt: real -> real)
    requires IsSqrt(sqrt) && 0 < n <= m.cols && m.rows >= 2 && prev.SameShape(m)
    requires forall i, j :: m.Has(i, j) ==>
      Get(prev, i, j) ==
        if j < n - 1 && ColumnStd(m, j, sqrt) > 0.0 then Get(m, i, j) / ColumnStd(m, j, sqrt) else Get(m, i, j)
    ensures ScaleColumn(prev, n - 1, sqrt).Ok?
    ensures forall i, j :: m.Has(i, j) ==>
      Get(ScaleColumn(prev, n - 1, sqrt).value, i, j) ==
        if j < n && ColumnStd(m, j, sqrt) > 0.0 then Get(m, i, j) / ColumnStd(m, j, sqrt) else Get(m, i, j)
  {
    ColumnAgree(prev, m, n - 1);
    var s := ColumnStd(m, n - 1, sqrt);
    assert ColumnStd(prev, n - 1, sqrt) == s;
    var r := ScaleColumn(prev, n - 1, sqrt).value;
    forall i, j | m.Has(i, j)
      ensures Get(r, i, j) ==
        if j < n && ColumnStd(m, j, sqrt) > 0.0 then Get(m, i, j) / ColumnStd(m, j, sqrt) else Get(m, i, j)
    {
      if j == n - 1 {
        assert Get(prev, i, j) == Get(m, i, j);
      }
    }
  }

  /** ColumnScaler.apply(M): every column of positive spread scaled to std 1. */
  function ScaleAll(m: Mat, sqrt: real -> real): (r: Mat)
    requires IsSqrt(sqrt)
    ensures r.SameShape(m)
    ensures m.rows < 2 ==> r == m
    ensures m.rows >= 2 ==> forall i, j :: m.Has(i, j) ==>
      Get(r, i, j) ==
        if ColumnStd(m, j, sqrt) > 0.0 then Get(m, i, j) / ColumnStd(m, j, sqrt) else Get(m, i, j)
  {
    ScaleLoop(m, m.cols, sqrt)
  }

  /** Scaling a scaled matrix changes nothing. */
  lemma {:induction false} ScaleAllIdempotent(m: Mat, sqrt: real -> real)
    requires IsSqrt(sqrt)
    ensures ScaleAll(ScaleAll(m, sqrt), sqrt) == ScaleAll(m, sqrt)
  {
    var r := ScaleAll(m, sqrt);
    if m.rows >= 2 {
      forall i, j | r.Has(i, j) ensures Get(ScaleAll(r, sqrt), i, j) == Get(r, i, j) {
        ScaleAllColumn(m, j, sqrt);
      }
      Ext(ScaleAll(r, sqrt), r);
    }
  }

  /** Column j of ScaleAll(m) is column j of ScaleColumn(m, j), and it is either
      unchanged or of standard deviation 1. */
  lemma {:induction false} ScaleAllColumn(m: Mat, j: int, sqrt: real -> real)
    requires IsSqrt(sqrt) && 0 <= j < m.cols && m.rows >= 2
    ensures ColumnValues(ScaleAll(m, sqrt), j) == ColumnValues(ScaleColumn(m, j, sqrt).value, j)
    ensures var r := ScaleAll(m, sqrt);
      forall i :: 0 <= i < m.rows ==>
        Get(r, i, j) == if ColumnStd(r, j, sqrt) > 0.0 then Get(r, i, j) / ColumnStd(r, j, sqrt) else Get(r, i, j)
  {
    var r := ScaleAll(m, sqrt);
    var once := ScaleColumn(m, j, sqrt).value;
    ColumnAgree(r, once, j);
    ScaleColumnIdempotent(m, j, sqrt);
    assert ColumnStd(r, j, sqrt) == ColumnStd(once, j, sqrt);
  }
}

/** The centring and scaling fixture of the library's matrix test. */
module TransformExamples {
  import opened Wrappers
  import opened Series
  import opened Descriptive
  import opened Matrices
  import opened MatrixExamples
  import opened Transforms

  /** Rows −3 / 0 / 3, the centred test matrix. */
  function Centred(): Mat
  {
    Matrix(3, 3, [[-3.0, -3.0, -3.0], [0.0, 0.0, 0.0], [3.0, 3.0, 3.0]])
  }

  /** The test matrix holds 3i + j + 1 at row i, column j. */
  lemma NineCell(i: int, j: int)
    requires Nine().Has(i, j)
    ensures Get(Nine(), i, j) == (3 * i + j + 1) as real
  {
    var m := Nine();
    if i == 0 { assert m.cells[0] == [1.0, 2.0, 3.0]; }
    else if i == 1 { assert m.cells[1] == [4.0, 5.0, 6.0]; }
    else { assert m.cells[2] == [7.0, 8.0, 9.0]; }
  }

  /** The centred matrix holds 3(i − 1) in every column of row i. */
  lemma CentredCell(i: int, j: int)
    requires Centred().Has(i, j)
    ensures Get(Centred(), i, j) == (3 * (i - 1)) as real
  {
    var m := Centred();
    if i == 0 { assert m.cells[0] == [-3.0, -3.0, -3.0]; }
    else if i == 1 { assert m.cells[1] == [0.0, 0.0, 0.0]; }
    else { assert m.cells[2] == [3.0, 3.0, 3.0]; }
  }

  /** The column means of the test matrix are 4, 5 and 6. */
  lemma NineMean(j: int)
    requires 0 <= j < 3
    ensures ColumnMean(Nine(), j) == (j + 4) as real
  {
    var m := Nine();
    if j == 0 { assert ColumnValues(m, 0) == [1.0, 4.0, 7.0]; }
    else if j == 1 { assert ColumnValues(m, 1) == [2.0, 5.0, 8.0]; }
    else { assert ColumnValues(m, 2) == [3.0, 6.0, 9.0]; }
  }

  /** Centring 1 2 3 / 4 5 6 / 7 8 9 column by column gives rows −3, 0, 3. */
  lemma CenterExample()
    ensures CenterAll(Nine()) == Centred()
  {
    var m := Nine();
    var r, e := CenterAll(m), Centred();
    forall i, j | m.Has(i, j) ensures Get(r, i, j) == Get(e, i, j) {
      NineCell(i, j);
      CentredCell(i, j);
      NineMean(j);
    }
    Ext(r, e);
  }

  /** The columns of the centred matrix have variance 9 and spread 3. */
  lemma CentredSpread(sqrt: real -> real, j: int)
    requires IsSqrt(sqrt) && 0 <= j < 3
    ensures ColumnStd(Centred(), j, sqrt) == 3.0
  {
    var col := [-3.0, 0.0, 3.0];
    assert Mean(col) == Ok(0.0);
    assert Deviations(col) == col;
    assert SumSq(col) == 18.0;
    assert Var(col) == Ok(9.0);
    SqrtUnique(sqrt, 9.0, 3.0);
    assert ColumnValues(Centred(), j) == col;
  }

  /** The scaled matrix holds i − 1 in every column of row i. */
  lemma UnitCell(i: int, j: int)
    requires Unit3().Has(i, j)
    ensures Get(Unit3(), i, j) == (i - 1) as real
  {
    var m := Unit3();
    if i == 0 { assert m.cells[0] == [-1.0, -1.0, -1.0]; }
    else if i == 1 { assert m.cells[1] == [0.0, 0.0, 0.0]; }
    else { assert m.cells[2] == [1.0, 1.0, 1.0]; }
  }

  /** Rows −1 / 0 / 1, the scaled test matrix. */
  function Unit3(): Mat
  {
    Matrix(3, 3, [[-1.0, -1.0, -1.0], [0.0, 0.0, 0.0], [1.0, 1.0, 1.0]])
  }

  /** Scaling the centred matrix gives rows −1, 0, 1. */
  lemma ScaleExample(sqrt: real -> real)
    requires IsSqrt(sqrt)
    ensures ScaleAll(Centred(), sqrt) == Unit3()
  {
    var m := Centred();
    var r, e := ScaleAll(m, sqrt), Unit3();
    forall i, j | m.Has(i, j) ensures Get(r, i, j) == Get(e, i, j) {
      CentredSpread(sqrt, j);
      CentredCell(i, j);
      UnitCell(i, j);
      assert Get(r, i, j) == Get(m, i, j) / 3.0;
    }
    Ext(r, e);
  }
}

=== FILE: wrappers.dfy ===
/** Failure-carrying results for the library's exceptions and for the
    non-finite doubles that Java's floating division by zero produces. */
module Wrappers {

  /** What can go wrong in a call of the library. */
  datatype Error =
    | SizeMismatch        // the explicit "list sizes do not match" exception
    | NoSuchElement       // an iterator exhausted before its partner
    | IndexOutOfRange     // a matrix or list access beyond its bounds
    | DimensionMismatch   // Jama's "matrix dimensions must agree"
    | ArithmeticError     // Java int division by zero
    | NullReference       // a field read before it was assigned
    | NotFinite           // a double result that is NaN or infinite
    | NegativeSize        // an array created with a negative length

  datatype Result<+T> = Ok(value: T) | Err(error: Error) {

    predicate IsFailure() {
      Err?
    }

    function PropagateFailure<U>(): Result<U>
      requires Err?
    {
      Err(error)
    }

    function Extract(): T
      requires Ok?
    {
      value
    }
  }

  datatype Option<+T> = None | Some(value: T)
}
